=== FILE: README.md ===
# ecobin — a Dafny model of the e-waste pickup platform's business rules

ecobin is an e-waste pickup service. Residents request pickups, admins assign
collectors, collectors move pickups through their statuses, and residents redeem
credits at partner offers. This project models that core as pure functions over an
immutable in-memory store. The store holds the users, pickups, partners, the credit
ledger, the notifications, the settings document and a source of fresh ids.

Each request handler becomes one function of the form `store × request → Ok(new store) | Err(reason)`.
`Errors.Reason` names one reason per distinct `res.status(...)` branch of the backend,
and `Errors.HttpStatus` gives its status code. A few client-side helpers of the React
frontend are modelled the same way, and connected by lemmas to the server rules they
front. Among them are the admin credit form, the collector controls, the status
buttons, the list editors, the eco level, the redeem button, the route guard, the
response unwrapping and the image-URL rewriting.

The modules follow the source files:

| module | file | models |
|---|---|---|
| `Common`, `Errors`, `Seqs`, `Strings`, `Json` | — | options, results and reasons; sequence helpers; JavaScript's `indexOf`/`includes`/`split`/`trim`/`toLowerCase`; JSON values, truthiness and `parseInt` |
| `Models` | `backend/src/models/*.js` | the six documents, their enums, defaults and schema checks |
| `AdminController` | `backend/src/controllers/adminController.js` | user update/delete, collector assignment, admin status change, scheduling, credit adjustment |
| `PickupController` | `backend/src/controllers/pickupController.js` | pickup creation, the two listings, the collector status update |
| `CreditController` | `backend/src/controllers/creditController.js` | balance and history, redemption |
| `Ledger` | (across the credit handlers) | the balance/ledger invariant and which operations keep it |
| `CreditCalculator` | `backend/src/utils/calculateCredits.js` | credits for a pickup |
| `SettingsController` | `backend/src/controllers/settingsController.js`, `backend/src/models/Settings.js` | the settings singleton and its update |
| `NotificationController` | `backend/src/controllers/notificationController.js` | creation, listing and read state |
| `AuthController` | `backend/src/controllers/authController.js` | register (single and batch), login, admin login |
| `PartnerSeed` | `backend/src/utils/seedPartners.js` | the default offers and their name-filtered insertion |
| `FileRoutes` | `backend/src/routes/fileRoutes.js` | object-name extraction, content type, token selection |
| `Api` | `frontend/src/services/api.js` | file links, token expiry, the expiry guard, unwrapping, `getImageUrl` |
| `ResidentDashboard` | `frontend/src/pages/ResidentDashboard.jsx` | eco level, redeem button |
| `AdminDashboard` | `frontend/src/pages/AdminDashboard.jsx` | credit form, collector controls, status buttons, list editors, image URLs |
| `ProtectedRoute` | `frontend/src/components/ProtectedRoute.jsx` | the access decision |

Some parts of the system become parameters of the functions that need them:
- cryptography: `jwt.verify`, bcrypt's hash and compare;
- JavaScript built-ins that are not modelled: `parseFloat`, the text `String(x)` gives for a number that is not an integer below 10^21, `new Date(...)` validity, `encodeURIComponent` and its inverse, and the base64/JSON decoding of a token payload;
- the current time;
- the pathname of the page;
- the presigned-URL request.

The caller's role is decided by the `authorize` middleware, which is not part of this
model. It appears as a precondition of each handler.

## Model

| member | source | states |
|---|---|---|
| Models.ParseRole | backend/src/models/User.js:43-47 | a role string is accepted exactly when it names one of resident, collector, admin, and the accepted role has that name |
| Models.ParseStatus | backend/src/models/Pickup.js:44-48 | a status string is accepted exactly when it names one of the seven statuses |
| Models.ParseCategory | backend/src/models/Pickup.js:15-19 | a category string is accepted exactly when it names one of the six categories |
| Models.FindUser | backend/src/controllers/adminController.js:30-35 | `findById` on users: the found user is stored under that id; when none is found, no stored user has it |
| Models.FindPickup | backend/src/controllers/adminController.js:124-129 | `findById` on pickups: the found pickup is stored under that id; when none is found, no stored pickup has it |
| Models.UserIndex | backend/src/controllers/adminController.js:32 | `findById`: the position of a user with that id, or proof that no user has it |
| Models.EmojiPasswordMeetsMinLength | backend/src/models/User.js:18-22 | `minlength: 6` counts UTF-16 code units: a password of three emoji (three characters, six units) passes the schema |
| AdminController.UpdateUser | backend/src/controllers/adminController.js:26-70 | 404 for an unknown user; 403 when a boolean `isActive` targets an admin; otherwise only `isActive` (when boolean) and `credits` (when a number) change, and nothing else in the store |
| AdminController.DeleteUser | backend/src/controllers/adminController.js:542-570 | 404 for an unknown user, 403 for an admin; otherwise exactly that user is removed, every admin stays, and nothing else changes |
| AdminController.AssignCollector | backend/src/controllers/adminController.js:113-205 | 400 without a collector id, 404 for an unknown pickup, 403 when the status is engaged, 404 unless the target is a collector; success assigns that collector with status `assigned` from any other status, changes no other pickup field, notifies the collector, and then notifies the resident only when that user still exists (a deleted resident populates as null and is skipped); users, partners, transactions and settings are unchanged |
| AdminController.UnassignCollector | backend/src/controllers/adminController.js:210-277 | 404 / 403 as for assignment; with no collector nothing changes; otherwise the collector is cleared and the status becomes `pending` unless it is completed or rejected |
| AdminController.UnassignLeavesPendingOrRejected | backend/src/controllers/adminController.js:222-255 | after a successful unassignment of an assigned pickup its status is `pending`, or `rejected` when it was rejected |
| AdminController.AdminUpdateStatus | backend/src/controllers/adminController.js:415-474 | 400 for a missing status and for one outside the seven; 404 for an unknown pickup; `pending` also clears collector, proof photo and notes; any other status changes only the status |
| AdminController.ResetThenAssign | backend/src/controllers/adminController.js:419-442 | after a reset to `pending`, any collector can be assigned to the pickup, whatever its earlier status |
| AdminController.EngagedGuardsAgree | backend/src/controllers/adminController.js:134-139 | assignment to any collector is refused as engaged exactly when unassignment is: both handlers guard the same set of statuses |
| AdminController.SchedulePickup | backend/src/controllers/adminController.js:671-735 | 400 for missing fields, 404 for a non-resident target, 404 for a named non-collector, 400 for a schema failure; success appends a pickup with the next id for that resident, `assigned` to the named collector or `pending` without one, carrying the given date and time, no notes, `parseFloat` of a given weight and `parseInt` of a given quantity, and touches nothing else in the store |
| AdminController.ScheduledPickupListed | backend/src/controllers/adminController.js:692-712 | a scheduled pickup heads its resident's `getMyPickups` list and, when a collector was named, that collector's `getAssignedPickups` list; with none named, no collector's list changes |
| AdminController.CreditRequestError | backend/src/controllers/adminController.js:744-765 | a credit request passes exactly when the amount is a positive number and a multiple of 5, and the action is absent, `add` or `deduct` |
| AdminController.AdjustDescription | backend/src/controllers/adminController.js:793-806 | the ledger description is the given one when present, and is never empty |
| AdminController.AssignCredits | backend/src/controllers/adminController.js:740-825 | the refusals in order (request, unknown user, wrong role, overdrawing deduction); success changes that user's balance by exactly ±amount, appends one ledger entry of that user, kind and amount, and changes nothing else |
| AdminController.AssignCreditsKeepsBalanceNonNegative | backend/src/controllers/adminController.js:785-790 | a successful adjustment never takes a non-negative balance below zero |
| PickupController.NumericField | backend/src/controllers/pickupController.js:18-19 | an absent field gives no value; a present one gives its parsed number, or fails when parsing yields NaN |
| PickupController.CreatePickup | backend/src/controllers/pickupController.js:6-53 | accepted exactly when the form passes the schema; the new pickup belongs to the caller, is pending with no collector, proof photo or notes, carries the next id, the given date, the parsed weight/quantity and the first upload, and is the only change to the store; every failure is a 500 |
| PickupController.GetMyPickups | backend/src/controllers/pickupController.js:55-83 | exactly the pickups whose resident is the caller, as many as there are, newest first: the i-th is the i-th from the end of the caller's pickups in creation order |
| PickupController.GetAssignedPickups | backend/src/controllers/pickupController.js:85-114 | exactly the pickups whose collector is the caller, as many as there are, newest first: the i-th is the i-th from the end of those pickups in creation order |
| PickupController.AppendedPickupListed | backend/src/controllers/pickupController.js:55-114 | a pickup added to the store heads exactly the resident's list and the collector's list it belongs to, ahead of the earlier ones; every other list is unchanged |
| PickupController.CreatedPickupListedFirst | backend/src/controllers/pickupController.js:28-57 | a newly created pickup heads the creator's list (newest first), followed by the earlier list |
| PickupController.CollectorStatus | backend/src/controllers/pickupController.js:159-165 | a collector may write exactly the statuses other than `in_progress` |
| PickupController.CollectorUpdateStatus | backend/src/controllers/pickupController.js:116-226 | 404 for an unknown pickup, then 403 unless the caller is its collector, then 400 for a disallowed status; success writes the status only when given, the notes always (empty when absent), the proof photo only when uploaded, and notifies the resident only when a status was given and the resident still exists; earlier notifications are kept; users, partners, transactions and settings are unchanged |
| PickupController.CollectorAnyTransition | backend/src/controllers/pickupController.js:159-177 | the collector may write any allowed status from any current status, `completed` included |
| PickupController.CollectorCompletionAwardsNothing | backend/src/controllers/pickupController.js:168-211 | completing a pickup writes no ledger entry and changes no balance or `creditsEarned` |
| CreditController.FindPartner | backend/src/controllers/creditController.js:56-62 | the found partner is stored with that id; when none is found, no partner has it |
| CreditController.GetMyCredits | backend/src/controllers/creditController.js:8-40 | the balance is the stored one; the history has min(50, own entries) entries, all the caller's, newest first |
| CreditController.RedeemCredits | backend/src/controllers/creditController.js:45-102 | accepted exactly when both fields are given, the partner exists and is active, the amount read with `parseInt` is the price and the balance covers it |
| CreditController.RedeemEffect | backend/src/controllers/creditController.js:71-90 | on success the caller's balance drops by the price and no other user changes, one redeem entry naming the partner is appended, the reported remainder is the new balance, and nothing else in the store changes |
| CreditController.RedeemAcceptsSingletonArray | backend/src/controllers/creditController.js:64 | a non-zero amount sent as a one-element array is redeemed or refused exactly as the bare amount, since `parseInt` reads the array's text |
| CreditController.RedeemRefusals | backend/src/controllers/creditController.js:49-77 | the refusals in order: missing field (400), missing or inactive partner (404), amount other than the price (400), insufficient balance (400) |
| CreditController.RedeemKeepsBalanceNonNegative | backend/src/controllers/creditController.js:71-90 | a successful redemption leaves a non-negative balance |
| CreditController.RedeemShowsInHistory | backend/src/controllers/creditController.js:80-98 | right after a redemption, the history's newest entry is that redemption and the balance shown is the reported remainder |
| Ledger.NetAppend | backend/src/models/CreditTransaction.js:10-18 | appending an entry changes only its owner's net ledger amount, by its signed amount |
| Ledger.SingleEntryPreserves | backend/src/controllers/adminController.js:793-806 | a change of one balance by δ with one appended entry of that user, signed δ, keeps every balance equal to its net ledger amount and non-negative |
| Ledger.AssignCreditsPreservesLedger | backend/src/controllers/adminController.js:785-806 | a successful admin adjustment keeps the balance/ledger invariant |
| Ledger.RedeemPreservesLedger | backend/src/controllers/creditController.js:71-90 | a successful redemption keeps the balance/ledger invariant |
| Ledger.RunPreservesLedger | backend/src/controllers/creditController.js:45-102 | any sequence of adjustments and redemptions keeps the invariant |
| Ledger.UpdateUserBreaksLedger | backend/src/controllers/adminController.js:49-61 | `updateUser` can set a negative balance with no ledger entry, breaking the invariant |
| CreditCalculator.BaseCredits | backend/src/utils/calculateCredits.js:10-19 | an unknown category gets 15, and 15 is the base of `other` and of unknown categories only |
| CreditCalculator.CalculateCredits | backend/src/utils/calculateCredits.js:4-32 | with neither weight nor quantity the result is the base; with a weight, the credits above the base are the largest whole number not above weight times the effective rate, and never below the base for a positive weight and rate |
| CreditCalculator.EffectiveRate | backend/src/utils/calculateCredits.js:7 | a stored non-zero rate is used as it is; the rate used is never 0 |
| CreditCalculator.BaseOnly | backend/src/utils/calculateCredits.js:19-31 | with no (or zero) weight and quantity the result is the category base |
| CreditCalculator.WeightTakesPrecedence | backend/src/utils/calculateCredits.js:22-29 | with a non-zero weight the quantity does not matter |
| CreditCalculator.QuantityAddsFivePerItem | backend/src/utils/calculateCredits.js:27-29 | without weight, each item adds 5 |
| CreditCalculator.ZeroOrMissingRateIsOne | backend/src/utils/calculateCredits.js:7 | a stored rate of 0 or none counts as 1 |
| CreditCalculator.MonotoneInWeight | backend/src/utils/calculateCredits.js:22-24 | with a non-negative rate, more weight never gives fewer credits |
| CreditCalculator.MobileByWeightExample | backend/src/utils/calculateCredits.js:10-24 | mobile, 4.2 kg, rate 2 gives 18 |
| CreditCalculator.LaptopByQuantityExample | backend/src/utils/calculateCredits.js:10-29 | laptop, quantity 2 gives 60 |
| SettingsController.GetSettings | backend/src/models/Settings.js:39-45 | the existing document is returned unchanged; without one, the defaults are stored and returned |
| SettingsController.GetSettingsIdempotent | backend/src/models/Settings.js:39-45 | a second call returns the same document and store |
| SettingsController.MergeLimits | backend/src/controllers/settingsController.js:56-58 | given limit keys replace the current ones, the others are kept |
| SettingsController.MergeEmptyLimits | backend/src/controllers/settingsController.js:56-58 | merging no keys keeps the limits |
| SettingsController.UpdateError | backend/src/controllers/settingsController.js:36-68 | refused exactly for a negative rate (reported first) or a non-array category or region list |
| SettingsController.UpdateSettings | backend/src/controllers/settingsController.js:21-79 | a refused update persists only the default document the handler may create; an accepted one replaces exactly the given fields and shallow-merges the limits |
| SettingsController.UpdateThenGet | backend/src/controllers/settingsController.js:70-76 | reading after an update returns what the update reported |
| SettingsController.EmptyUpdateIsGet | backend/src/controllers/settingsController.js:36-70 | an update with no fields is a read |
| SettingsController.UpdateIdempotent | backend/src/controllers/settingsController.js:36-70 | applying the same update twice is applying it once |
| SettingsController.UpdateKeepsRateNonNegative | backend/src/controllers/settingsController.js:37-42 | a non-negative stored rate stays non-negative after any accepted update |
| NotificationController.Owned | backend/src/controllers/notificationController.js:8-9 | exactly the user's notifications |
| NotificationController.CreateNotification | backend/src/controllers/notificationController.js:94-108 | an empty title or message gives `None` and changes nothing; otherwise one unread notification is appended and nothing else changes; no error ever reaches the caller |
| NotificationController.CreatedNotificationListedFirst | backend/src/controllers/notificationController.js:6-23 | a created notification heads its owner's list, raises the owner's unread count by one and leaves every other user's count alone |
| NotificationController.GetNotifications | backend/src/controllers/notificationController.js:6-24 | min(50, own) notifications, all the caller's, newest first |
| NotificationController.MarkAsRead | backend/src/controllers/notificationController.js:29-53 | 404 exactly when no notification has that id and owner; otherwise that one becomes read and nothing else changes |
| NotificationController.MarkAsReadIdempotent | backend/src/controllers/notificationController.js:43-44 | marking twice is marking once |
| NotificationController.MarkAllRead | backend/src/controllers/notificationController.js:60-63 | every notification of the caller becomes read, every other one is unchanged |
| NotificationController.MarkAllAsRead | backend/src/controllers/notificationController.js:58-63 | the caller's notifications become read in place, every other notification is unchanged, and nothing else in the store changes |
| NotificationController.UnreadCount | backend/src/controllers/notificationController.js:77-82 | the caller's unread count is at most the number of notifications, and it is zero exactly when each of the caller's notifications is read |
| NotificationController.MarkAllAsReadCounts | backend/src/controllers/notificationController.js:77-91 | afterwards the caller's unread count is 0 and every other user's count is unchanged |
| AuthController.NormalizeEmail | backend/src/models/User.js:11-17 | the lower-cased, trimmed email is never longer than the input |
| AuthController.ExistingByEmail | backend/src/controllers/authController.js:30-38 | finds a stored user with the normalized email, or none has it |
| AuthController.AdminByEmail | backend/src/controllers/authController.js:213 | finds the first stored admin with the normalized email, or no admin has it; a non-admin with that email is never found |
| AuthController.RoleFieldsError | backend/src/controllers/authController.js:41-59 | an admin entry needs phone and secret key; any other needs a non-blank address |
| AuthController.NewUser | backend/src/controllers/authController.js:63-75 | the new user has the next id, is active with no credits, is an admin exactly when requested, and defaults to resident |
| AuthController.Hashed | backend/src/models/User.js:63-71 | the stored password is the hash; a non-empty secret key is hashed; nothing else changes |
| AuthController.RegisterOne | backend/src/controllers/authController.js:25-101 | a refused entry leaves the store unchanged; an accepted one appends exactly the created user |
| AuthController.RegisterOneRefusals | backend/src/controllers/authController.js:30-77 | an existing email is refused first, then missing role fields, then the schema; accepted exactly when all pass |
| AuthController.RegisterOneStores | backend/src/controllers/authController.js:63-77 | the stored user has a fresh id, the normalized unused email, the hashed password of at least six UTF-16 code units, an active empty account and the role's own fields |
| AuthController.RegisterAllUnfold | backend/src/controllers/authController.js:25-101 | the entries are processed one by one, each against the store the previous one left |
| AuthController.RegisterAllUsers | backend/src/controllers/authController.js:25-101 | after a batch, the users are the earlier ones followed by exactly the created ones |
| AuthController.BatchPartition | backend/src/controllers/authController.js:117-127 | created plus errors equals the entries; each error names a refused entry and its reason, in increasing order |
| AuthController.RegisterBatch | backend/src/controllers/authController.js:25-127 | the loop computes the batch's final store, its created users and its errors; successful plus failed is the total |
| AuthController.BatchStatus | backend/src/controllers/authController.js:117-127 | 201 exactly when some entry succeeded, else 400 |
| AuthController.RegisterSingle | backend/src/controllers/authController.js:104-112 | a single entry is a batch of one; 201 with the user or 400 with its error |
| AuthController.EmailTakenAfterRegister | backend/src/controllers/authController.js:30-38 | once registered, an email (after normalization) is refused |
| AuthController.DuplicateInBatchRejected | backend/src/controllers/authController.js:25-77 | a second entry of a batch with the same email is refused as existing |
| AuthController.Login | backend/src/controllers/authController.js:137-195 | 400 for missing fields; 401 for an unknown email; for the user `findOne` finds: 401 exactly when the password does not match, 403 exactly when it matches and the account is inactive, and success with that user exactly when it matches and the account is active |
| AuthController.WrongPasswordHidesDeactivation | backend/src/controllers/authController.js:151-175 | a wrong password gives the same 401 whether or not the account is active |
| AuthController.RegisterThenLogin | backend/src/controllers/authController.js:77-175 | a registered user logs in with the same email and password |
| AuthController.LoginOfNewestUser | backend/src/controllers/authController.js:150-175 | a user appended with an email no earlier user has, active and with a matching password, logs in as itself |
| AuthController.AdminLogin | backend/src/controllers/authController.js:200-267 | all three fields required; 401 when no admin has that email; for the admin `findOne` finds: 401 exactly on a password mismatch, an exception exactly when it has no secret key, 401 exactly on a secret-key mismatch, 403 exactly when both match and the account is inactive, and success with that admin exactly when both match and it is active |
| AuthController.AdminLoginAccepts | backend/src/controllers/authController.js:211-245 | with emails unique, an active admin whose password and secret key both match is logged in |
| PartnerSeed.ToAdd | backend/src/utils/seedPartners.js:54-60 | exactly the default offers whose name is not yet present |
| PartnerSeed.AddedCovers | backend/src/utils/seedPartners.js:54-67 | afterwards every default name is present |
| PartnerSeed.AddedAreMissingOffers | backend/src/utils/seedPartners.js:54-67 | each inserted partner is a default whose name was missing, with a fresh id |
| PartnerSeed.SeedWith | backend/src/utils/seedPartners.js:54-67 | existing partners are kept in place, every default name ends up present, the added ones were missing, and nothing else changes |
| PartnerSeed.SeedIdempotent | backend/src/utils/seedPartners.js:58-67 | a second seeding inserts nothing |
| PartnerSeed.SeedEmpty | backend/src/utils/seedPartners.js:54-67 | on an empty collection every default is inserted |
| PartnerSeed.DefaultPartnersValid | backend/src/utils/seedPartners.js:6-51 | there are seven defaults, all active, with a name and a price of at least 1 |
| Json.NumberText | backend/src/controllers/creditController.js:64 | `String(x)`: an integer below 10^21 in magnitude prints as its decimal digits; any other number prints in a form given as a parameter |
| Json.ParseIntValue | backend/src/controllers/creditController.js:64 | `parseInt` of a value: a string is parsed as it stands; `undefined`, `null`, booleans and objects are NaN |
| Json.ParseIntOfText | backend/src/controllers/creditController.js:64 | for every value, `parseInt(v)` is `parseInt(String(v))`: the value is converted to its text first |
| Json.CommaStopsParse | backend/src/controllers/creditController.js:64 | `parseInt` stops at a comma, so an array reads as the text of its first item |
| Json.NonNumericParsesNaN | backend/src/controllers/creditController.js:64 | `undefined`, `null`, booleans and objects read as NaN |
| Json.ParseIntOfInteger | backend/src/controllers/creditController.js:64 | every integer below 10^21 in magnitude, sent as a number, reads back as itself |
| Json.SingletonArrayParsesAsItem | backend/src/controllers/creditController.js:64 | a one-element array reads as its item |
| Json.ParseIntOfExponentText | backend/src/controllers/creditController.js:64 | a number printed as `5e-7` reads as 5, not as its truncation 0 |
| Json.ParseIntRoundTrip | backend/src/controllers/creditController.js:64-69 | `parseInt` reads back any integer's decimal text |
| Json.ParseIntSkipsWhiteSpace | backend/src/controllers/creditController.js:64 | skipping leading white space one character at a time is the same as trimming it first |
| Strings.JsLength | backend/src/models/User.js:21 | JavaScript's `length`: at least the number of characters and at most twice it |
| Strings.JsLengthIsCount | backend/src/models/User.js:21 | the JavaScript length equals the number of characters exactly when no character lies outside the Basic Multilingual Plane |
| Strings.Find | backend/src/routes/fileRoutes.js:56 | the first occurrence of the separator, or none at all |
| Strings.SplitShape | backend/src/routes/fileRoutes.js:56-57 | the split has a second piece exactly when the separator occurs; otherwise it is the whole string |
| Strings.SplitPiecesLack | backend/src/routes/fileRoutes.js:57-63 | no piece of a split holds the separator |
| Strings.SplitJoin | backend/src/routes/fileRoutes.js:57-63 | joining the pieces with the separator gives the string back |
| Strings.LastPieceAfter | backend/src/routes/fileRoutes.js:59 | `split(c).pop()` is exactly the text after the last `c` |
| Strings.Trim | frontend/src/pages/AdminDashboard.jsx:1423 | the trimmed text starts and ends with non-space, and is empty exactly when the input is all white space |
| Strings.ToLower | backend/src/routes/fileRoutes.js:104 | lower-casing keeps the length and maps each letter |
| FileRoutes.KeyPath | backend/src/routes/fileRoutes.js:55-60 | without `/ecobin/` the key has no `/`; a name without `/` is kept |
| FileRoutes.ObjectName | backend/src/routes/fileRoutes.js:55-63 | the object name has no `?`; a name with neither `/` nor `?` is kept; without `/ecobin/` the result has no `/` |
| FileRoutes.ObjectNameIdempotent | backend/src/routes/fileRoutes.js:90-98 | extracting twice is extracting once, as the presigned route does after the proxy link |
| FileRoutes.ObjectNameOfStoredUrl | backend/src/routes/fileRoutes.js:55-63 | the stored URL `<endpoint>/ecobin/<key>` of an upload, possibly presigned, yields exactly the key |
| FileRoutes.KeyPathOfStoredUrl | backend/src/routes/fileRoutes.js:56-57 | for a stored URL with one `/ecobin/`, the text after it is the key |
| FileRoutes.ExtensionType | backend/src/routes/fileRoutes.js:105-113 | png, gif, webp and pdf get their types, every other extension `image/jpeg` |
| FileRoutes.ContentType | backend/src/routes/fileRoutes.js:104-113 | the type is always one of the five known ones |
| FileRoutes.ContentTypeOfExtension | backend/src/routes/fileRoutes.js:104 | the type of `<base>.<ext>` depends only on `ext`, case-insensitively |
| FileRoutes.RequestToken | backend/src/routes/fileRoutes.js:12-19 | a `Bearer` header decides: its second space-separated word, if any; otherwise a non-empty `?token=` |
| FileRoutes.BearerHeaderToken | backend/src/routes/fileRoutes.js:13-14 | `Bearer <token>` yields the token |
| FileRoutes.HeaderTakesPriority | backend/src/routes/fileRoutes.js:12-19 | with a `Bearer` header the query token is ignored |
| FileRoutes.ProtectOptional | backend/src/routes/fileRoutes.js:9-44 | admitted exactly when a non-empty token verifies to the id of a stored user, who becomes the caller; otherwise 401 |
| FileRoutes.NoTokenRefused | backend/src/routes/fileRoutes.js:21-26 | neither header nor query token gives 401 |
| FileRoutes.BearerAdmits | backend/src/routes/fileRoutes.js:13-31 | a verifying bearer token of a stored user is admitted |
| Api.GetFile | frontend/src/services/api.js:473-484 | the link is under `/files/` and ends in `?token=<token>` when there is a token |
| Api.GetFileOfStoredUrl | frontend/src/services/api.js:473-484 | the link for a stored upload `<endpoint>/ecobin/<key>`, with or without a presigned query, is exactly `<apiBase>/files/` followed by the encoded key and the token suffix |
| Api.GetFileQueryIffToken | frontend/src/services/api.js:483 | the link has a query exactly when there is a token |
| Api.GetFileLinkResolves | frontend/src/services/api.js:476-483 | for a key without `%`, the proxy route's two decodes of the encoded link segment (Express, then fileRoutes.js:87) and its extraction give back the client's key, and the query token authenticates |
| Api.ExpiryMillis | frontend/src/services/api.js:105 | a numeric `exp` is scaled to milliseconds; a missing one is NaN |
| Api.IsTokenExpired | frontend/src/services/api.js:101-111 | a missing or undecodable token is expired; otherwise expired exactly when now ≥ exp × 1000 |
| Api.ExpiryIsMonotone | frontend/src/services/api.js:101-111 | an expired token stays expired later |
| Api.NoExpiryClaimNeverExpires | frontend/src/services/api.js:104-106 | a payload without `exp` never expires (NaN comparison) |
| Api.AdminLoginIsLogin | frontend/src/services/api.js:129 | the `/admin/login` test adds nothing to the `/login` test |
| Api.ExpiryGuard | frontend/src/services/api.js:123-133 | an expired stored token clears the session and refuses the request, redirecting to `/login` unless already on a login page; otherwise the session is kept |
| Api.GuardNeverSendsExpired | frontend/src/services/api.js:123-133 | no request proceeds with an expired token |
| Api.GuardClearsOnce | frontend/src/services/api.js:123-133 | after one refusal the next request proceeds |
| Api.Unwrap | frontend/src/services/api.js:196-206 | `data` when both `success` and `data` are defined, otherwise the body itself |
| Api.UnwrapEnvelope | frontend/src/services/api.js:197-199 | a `{ success, data }` envelope yields its data |
| Api.UnwrapKeepsOthers | frontend/src/services/api.js:200-206 | auth responses and arrays come back whole |
| Api.PresignTarget | frontend/src/services/api.js:491-496 | a presign is asked only for an http(s) URL with `/ecobin/`, not presigned yet, with a non-empty key |
| Api.GetImageUrl | frontend/src/services/api.js:488-510 | no URL gives `null`; a URL that is not a presign target is returned as it is; otherwise the presigned URL, falling back to the original |
| Api.GetImageUrlKeeps | frontend/src/services/api.js:492-509 | presigned and non-http URLs are returned unchanged |
| Api.PresignsStoredKey | frontend/src/services/api.js:494-497 | the stored URL of an upload is presigned under its key, which the server's extraction keeps |
| ResidentDashboard.GetEcoLevel | frontend/src/pages/ResidentDashboard.jsx:120-126 | the level is the highest whose threshold (50, 100, 200, 500) the balance reaches |
| ResidentDashboard.EcoLevelMonotone | frontend/src/pages/ResidentDashboard.jsx:120-126 | a higher balance never shows a lower level |
| ResidentDashboard.ThresholdReachesLevel | frontend/src/pages/ResidentDashboard.jsx:121-125 | each threshold reaches its own level, and the level names are distinct |
| ResidentDashboard.RedeemButtonFor | frontend/src/pages/ResidentDashboard.jsx:547-552 | disabled exactly when the balance is below the price, showing the exact shortfall |
| ResidentDashboard.EnabledButtonRedeems | frontend/src/pages/ResidentDashboard.jsx:155-168 | pressing an enabled button for an active offer priced below 10^21 is accepted by the server |
| ResidentDashboard.DisabledButtonWouldBeRefused | frontend/src/pages/ResidentDashboard.jsx:546-552 | the request of a disabled button would be refused for insufficient credits |
| AdminDashboard.SubmitCredits | frontend/src/pages/AdminDashboard.jsx:316-354 | the client sends exactly a multiple-of-5 amount that does not overdraw a deduction, and reports which check failed |
| AdminDashboard.ClientCreditChecksMatchServer | frontend/src/pages/AdminDashboard.jsx:320-332 | for a positive amount and the stored balance, the client passes a request exactly when the server accepts it |
| AdminDashboard.ZeroAmountPassesClient | frontend/src/pages/AdminDashboard.jsx:320-326 | 0 passes the client and is refused by the server |
| AdminDashboard.PreviewAsWritten | frontend/src/pages/AdminDashboard.jsx:669-678 | the preview adds or subtracts the amount as read by `parseInt` |
| AdminDashboard.PreviewAsWrittenDisagrees | frontend/src/pages/AdminDashboard.jsx:672-675 | for `1e2` the preview shows balance + 1 while 100 is sent |
| AdminDashboard.BalancePreview | frontend/src/pages/AdminDashboard.jsx:669-678 | the corrected preview is hidden exactly for an empty amount, and not a number exactly when the submitted amount is NaN |
| AdminDashboard.PreviewMatchesStoredBalance | frontend/src/pages/AdminDashboard.jsx:672-675 | the corrected preview is the balance the server stores |
| AdminDashboard.CollectorAcceptedIsEngaged | frontend/src/pages/AdminDashboard.jsx:976 | the client's accepted set is the server's engaged set |
| AdminDashboard.CollectorControlsEnabled | frontend/src/pages/AdminDashboard.jsx:1002-1036 | the controls are enabled exactly when idle and not engaged |
| AdminDashboard.CollectorControlsMatchServer | frontend/src/pages/AdminDashboard.jsx:976-1036 | enabled controls are never refused as engaged, and disabled ones would be |
| AdminDashboard.StatusButtons | frontend/src/pages/AdminDashboard.jsx:1054-1083 | the buttons offer in progress, completed and pending, never the current status |
| AdminDashboard.StatusButtonsAtEnds | frontend/src/pages/AdminDashboard.jsx:1054-1083 | completed offers only the reset; pending offers both forward moves |
| AdminDashboard.StatusButtonsAccepted | frontend/src/pages/AdminDashboard.jsx:1054-1083 | every shown button is accepted by the server and sets that status |
| AdminDashboard.AddEntry | frontend/src/pages/AdminDashboard.jsx:1420-1428 | appends the trimmed text unless empty or listed; keeps the list free of duplicates |
| AdminDashboard.AddEntryIdempotent | frontend/src/pages/AdminDashboard.jsx:1495-1503 | adding the same text twice adds it once |
| AdminDashboard.FilterOutIndex | frontend/src/pages/AdminDashboard.jsx:1406 | filtering by index removes the entry at that index only |
| AdminDashboard.RemoveEntryDeletesOne | frontend/src/pages/AdminDashboard.jsx:1480-1482 | removal deletes exactly the chosen entry and keeps the list free of duplicates |
| AdminDashboard.AddThenRemove | frontend/src/pages/AdminDashboard.jsx:1405-1428 | removing the entry just added restores the list |
| AdminDashboard.AdminImageUrl | frontend/src/pages/AdminDashboard.jsx:360-384 | no URL gives `null`; presigned and non-MinIO URLs are kept; rewritten ones are proxy links |
| AdminDashboard.AdminImageUrlOfStoredUrl | frontend/src/pages/AdminDashboard.jsx:360-384 | the stored URL of an upload becomes the proxy link of exactly its key |
| ProtectedRoute.Decide | frontend/src/components/ProtectedRoute.jsx:4-33 | a spinner exactly while loading; `/login` exactly without a user; `/` exactly for a role a non-empty list leaves out; the page otherwise |
| ProtectedRoute.WideningAdmits | frontend/src/components/ProtectedRoute.jsx:28-32 | admitting more roles never turns away an admitted user |
| ProtectedRoute.ChildrenNeedUser | frontend/src/components/ProtectedRoute.jsx:7-26 | a page is shown only to a signed-in user once loading is over |
| ProtectedRoute.AdminPageExample | frontend/src/components/ProtectedRoute.jsx:28-32 | a resident on an admin page goes home; an admin is admitted; an empty list admits anyone |

## Left out

- Object storage: uploading, the MinIO `getObject`/presign calls and stream piping. Stored photos are opaque strings, and the presign request is a parameter.
- Cryptography: JWT signing and verification, bcrypt hashing and comparison. They are parameters. Apart from adminLogin's comparison against a missing secret key, which is modelled as an exception, a comparison that throws is not modelled.
- Queries: Mongoose population, `select('-password')` projections and timestamps. `getStats`, `getTopContributors`, `getUsers`, `getAllPickups`, `createUser`, the partner CRUD handlers and `getPartners` are outside this model's core.
- The Express glue: the `errorHandler` middleware's mapping of thrown errors, and routing.
- Role gating by the `authorize` middleware: each handler's caller role is a precondition.
- Concurrency: each request is one atomic step. The separate writes of a balance and its ledger entry are not interleaved with other requests.
- Floating point: amounts are reals. JavaScript doubles, their rounding, NaN and Infinity in stored numbers are not modelled. `parseFloat` and date parsing are parameters.
- Network and browser I/O: fetch, timeouts, the 401 handling of a response, health checks, localStorage. The expiry guard's clearing of the session and its redirect are returned as values.
- The log lines of the seeder (counts of active partners) and all console output.
- Rendering: everything in the pages other than the named helpers, including the browser's own `min`/`step` input validation.
- The schema's `trim` on partner names, and the schema's uniqueness index on email beyond the controller's own lookup.
- Strings.ToLower: only ASCII letters are lower-cased. Unicode case mapping is not modelled.
- FileRoutes.ContentType: an extension naming an inherited property of a plain object (such as `constructor`) would pick that property instead of a type; the model maps it to `image/jpeg`.
- FileRoutes.ObjectName: the routes decode `req.params.filename`, which Express has already decoded, once more (fileRoutes.js:52, 87). The model takes `decodeURIComponent` as a parameter and does not say what a second decode makes of a name that contains `%`: it may name another object, or throw `URIError` and end in `next(error)`.
- Api.GetFileLinkResolves: proved only for keys without `%`. Upload keys are a random UUID and the file's extension (formidableHelper.js:52); an extension holding `%` would be affected by the second decode.
- Api.Unwrap: the second branch for auth responses returns the body, as the fall-through does. It is merged with the fall-through.
- Api.ExpiryMillis: how a non-numeric `exp` converts to a number is a parameter.
- AuthController.RegisterOne, AuthController.Login, AuthController.AdminLogin and AdminController.SchedulePickup: request bodies are taken to carry strings only. A JSON body may hold any value. A truthy non-string address passes the `typeof address === 'string'` test (authController.js:52) and is then cast to text by Mongoose. An object email such as `{"$ne": null}` becomes a query operator in `User.findOne({ email })` (authController.js:30, 150, 213) rather than an equality on a normalised string. A non-string name, password or secret key is cast or refused by the schema. None of this is modelled.
- AuthController.RegisterOneRefusals: schema failures are reported as one reason. The model does not say which field failed.
- CreditCalculator.BaseCredits: a category naming an inherited property of a plain object (such as `constructor`) would pick that property instead of 15; the model gives 15.
- Json.NumberText: the text JavaScript prints for a number that is not an integer below 10^21 (a fraction, or exponent form) is a parameter, since the shortest round-trip printing of doubles is not modelled. `CreditController.RedeemCredits` depends on it only for such amounts.
- CreditController.GetMyCredits: `credits || 0` also maps NaN to 0, and NaN is not modelled.

## Findings

| source | as written | input that shows it | evidently intended | confidence | as-written member | corrected member |
|---|---|---|---|---|---|---|
| frontend/src/pages/AdminDashboard.jsx:672-675 | the balance preview reads the amount with `parseInt`, while the submission reads it with `parseFloat` | amount `1e2` with action add: the preview shows balance + 1, the request sends 100 | the preview shows the balance the server will store, so it reads the amount as the submission does | not executed | AdminDashboard.PreviewAsWrittenDisagrees | AdminDashboard.PreviewMatchesStoredBalance |

=== FILE: admin.dfy ===
/** `controllers/adminController.js`: the admin's operations on users, on the pickup
    lifecycle and on balances. The caller is an admin (checked by the route's middleware). */
module AdminController {
  import opened Common
  import opened Seqs
  import opened Models
  import opened Errors
  import opened Json
  import NotificationController
  import PickupController

  // ---------------------------------------------------------------- users

  /** `updateUser`: a boolean `isActive` and a numeric `credits` are written as given;
      values of any other type are ignored. An admin's account cannot be (de)activated. */
  function UpdateUser(st: Store, id: Id, isActive: Value, credits: Value): (r: Result<Store>)
    ensures FindUser(st, id).None? ==> r == Err(UserNotFound)
    ensures r.Ok? <==> FindUser(st, id).Some? && !(isActive.Bool? && FindUser(st, id).value.role == Admin)
    ensures r.Err? && FindUser(st, id).Some? ==> r.reason == AdminProtected
    ensures r.Ok? ==>
      var i := UserIndex(st.users, id).value;
      var u := st.users[i];
      && OnlyChangedAt(st.users, r.value.users, i)
      && r.value.users[i].isActive == (if isActive.Bool? then isActive.b else u.isActive)
      && r.value.users[i].credits == (if credits.Num? then credits.n else u.credits)
      && r.value.users[i].(isActive := u.isActive, credits := u.credits) == u
    ensures r.Ok? ==> r.value.(users := st.users) == st
  {
    match UserIndex(st.users, id)
    case None => Err(UserNotFound)
    case Some(i) =>
      var u := st.users[i];
      if isActive.Bool? && u.role == Admin then Err(AdminProtected)
      else
        var u' := u.(isActive := if isActive.Bool? then isActive.b else u.isActive,
                     credits := if credits.Num? then credits.n else u.credits);
        Ok(st.(users := st.users[i := u']))
  }

  /** `deleteUser`: removes a non-admin user; admins are never deleted. */
  function DeleteUser(st: Store, id: Id): (r: Result<Store>)
    ensures FindUser(st, id).None? ==> r == Err(UserNotFound)
    ensures r.Ok? <==> FindUser(st, id).Some? && FindUser(st, id).value.role != Admin
    ensures r.Err? && FindUser(st, id).Some? ==> r.reason == AdminProtected
    ensures r.Ok? ==>
      && |r.value.users| == |st.users| - 1
      && multiset(r.value.users) + multiset{FindUser(st, id).value} == multiset(st.users)
    ensures r.Ok? ==> forall u :: u in st.users && u.role == Admin ==> u in r.value.users
    ensures r.Ok? ==> r.value.(users := st.users) == st
  {
    match UserIndex(st.users, id)
    case None => Err(UserNotFound)
    case Some(i) =>
      if st.users[i].role == Admin then Err(AdminProtected)
      else
        var users' := RemoveAt(st.users, i);
        assert forall u :: u in st.users && u.role == Admin ==> u in users' by {
          forall u | u in st.users && u.role == Admin ensures u in users' {
            assert u in multiset(st.users);
            assert u != st.users[i];
          }
        }
        Ok(st.(users := users'))
  }

  // ---------------------------------------------------------------- pickup lifecycle

  /** `assignCollector`. The checks run in this order: a collector id is given, the pickup
      exists, no collector has engaged with it yet, and the target is a collector. On
      success the pickup is assigned to that collector from whatever other status it had,
      and the collector is notified, and so is the resident when that user still exists:
      a deleted resident populates as null and is skipped. */
  function AssignCollector(st: Store, pickupId: Id, collectorId: Option<Id>): (r: Result<Store>)
    ensures collectorId.None? ==> r == Err(MissingField)
    ensures collectorId.Some? && FindPickup(st, pickupId).None? ==> r == Err(PickupNotFound)
    ensures collectorId.Some? && FindPickup(st, pickupId).Some? && Engaged(FindPickup(st, pickupId).value.status) ==>
      r == Err(CollectorEngaged)
    ensures r.Ok? <==>
      && collectorId.Some? && FindPickup(st, pickupId).Some?
      && !Engaged(FindPickup(st, pickupId).value.status)
      && HasRole(st, collectorId.value, Collector)
    ensures r.Err? && collectorId.Some? && FindPickup(st, pickupId).Some? && !Engaged(FindPickup(st, pickupId).value.status) ==>
      r.reason == CollectorNotFound
    ensures r.Ok? ==>
      var i := PickupIndex(st.pickups, pickupId).value;
      var p := st.pickups[i];
      && OnlyChangedAt(st.pickups, r.value.pickups, i)
      && r.value.pickups[i].collector == collectorId
      && r.value.pickups[i].status == Assigned
      && r.value.pickups[i].(collector := p.collector, status := p.status) == p
    ensures r.Ok? ==> r.value.users == st.users && r.value.transactions == st.transactions
    ensures r.Ok? ==> r.value.(pickups := st.pickups, notifications := st.notifications, nextId := st.nextId) == st
    ensures r.Ok? ==>
      var resident := FindPickup(st, pickupId).value.resident;
      && |r.value.notifications| == |st.notifications| + (if FindUser(st, resident).Some? then 2 else 1)
      && r.value.notifications[..|st.notifications|] == st.notifications
      && r.value.notifications[|st.notifications|].user == collectorId.value
      && r.value.notifications[|st.notifications|].kind == PickupAssigned
      && (FindUser(st, resident).Some? ==>
            && r.value.notifications[|st.notifications| + 1].user == resident
            && r.value.notifications[|st.notifications| + 1].kind == PickupStatusUpdate)
  {
    if collectorId.None? then Err(MissingField)
    else match PickupIndex(st.pickups, pickupId)
      case None => Err(PickupNotFound)
      case Some(i) =>
        var p := st.pickups[i];
        if Engaged(p.status) then Err(CollectorEngaged)
        else if !HasRole(st, collectorId.value, Collector) then Err(CollectorNotFound)
        else
          var p' := p.(collector := collectorId, status := Assigned);
          var st1 := st.(pickups := st.pickups[i := p']);
          var category := CategoryName(p.category);
          var st2 := NotificationController.CreateNotification(st1, collectorId.value, PickupAssigned,
            "New Pickup Assigned", "You have been assigned a new pickup request for " + category, Some(pickupId)).0;
          if FindUser(st, p.resident).None? then Ok(st2)
          else
            var st3 := NotificationController.CreateNotification(st2, p.resident, PickupStatusUpdate,
              "Pickup Assigned", "A collector has been assigned to your " + category + " pickup request", Some(pickupId)).0;
            Ok(st3)
  }

  /** `unassignCollector`. The same engaged-status guard as `assignCollector`; a pickup
      without a collector is left as it is; otherwise the collector is cleared and the
      status reverts to pending unless it is completed or rejected. */
  function UnassignCollector(st: Store, pickupId: Id): (r: Result<Store>)
    ensures FindPickup(st, pickupId).None? ==> r == Err(PickupNotFound)
    ensures r.Ok? <==> FindPickup(st, pickupId).Some? && !Engaged(FindPickup(st, pickupId).value.status)
    ensures r.Err? && FindPickup(st, pickupId).Some? ==> r.reason == CollectorEngaged
    ensures r.Ok? && FindPickup(st, pickupId).value.collector.None? ==> r.value == st
    ensures r.Ok? ==>
      var i := PickupIndex(st.pickups, pickupId).value;
      var p := st.pickups[i];
      && OnlyChangedAt(st.pickups, r.value.pickups, i)
      && r.value.pickups[i].collector.None?
      && r.value.pickups[i].status == (if p.collector.None? || p.status == Completed || p.status == Rejected then p.status else Pending)
      && r.value.pickups[i].(collector := p.collector, status := p.status) == p
    ensures r.Ok? ==> r.value.(pickups := st.pickups) == st
  {
    match PickupIndex(st.pickups, pickupId)
    case None => Err(PickupNotFound)
    case Some(i) =>
      var p := st.pickups[i];
      if Engaged(p.status) then Err(CollectorEngaged)
      else if p.collector.None? then Ok(st)
      else
        var status := if p.status != Completed && p.status != Rejected then Pending else p.status;
        Ok(st.(pickups := st.pickups[i := p.(collector := None, status := status)]))
  }

  /** Completed pickups cannot reach the completed/rejected exemption of
      `unassignCollector`: the engaged guard refuses them first, so a successful unassign
      leaves the pickup pending, or rejected when it was rejected. */
  lemma UnassignLeavesPendingOrRejected(st: Store, pickupId: Id)
    requires UnassignCollector(st, pickupId).Ok?
    requires FindPickup(st, pickupId).value.collector.Some?
    ensures
      var p := FindPickup(st, pickupId).value;
      var i := PickupIndex(st.pickups, pickupId).value;
      UnassignCollector(st, pickupId).value.pickups[i].status == (if p.status == Rejected then Rejected else Pending)
  {
  }

  /** The admin's `updatePickupStatus`. The status must be one of the seven names; the
      pickup is looked up only after that. Resetting to pending also clears the collector,
      the proof photo and the notes; any other status changes the status alone. No
      transition order is checked. */
  function AdminUpdateStatus(st: Store, pickupId: Id, status: Value): (r: Result<Store>)
    ensures !Truthy(status) ==> r == Err(MissingField)
    ensures Truthy(status) && !(status.Str? && ParseStatus(status.s).Some?) ==> r == Err(InvalidStatus)
    ensures r.Ok? <==> status.Str? && ParseStatus(status.s).Some? && FindPickup(st, pickupId).Some?
    ensures status.Str? && ParseStatus(status.s).Some? && FindPickup(st, pickupId).None? ==> r == Err(PickupNotFound)
    ensures r.Ok? ==>
      var i := PickupIndex(st.pickups, pickupId).value;
      var p := st.pickups[i];
      var s := ParseStatus(status.s).value;
      && OnlyChangedAt(st.pickups, r.value.pickups, i)
      && r.value.pickups[i].status == s
      && (s == Pending ==> r.value.pickups[i] == p.(status := Pending, collector := None, proofPhoto := None, notes := ""))
      && (s != Pending ==> r.value.pickups[i] == p.(status := s))
    ensures r.Ok? ==> r.value.(pickups := st.pickups) == st
  {
    if !Truthy(status) then Err(MissingField)
    else if !status.Str? || ParseStatus(status.s).None? then Err(InvalidStatus)
    else
      var s := ParseStatus(status.s).value;
      match PickupIndex(st.pickups, pickupId)
      case None => Err(PickupNotFound)
      case Some(i) =>
        var p := st.pickups[i];
        var p' := if s == Pending then p.(status := s, collector := None, proofPhoto := None, notes := "") else p.(status := s);
        Ok(st.(pickups := st.pickups[i := p']))
  }

  /** The recovery path the 403 message points to: after an admin resets a pickup to
      pending, it can be assigned to any collector, whatever its status was before. */
  lemma ResetThenAssign(st: Store, pickupId: Id, collectorId: Id)
    requires FindPickup(st, pickupId).Some?
    requires HasRole(st, collectorId, Collector)
    ensures AdminUpdateStatus(st, pickupId, Str("pending")).Ok?
    ensures AssignCollector(AdminUpdateStatus(st, pickupId, Str("pending")).value, pickupId, Some(collectorId)).Ok?
  {
    var st' := AdminUpdateStatus(st, pickupId, Str("pending")).value;
    FirstIndexSamePredicate(st.pickups, st'.pickups, (p: Pickup) => p.id == pickupId);
    assert st'.users == st.users;
  }

  /** Every engaged status blocks both reassignment and unassignment, and nothing else
      does: the guard is the same set in both handlers. */
  lemma EngagedGuardsAgree(st: Store, pickupId: Id, collectorId: Id)
    requires FindPickup(st, pickupId).Some?
    ensures AssignCollector(st, pickupId, Some(collectorId)) == Err(CollectorEngaged)
        <==> UnassignCollector(st, pickupId) == Err(CollectorEngaged)
  {
  }

  // ---------------------------------------------------------------- schedulePickup

  /** The JSON body of `schedulePickup`, with each text field as a string, when present,
      and its ids resolved (an absent id is `None`). */
  datatype ScheduleRequest = ScheduleRequest(
    residentId: Option<Id>,
    category: Option<string>,
    weight: Option<string>,
    quantity: Option<string>,
    preferredDate: Option<string>,
    preferredTime: Option<string>,
    description: Option<string>,
    collectorId: Option<Id>)

  predicate HasRequiredFields(req: ScheduleRequest) {
    req.residentId.Some? && Present(req.category) && Present(req.preferredDate) && Present(req.preferredTime)
  }

  /** What the pickup schema accepts of the request, once the ids have been checked. */
  predicate ScheduleSchemaValid(req: ScheduleRequest, parseFloat: string -> Option<real>, isValidDate: string -> bool)
    requires HasRequiredFields(req)
  {
    && ParseCategory(req.category.value).Some?
    && isValidDate(req.preferredDate.value)
    && (Present(req.weight) ==> parseFloat(req.weight.value).Some?)
    && (Present(req.quantity) ==> ParseIntString(req.quantity.value).Some?)
  }

  /** `schedulePickup`: an admin creates a pickup for a resident, assigned at once when a
      valid collector is named. The checks run in this order: required fields, resident,
      collector, then the schema (reported as a validation error). No notification is sent. */
  function SchedulePickup(st: Store, req: ScheduleRequest, parseFloat: string -> Option<real>, isValidDate: string -> bool)
    : (r: Result<(Store, Pickup)>)
    ensures !HasRequiredFields(req) ==> r == Err(MissingField)
    ensures HasRequiredFields(req) && !HasRole(st, req.residentId.value, Resident) ==> r == Err(ResidentNotFound)
    ensures (HasRequiredFields(req) && HasRole(st, req.residentId.value, Resident)
      && req.collectorId.Some? && !HasRole(st, req.collectorId.value, Collector)) ==> r == Err(CollectorNotFound)
    ensures r.Ok? <==>
      && HasRequiredFields(req)
      && HasRole(st, req.residentId.value, Resident)
      && (req.collectorId.Some? ==> HasRole(st, req.collectorId.value, Collector))
      && ScheduleSchemaValid(req, parseFloat, isValidDate)
    ensures (r.Err? && HasRequiredFields(req) && HasRole(st, req.residentId.value, Resident)
      && (req.collectorId.Some? ==> HasRole(st, req.collectorId.value, Collector))) ==> r.reason == ValidationFailed
    ensures r.Ok? ==>
      var (st', p) := r.value;
      && p.resident == req.residentId.value
      && p.collector == req.collectorId
      && p.status == (if req.collectorId.Some? then Assigned else Pending)
      && CategoryName(p.category) == req.category.value
      && p.description == req.description.GetOr("")
      && (p.weight.Some? <==> Present(req.weight))
      && (p.quantity.Some? <==> Present(req.quantity))
      && p.photo.None? && p.proofPhoto.None? && p.creditsEarned == 0.0
      && st'.pickups == st.pickups + [p]
      && st'.users == st.users && st'.transactions == st.transactions && st'.notifications == st.notifications
    ensures r.Ok? ==>
      var (st', p) := r.value;
      && p.id == st.nextId && st'.nextId > p.id
      && p.preferredDate == req.preferredDate.value && p.preferredTime == req.preferredTime.value
      && p.notes == ""
      && p.weight == (if Present(req.weight) then parseFloat(req.weight.value) else None)
      && p.quantity == (if Present(req.quantity) then ParseIntString(req.quantity.value) else None)
      && st'.(pickups := st.pickups, nextId := st.nextId) == st
  {
    if !HasRequiredFields(req) then Err(MissingField)
    else if !HasRole(st, req.residentId.value, Resident) then Err(ResidentNotFound)
    else if req.collectorId.Some? && !HasRole(st, req.collectorId.value, Collector) then Err(CollectorNotFound)
    else
      var weight := PickupController.NumericField(req.weight, parseFloat, ValidationFailed);
      var quantity := PickupController.NumericField(req.quantity, ParseIntString, ValidationFailed);
      if weight.Err? || quantity.Err? then Err(ValidationFailed)
      else if ParseCategory(req.category.value).None? || !isValidDate(req.preferredDate.value) then Err(ValidationFailed)
      else
        var p := NewPickup(st.nextId, req.residentId.value, ParseCategory(req.category.value).value,
                           req.preferredDate.value, req.preferredTime.value)
          .(weight := weight.value, quantity := quantity.value,
            description := req.description.GetOr(""),
            collector := req.collectorId,
            status := if req.collectorId.Some? then Assigned else Pending);
        Ok((st.(pickups := st.pickups + [p], nextId := st.nextId + 1), p))
  }

  /** A scheduled pickup heads its resident's list, and the named collector's list when
      one was named; with no collector named, no collector's list changes. */
  lemma ScheduledPickupListed(st: Store, req: ScheduleRequest, parseFloat: string -> Option<real>,
                              isValidDate: string -> bool, other: Id)
    requires SchedulePickup(st, req, parseFloat, isValidDate).Ok?
    ensures
      var (st', p) := SchedulePickup(st, req, parseFloat, isValidDate).value;
      PickupController.GetMyPickups(st', req.residentId.value)
        == [p] + PickupController.GetMyPickups(st, req.residentId.value)
    ensures req.collectorId.Some? ==>
      var (st', p) := SchedulePickup(st, req, parseFloat, isValidDate).value;
      PickupController.GetAssignedPickups(st', req.collectorId.value)
        == [p] + PickupController.GetAssignedPickups(st, req.collectorId.value)
    ensures req.collectorId.None? ==>
      var (st', p) := SchedulePickup(st, req, parseFloat, isValidDate).value;
      PickupController.GetAssignedPickups(st', other) == PickupController.GetAssignedPickups(st, other)
  {
    var (st', p) := SchedulePickup(st, req, parseFloat, isValidDate).value;
    PickupController.AppendedPickupListed(st, st', p, req.residentId.value);
    PickupController.AppendedPickupListed(st, st', p, if req.collectorId.Some? then req.collectorId.value else other);
  }

  // ---------------------------------------------------------------- assignCredits

  /** `action === 'deduct'`. */
  predicate IsDeduct(action: Value) {
    action == Str("deduct")
  }

  /** The request-only checks of `assignCredits`, which run before any user is read:
      a positive number, a multiple of 5, and an action that is absent, "add" or "deduct". */
  function CreditRequestError(credits: Value, action: Value): (e: Option<Reason>)
    ensures e.None? <==>
      credits.Num? && credits.n > 0.0 && IsMultipleOfFive(credits.n)
      && (!Truthy(action) || action == Str("add") || action == Str("deduct"))
  {
    if !credits.Num? || credits.n <= 0.0 then Some(InvalidCredits)
    else if !IsMultipleOfFive(credits.n) then Some(NotMultipleOfFive)
    else if Truthy(action) && action != Str("add") && action != Str("deduct") then Some(InvalidAction)
    else None
  }

  /** The description stored with an admin adjustment. */
  function AdjustDescription(description: Option<string>, deduct: bool): (d: string)
    ensures Present(description) ==> d == description.value
    ensures d != ""
  {
    if Present(description) then description.value
    else if deduct then "Credits deducted by admin (rule violation)"
    else "Credits assigned by admin"
  }

  /** `assignCredits`: adds to or deducts from the balance of a resident or collector and
      records the adjustment as one ledger entry. The result carries the new store and
      the signed change that the response reports as `creditsChanged`. */
  function AssignCredits(st: Store, target: Id, credits: Value, description: Option<string>, action: Value)
    : (r: Result<(Store, real)>)
    ensures CreditRequestError(credits, action).Some? ==> r == Err(CreditRequestError(credits, action).value)
    ensures CreditRequestError(credits, action).None? && FindUser(st, target).None? ==> r == Err(UserNotFound)
    ensures (CreditRequestError(credits, action).None? && FindUser(st, target).Some?
      && FindUser(st, target).value.role !in {Resident, Collector}) ==> r == Err(NotCreditRole)
    ensures r.Ok? <==>
      && CreditRequestError(credits, action).None?
      && FindUser(st, target).Some? && FindUser(st, target).value.role in {Resident, Collector}
      && !(IsDeduct(action) && FindUser(st, target).value.credits < credits.n)
    ensures (r.Err? && CreditRequestError(credits, action).None? && FindUser(st, target).Some?
      && FindUser(st, target).value.role in {Resident, Collector}) ==> r.reason == NotEnoughToDeduct
    ensures r.Ok? ==>
      var (st', delta) := r.value;
      var i := UserIndex(st.users, target).value;
      && delta == (if IsDeduct(action) then -credits.n else credits.n)
      && OnlyChangedAt(st.users, st'.users, i)
      && st'.users[i] == st.users[i].(credits := st.users[i].credits + delta)
      && st'.transactions == st.transactions + [CreditTransaction(target,
           if IsDeduct(action) then Redeem else Earn, credits.n,
           AdjustDescription(description, IsDeduct(action)), None, None)]
      && st'.(users := st.users, transactions := st.transactions) == st
  {
    match CreditRequestError(credits, action)
    case Some(e) => Err(e)
    case None =>
      match UserIndex(st.users, target)
      case None => Err(UserNotFound)
      case Some(i) =>
        var u := st.users[i];
        if u.role != Resident && u.role != Collector then Err(NotCreditRole)
        else
          var deduct := IsDeduct(action);
          if deduct && u.credits < credits.n then Err(NotEnoughToDeduct)
          else
            var delta := if deduct then -credits.n else credits.n;
            var tx := CreditTransaction(u.id, if deduct then Redeem else Earn, credits.n,
                                        AdjustDescription(description, deduct), None, None);
            Ok((st.(users := st.users[i := u.(credits := u.credits + delta)],
                    transactions := st.transactions + [tx]), delta))
  }

  /** A deduction never takes a non-negative balance below zero. */
  lemma AssignCreditsKeepsBalanceNonNegative(st: Store, target: Id, credits: Value, description: Option<string>, action: Value)
    requires AssignCredits(st, target, credits, description, action).Ok?
    requires FindUser(st, target).value.credits >= 0.0
    ensures FindUser(AssignCredits(st, target, credits, description, action).value.0, target).value.credits >= 0.0
  {
    var st' := AssignCredits(st, target, credits, description, action).value.0;
    FirstIndexSamePredicate(st.users, st'.users, (u: User) => u.id == target);
  }
}

=== FILE: admin_ui.dfy ===
/** The admin dashboard (`pages/AdminDashboard.jsx`): the client-side checks of the credit
    form and its balance preview, the collector controls and status buttons of a pickup,
    the category and region list editors of the settings form, and `getImageUrl`. */
module AdminDashboard {
  import opened Common
  import opened Seqs
  import opened Strings
  import opened Json
  import opened Models
  import opened Errors
  import AdminController
  import FileRoutes
  import Api

  // ------------------------------------------------------------ credit form

  /** The credit form as typed: the amount's text, the description, and the radio choice
      `add` or `deduct`. */
  datatype CreditsForm = CreditsForm(credits: string, description: string, action: string)

  /** The body `handleAssignCredits` sends. */
  datatype CreditRequest = CreditRequest(credits: real, description: string, action: string)

  /** `handleAssignCredits` before the request: the amount (`parseFloat`, `None` for NaN)
      must be a multiple of 5 (NaN is not), and a deduction larger than the selected user's
      displayed balance is refused. */
  function SubmitCredits(balance: real, form: CreditsForm, parseFloat: string -> Option<real>): (r: Result<CreditRequest>)
    ensures r.Ok? <==>
      && parseFloat(form.credits).Some? && IsMultipleOfFive(parseFloat(form.credits).value)
      && !(form.action == "deduct" && balance < parseFloat(form.credits).value)
    ensures r.Err? && (parseFloat(form.credits).None? || !IsMultipleOfFive(parseFloat(form.credits).value)) ==>
      r.reason == NotMultipleOfFive
    ensures r.Err? && parseFloat(form.credits).Some? && IsMultipleOfFive(parseFloat(form.credits).value) ==>
      r.reason == NotEnoughToDeduct
    ensures r.Ok? ==> r.value == CreditRequest(parseFloat(form.credits).value, form.description, form.action)
  {
    match parseFloat(form.credits)
    case None => Err(NotMultipleOfFive)
    case Some(amount) =>
      if !IsMultipleOfFive(amount) then Err(NotMultipleOfFive)
      else if form.action == "deduct" && balance < amount then Err(NotEnoughToDeduct)
      else Ok(CreditRequest(amount, form.description, form.action))
  }

  /** With the displayed balance equal to the stored one, the client lets a positive
      amount through exactly when the server accepts it: both test the multiple of 5 and
      both refuse an overdrawing deduction. */
  lemma ClientCreditChecksMatchServer(st: Store, target: Id, form: CreditsForm, parseFloat: string -> Option<real>)
    requires FindUser(st, target).Some? && FindUser(st, target).value.role in {Resident, Collector}
    requires form.action == "add" || form.action == "deduct"
    requires parseFloat(form.credits).Some? && parseFloat(form.credits).value > 0.0
    ensures SubmitCredits(FindUser(st, target).value.credits, form, parseFloat).Ok? <==>
      AdminController.AssignCredits(st, target, Num(parseFloat(form.credits).value), Some(form.description), Str(form.action)).Ok?
  {
  }

  /** A zero amount passes the client (0 is a multiple of 5) and is refused by the server. */
  lemma ZeroAmountPassesClient(st: Store, target: Id, parseFloat: string -> Option<real>)
    requires parseFloat("0") == Some(0.0)
    ensures SubmitCredits(0.0, CreditsForm("0", "", "add"), parseFloat).Ok?
    ensures AdminController.AssignCredits(st, target, Num(0.0), Some(""), Str("add")) == Err(InvalidCredits)
  {
  }

  /** What the form shows under the balance while an amount is typed. */
  datatype Preview = Hidden | NotANumber | Shows(balance: real)

  /** The preview as written: the amount is read with `parseInt`, unlike the submission,
      which uses `parseFloat`. */
  function PreviewAsWritten(balance: real, form: CreditsForm): (p: Preview)
    ensures form.credits == "" <==> p.Hidden?
    ensures p.Shows? ==>
      && ParseIntString(form.credits).Some?
      && p.balance == balance + (if form.action == "add" then 1.0 else -1.0) * ParseIntString(form.credits).value as real
  {
    if form.credits == "" then Hidden
    else match ParseIntString(form.credits)
      case None => NotANumber
      case Some(n) => Shows(if form.action == "add" then balance + n as real else balance - n as real)
  }

  /** `parseInt("1e2")` stops at the `e`. */
  lemma ParseIntOfExponent()
    ensures ParseIntString("1e2") == Some(1)
  {
    var t := "1e2";
    assert TrimStart(t) == t;
    assert DigitPrefix(t, 10) == "1" by {
      assert !IsDigit(t[1], 10);
      assert DigitPrefix(t[1..], 10) == "";
    }
    assert !StartsWith(t, "0x") && !StartsWith(t, "0X");
    assert DigitsValue("1", 10) == 1;
    assert ParseMagnitude(t) == Some(1);
  }

  /** `1e2` passes the client's checks as the amount 100. */
  lemma SubmitOfExponent(balance: real, parseFloat: string -> Option<real>)
    requires parseFloat("1e2") == Some(100.0)
    ensures SubmitCredits(balance, CreditsForm("1e2", "bonus", "add"), parseFloat) == Ok(CreditRequest(100.0, "bonus", "add"))
  {
    assert IsMultipleOfFive(100.0) by {
      assert (100.0).Floor == 100;
    }
  }

  /** An amount typed in exponent notation: the preview adds 1 while 100 is sent. */
  lemma PreviewAsWrittenDisagrees(balance: real, parseFloat: string -> Option<real>)
    requires parseFloat("1e2") == Some(100.0)
    ensures SubmitCredits(balance, CreditsForm("1e2", "bonus", "add"), parseFloat) == Ok(CreditRequest(100.0, "bonus", "add"))
    ensures PreviewAsWritten(balance, CreditsForm("1e2", "bonus", "add")) == Shows(balance + 1.0)
  {
    SubmitOfExponent(balance, parseFloat);
    ParseIntOfExponent();
  }

  /** The preview computed from the amount that is submitted. */
  function BalancePreview(balance: real, form: CreditsForm, parseFloat: string -> Option<real>): (p: Preview)
    ensures form.credits == "" <==> p.Hidden?
    ensures p.NotANumber? <==> form.credits != "" && parseFloat(form.credits).None?
  {
    if form.credits == "" then Hidden
    else match parseFloat(form.credits)
      case None => NotANumber
      case Some(x) => Shows(if form.action == "add" then balance + x else balance - x)
  }

  /** The corrected preview shows the balance the server stores once it accepts the
      submitted request. */
  lemma PreviewMatchesStoredBalance(st: Store, target: Id, form: CreditsForm, parseFloat: string -> Option<real>)
    requires FindUser(st, target).Some?
    requires form.credits != "" && (form.action == "add" || form.action == "deduct")
    requires SubmitCredits(FindUser(st, target).value.credits, form, parseFloat).Ok?
    requires AdminController.AssignCredits(st, target, Num(parseFloat(form.credits).value), Some(form.description), Str(form.action)).Ok?
    ensures
      var st' := AdminController.AssignCredits(st, target, Num(parseFloat(form.credits).value), Some(form.description), Str(form.action)).value.0;
      BalancePreview(FindUser(st, target).value.credits, form, parseFloat) == Shows(FindUser(st', target).value.credits)
  {
    var st' := AdminController.AssignCredits(st, target, Num(parseFloat(form.credits).value), Some(form.description), Str(form.action)).value.0;
    var i := UserIndex(st.users, target).value;
    FirstIndexSamePredicate(st.users, st'.users, (u: User) => u.id == target);
  }

  // ------------------------------------------------------------ pickup controls

  /** `isCollectorAccepted`: the pickup has a status and it is one of accepted, reached,
      in_progress and completed. */
  predicate IsCollectorAccepted(status: Option<Status>) {
    status.Some? && status.value in {Accepted, Reached, InProgress, Completed}
  }

  /** The client's set of statuses is the server's guard. */
  lemma CollectorAcceptedIsEngaged(s: Status)
    ensures IsCollectorAccepted(Some(s)) <==> Engaged(s)
  {
  }

  /** The remove button, the collector select and the submit button are enabled together:
      when the collector has not accepted and no request is running. */
  function CollectorControlsEnabled(status: Option<Status>, loading: bool): (enabled: bool)
    ensures enabled ==> !loading
    ensures !loading ==> (enabled <==> status.None? || !Engaged(status.value))
  {
    !(IsCollectorAccepted(status) || loading)
  }

  /** Enabled controls are never refused for an engaged collector, and disabled ones (when
      idle) would be. */
  lemma CollectorControlsMatchServer(st: Store, pickupId: Id, collectorId: Id)
    requires FindPickup(st, pickupId).Some?
    ensures CollectorControlsEnabled(Some(FindPickup(st, pickupId).value.status), false) <==>
      AdminController.AssignCollector(st, pickupId, Some(collectorId)) != Err(CollectorEngaged)
    ensures CollectorControlsEnabled(Some(FindPickup(st, pickupId).value.status), false) <==>
      AdminController.UnassignCollector(st, pickupId).Ok?
  {
  }

  /** The status buttons shown for a pickup: "Mark as In Progress" unless it is in
      progress or completed, "Mark as Completed" unless it is completed, "Reset to Pending"
      unless it is pending. */
  function StatusButtons(s: Status): (targets: set<Status>)
    ensures targets <= {InProgress, Completed, Pending}
    ensures s !in targets
  {
    (if s != InProgress && s != Completed then {InProgress} else {})
    + (if s != Completed then {Completed} else {})
    + (if s != Pending then {Pending} else {})
  }

  /** A completed pickup can only be reset; a pending one offers both forward moves. */
  lemma StatusButtonsAtEnds()
    ensures StatusButtons(Completed) == {Pending}
    ensures StatusButtons(Pending) == {InProgress, Completed}
    ensures StatusButtons(InProgress) == {Completed, Pending}
  {
  }

  /** Every button sends a status the server accepts for an existing pickup, and the
      pickup then has that status. */
  lemma StatusButtonsAccepted(st: Store, pickupId: Id, t: Status)
    requires FindPickup(st, pickupId).Some?
    requires t in StatusButtons(FindPickup(st, pickupId).value.status)
    ensures AdminController.AdminUpdateStatus(st, pickupId, Str(StatusName(t))).Ok?
    ensures FindPickup(AdminController.AdminUpdateStatus(st, pickupId, Str(StatusName(t))).value, pickupId).value.status == t
  {
    var st' := AdminController.AdminUpdateStatus(st, pickupId, Str(StatusName(t))).value;
    FirstIndexSamePredicate(st.pickups, st'.pickups, (p: Pickup) => p.id == pickupId);
  }

  // ------------------------------------------------------------ list editors

  /** Enter in the "Add new ..." field: the trimmed text is appended unless it is empty or
      already listed. The categories and regions editors behave alike. */
  function AddEntry(list: seq<string>, input: string): (r: seq<string>)
    ensures NoDuplicates(list) ==> NoDuplicates(r)
    ensures forall x :: x in r <==> x in list || (x == Trim(input) && x != "")
    ensures |list| <= |r| <= |list| + 1 && r[..|list|] == list
  {
    var entry := Trim(input);
    if entry != "" && entry !in list then list + [entry] else list
  }

  /** Adding the same text twice adds it once. */
  lemma AddEntryIdempotent(list: seq<string>, input: string)
    ensures AddEntry(AddEntry(list, input), input) == AddEntry(list, input)
  {
  }

  /** The × button of entry `idx`: `list.filter((_, i) => i !== idx)`, walking the list
      with the index of its first element. */
  function FilterOutIndex(list: seq<string>, idx: int, from: int): (r: seq<string>)
    ensures r == RemoveAt(list, idx - from)
    decreases |list|
  {
    if |list| == 0 then []
    else
      var rest := FilterOutIndex(list[1..], idx, from + 1);
      if from == idx then
        assert rest == list[1..];
        rest
      else
        RemoveAtCons(list, idx - from);
        [list[0]] + rest
  }

  function RemoveEntry(list: seq<string>, idx: int): (r: seq<string>) {
    FilterOutIndex(list, idx, 0)
  }

  /** Removing deletes exactly the chosen entry and keeps the list free of duplicates. */
  lemma RemoveEntryDeletesOne(list: seq<string>, idx: int)
    requires 0 <= idx < |list|
    ensures RemoveEntry(list, idx) == list[..idx] + list[idx + 1..]
    ensures NoDuplicates(list) ==> NoDuplicates(RemoveEntry(list, idx)) && list[idx] !in RemoveEntry(list, idx)
  {
    var r := RemoveEntry(list, idx);
    assert forall k :: 0 <= k < |r| ==> r[k] == list[if k < idx then k else k + 1];
  }

  /** Removing the entry just added restores the list. */
  lemma AddThenRemove(list: seq<string>, input: string)
    requires Trim(input) != "" && Trim(input) !in list
    ensures RemoveEntry(AddEntry(list, input), |list|) == list
  {
    RemoveEntryDeletesOne(AddEntry(list, input), |list|);
  }

  // ------------------------------------------------------------ images

  /** The admin's `getImageUrl`: `null` for no URL, a presigned URL as it is, a MinIO-looking
      URL (a `/ecobin/` segment, `localhost:9000` or `minio`) rewritten to the proxy link of
      its key, anything else as it is. */
  function AdminImageUrl(imageUrl: Option<string>, apiBase: string, token: Option<string>, encode: string -> string)
    : (r: Option<string>)
    ensures imageUrl.None? || imageUrl.value == "" ==> r.None?
    ensures imageUrl.Some? && imageUrl.value != "" && Contains(imageUrl.value, Api.AmzMarker) ==> r == imageUrl
    ensures imageUrl.Some? && imageUrl.value != "" && !LooksLikeMinio(imageUrl.value) ==> r == imageUrl
    ensures r.Some? && r != imageUrl ==> StartsWith(r.value, apiBase + "/files/")
  {
    if imageUrl.None? || imageUrl.value == "" then None
    else if Contains(imageUrl.value, Api.AmzMarker) then imageUrl
    else if LooksLikeMinio(imageUrl.value) then
      Some(Api.GetFile(apiBase, FileRoutes.ObjectName(imageUrl.value), token, encode))
    else imageUrl
  }

  predicate LooksLikeMinio(u: string) {
    Contains(u, FileRoutes.BucketMarker) || Contains(u, "localhost:9000") || Contains(u, "minio")
  }

  /** The stored URL of an upload becomes the proxy link of exactly its key. */
  lemma AdminImageUrlOfStoredUrl(endpoint: string, key: string, apiBase: string, token: Option<string>,
                                 encode: string -> string)
    requires !Contains(endpoint + "/ecobin", FileRoutes.BucketMarker)
    requires !Contains(key, FileRoutes.BucketMarker) && !Contains(key, "/") && !Contains(key, "?")
    requires !Contains(endpoint + FileRoutes.BucketMarker + key, Api.AmzMarker)
    ensures AdminImageUrl(Some(endpoint + FileRoutes.BucketMarker + key), apiBase, token, encode)
         == Some(apiBase + "/files/" + encode(key) + Api.TokenSuffix(token))
  {
    var u := endpoint + FileRoutes.BucketMarker + key;
    assert LooksLikeMinio(u) by {
      assert FileRoutes.BucketMarker[..|FileRoutes.BucketMarker| - 1] == "/ecobin";
      SplitAfterFirst(endpoint, FileRoutes.BucketMarker, key);
    }
    assert AdminImageUrl(Some(u), apiBase, token, encode)
        == Some(Api.GetFile(apiBase, FileRoutes.ObjectName(u), token, encode));
    assert FileRoutes.ObjectName(u) == key by {
      assert key + "" == key;
      assert u == endpoint + FileRoutes.BucketMarker + key + "";
      FileRoutes.ObjectNameOfStoredUrl(endpoint, key, "");
    }
    assert FileRoutes.ObjectName(key) == key;
  }
}

=== FILE: api.dfy ===
/** `services/api.js` on the client: the proxy link of a stored file, the expiry test of the
    stored JWT and the guard that clears an expired session before a request, the unwrapping
    of the `{ success, data }` envelope, and `getImageUrl`. */
module Api {
  import opened Common
  import opened Strings
  import opened Json
  import FileRoutes

  /** `?token=<token>` when there is a token, nothing otherwise. */
  function TokenSuffix(token: Option<string>): string {
    if token.Some? && token.value != "" then "?token=" + token.value else ""
  }

  /** `fileAPI.getFile`: the link to the proxy route for a file, with the object key
      extracted exactly as the server extracts it. `encode` is `encodeURIComponent`. */
  function GetFile(apiBase: string, filename: string, token: Option<string>, encode: string -> string): (url: string)
    ensures StartsWith(url, apiBase + "/files/")
    ensures |url| >= |TokenSuffix(token)| && url[|url| - |TokenSuffix(token)|..] == TokenSuffix(token)
  {
    var url := apiBase + "/files/" + encode(FileRoutes.ObjectName(filename)) + TokenSuffix(token);
    assert url[..|apiBase + "/files/"|] == apiBase + "/files/";
    url
  }

  /** The link for a stored upload `<endpoint>/ecobin/<key>`, possibly followed by a
      presigned query, is the proxy route on exactly that key, encoded. */
  lemma GetFileOfStoredUrl(apiBase: string, endpoint: string, key: string, query: string,
                           token: Option<string>, encode: string -> string)
    requires !Contains(endpoint + "/ecobin", FileRoutes.BucketMarker)
    requires !Contains(key + query, FileRoutes.BucketMarker) && !Contains(key, "?")
    requires query == "" || query[0] == '?'
    ensures GetFile(apiBase, endpoint + FileRoutes.BucketMarker + key + query, token, encode)
         == apiBase + "/files/" + encode(key) + TokenSuffix(token)
  {
    FileRoutes.ObjectNameOfStoredUrl(endpoint, key, query);
  }

  /** The link carries a query string exactly when there is a token: neither the base nor
      an encoded key holds a `?`. */
  lemma GetFileQueryIffToken(apiBase: string, filename: string, token: Option<string>, encode: string -> string)
    requires '?' !in apiBase
    requires forall s :: '?' !in encode(s)
    ensures '?' in GetFile(apiBase, filename, token, encode) <==> token.Some? && token.value != ""
  {
    var head := apiBase + "/files/" + encode(FileRoutes.ObjectName(filename));
    assert '?' !in "/files/";
    assert '?' !in head;
    assert GetFile(apiBase, filename, token, encode) == head + TokenSuffix(token);
    if token.Some? && token.value != "" {
      assert (head + TokenSuffix(token))[|head|] == '?';
    }
  }

  /** The proxy route names the same object as the client meant, and takes the caller
      from the link's token. The route decodes the link's segment twice (Express, then the
      handler), and `decodeURIComponent` leaves a text without `%` as it is, so a key
      without `%` survives the second decode. */
  lemma GetFileLinkResolves(filename: string, token: string, encode: string -> string,
                            decode: string -> Option<string>)
    requires forall s :: decode(encode(s)) == Some(s)
    requires forall s :: !Contains(s, "%") ==> decode(s) == Some(s)
    requires !Contains(FileRoutes.ObjectName(filename), "/") && !Contains(FileRoutes.ObjectName(filename), "%")
    requires token != ""
    ensures FileRoutes.SegmentObjectName(encode(FileRoutes.ObjectName(filename)), decode)
         == Some(FileRoutes.ObjectName(filename))
    ensures FileRoutes.RequestToken(None, Some(token)) == Some(token)
  {
    var key := FileRoutes.ObjectName(filename);
    assert decode(encode(key)) == Some(key);
    assert decode(key) == Some(key);
    FileRoutes.ObjectNameIdempotent(filename);
  }

  /** `payload.exp * 1000`: `None` stands for NaN. Strings, arrays and objects go through
      JavaScript's numeric conversion, the parameter `toNumber`. */
  function ExpiryMillis(exp: Value, toNumber: Value -> Option<real>): (ms: Option<real>)
    ensures exp.Num? ==> ms == Some(exp.n * 1000.0)
    ensures exp.Undefined? ==> ms.None?
  {
    match exp
    case Undefined => None
    case Null => Some(0.0)
    case Bool(b) => Some(if b then 1000.0 else 0.0)
    case Num(n) => Some(n * 1000.0)
    case _ =>
      match toNumber(exp)
      case Some(x) => Some(x * 1000.0)
      case None => None
  }

  /** `isTokenExpired` at time `now` (milliseconds). `decode` is
      `JSON.parse(atob(token.split('.')[1]))`, `None` when it throws; reading `exp` from a
      `null` payload throws as well. A failure counts as expired; a NaN expiry never
      expires. */
  function IsTokenExpired(token: Option<string>, now: real, decode: string -> Option<Value>,
                          toNumber: Value -> Option<real>): (expired: bool)
    ensures token.None? || token.value == "" ==> expired
    ensures token.Some? && token.value != "" && decode(token.value).None? ==> expired
    ensures (token.Some? && token.value != "" && decode(token.value).Some?
             && Get(decode(token.value).value, "exp").Num?) ==>
      (expired <==> now >= Get(decode(token.value).value, "exp").n * 1000.0)
  {
    if token.None? || token.value == "" then true
    else match decode(token.value)
      case None => true
      case Some(payload) =>
        if payload.Null? || payload.Undefined? then true
        else match ExpiryMillis(Get(payload, "exp"), toNumber)
          case None => false
          case Some(ms) => now >= ms
  }

  /** Once expired, a token stays expired. */
  lemma ExpiryIsMonotone(token: Option<string>, t1: real, t2: real, decode: string -> Option<Value>,
                         toNumber: Value -> Option<real>)
    requires t1 <= t2 && IsTokenExpired(token, t1, decode, toNumber)
    ensures IsTokenExpired(token, t2, decode, toNumber)
  {
  }

  /** A decodable payload object without an `exp` claim never counts as expired. */
  lemma NoExpiryClaimNeverExpires(token: string, now: real, decode: string -> Option<Value>,
                                  toNumber: Value -> Option<real>)
    requires token != "" && decode(token).Some? && decode(token).value.Obj?
    requires "exp" !in decode(token).value.fields
    ensures !IsTokenExpired(Some(token), now, decode, toNumber)
  {
  }

  /** What the client keeps in `localStorage`. */
  datatype Session = Session(token: Option<string>, user: Option<string>)

  /** The guard's verdict: send the request, or refuse it ("Session expired"), possibly
      navigating to `/login`. */
  datatype Guarded = Proceed | Expired(redirect: Option<string>)

  /** The page is a login page: `pathname.includes('/login') || pathname.includes('/admin/login')`. */
  predicate OnLoginPage(pathname: string) {
    Contains(pathname, "/login") || Contains(pathname, "/admin/login")
  }

  /** `/admin/login` contains `/login`, so the second test adds nothing. */
  lemma AdminLoginIsLogin(pathname: string)
    ensures OnLoginPage(pathname) <==> Contains(pathname, "/login")
  {
    if Contains(pathname, "/admin/login") {
      var i := Find(pathname, "/admin/login").value;
      assert pathname[i..i + 12] == "/admin/login";
      assert pathname[i + 6..i + 12] == "/login";
      assert OccursAt(pathname, "/login", i + 6);
    }
  }

  /** The check at the top of `apiRequest`: a stored, expired token clears the token and
      the user and refuses the request before anything is sent. */
  function ExpiryGuard(s: Session, pathname: string, now: real, decode: string -> Option<Value>,
                       toNumber: Value -> Option<real>): (r: (Session, Guarded))
    ensures r.1.Expired? <==> s.token.Some? && s.token.value != "" && IsTokenExpired(s.token, now, decode, toNumber)
    ensures r.1.Expired? ==> r.0 == Session(None, None)
    ensures r.1.Expired? ==> (r.1.redirect == Some("/login") <==> !Contains(pathname, "/login"))
    ensures r.1.Expired? ==> (r.1.redirect.None? <==> Contains(pathname, "/login"))
    ensures r.1.Proceed? ==> r.0 == s
  {
    if s.token.Some? && s.token.value != "" && IsTokenExpired(s.token, now, decode, toNumber) then
      AdminLoginIsLogin(pathname);
      (Session(None, None), Expired(if OnLoginPage(pathname) then None else Some("/login")))
    else (s, Proceed)
  }

  /** A request that goes ahead carries no token or a token not yet expired. */
  lemma GuardNeverSendsExpired(s: Session, pathname: string, now: real, decode: string -> Option<Value>,
                               toNumber: Value -> Option<real>)
    requires ExpiryGuard(s, pathname, now, decode, toNumber).1.Proceed?
    ensures s.token.None? || s.token.value == "" || !IsTokenExpired(s.token, now, decode, toNumber)
  {
  }

  /** After a refused request the session is empty, so the next request goes ahead
      (unauthenticated) instead of being refused again. */
  lemma GuardClearsOnce(s: Session, pathname: string, now: real, decode: string -> Option<Value>,
                        toNumber: Value -> Option<real>)
    ensures ExpiryGuard(ExpiryGuard(s, pathname, now, decode, toNumber).0, pathname, now, decode, toNumber).1 == Proceed
  {
  }

  /** The unwrapping at the end of `apiRequest`: the `data` field when both `success` and
      `data` are defined, otherwise the body itself. `None` is the `TypeError` of reading a
      property of `null`. */
  function Unwrap(body: Value): (r: Option<Value>)
    ensures r.None? <==> body.Null? || body.Undefined?
    ensures r.Some? && Get(body, "success") != Undefined && Get(body, "data") != Undefined ==> r.value == Get(body, "data")
    ensures r.Some? && (Get(body, "success") == Undefined || Get(body, "data") == Undefined) ==> r.value == body
  {
    if body.Null? || body.Undefined? then None
    else if Get(body, "success") != Undefined && Get(body, "data") != Undefined then Some(Get(body, "data"))
    else Some(body)
  }

  /** The handlers' envelope `{ success, data }` unwraps to its data. */
  lemma UnwrapEnvelope(success: Value, data: Value)
    requires success != Undefined && data != Undefined
    ensures Unwrap(Obj(map["success" := success, "data" := data])) == Some(data)
  {
  }

  /** An authentication response `{ success, token, user }` has no `data` and comes back
      whole, as does any array. */
  lemma UnwrapKeepsOthers(success: Value, token: Value, user: Value, items: seq<Value>)
    ensures Unwrap(Obj(map["success" := success, "token" := token, "user" := user]))
         == Some(Obj(map["success" := success, "token" := token, "user" := user]))
    ensures Unwrap(Arr(items)) == Some(Arr(items))
  {
  }

  /** The outcome of `fileAPI.getPresignedUrl`: it throws, or it answers with the `url` of
      the response (possibly absent). */
  datatype Presigned = Threw | Answered(url: Option<string>)

  const AmzMarker := "?X-Amz-Algorithm"

  /** The key `getImageUrl` asks a presigned URL for: the text after the first `/ecobin/` of
      an `http(s)` URL that is not presigned already, when it is not empty. */
  function PresignTarget(u: string): (key: Option<string>)
    ensures key.Some? ==> key.value != "" && Contains(u, FileRoutes.BucketMarker) && !Contains(u, AmzMarker)
    ensures key.Some? ==> StartsWith(u, "http://") || StartsWith(u, "https://")
  {
    if (StartsWith(u, "http://") || StartsWith(u, "https://"))
      && Contains(u, FileRoutes.BucketMarker) && !Contains(u, AmzMarker)
    then
      var filename := Split(u, FileRoutes.BucketMarker)[1];
      if filename != "" then Some(filename) else None
    else None
  }

  /** `getImageUrl`: `null` for no URL; a direct object URL is swapped for a presigned one
      when that request succeeds; every other URL is returned as it is. */
  function GetImageUrl(imageUrl: Option<string>, presign: string -> Presigned): (r: Option<string>)
    ensures imageUrl.None? || imageUrl.value == "" ==> r.None?
    ensures imageUrl.Some? && imageUrl.value != "" && PresignTarget(imageUrl.value).None? ==> r == imageUrl
    ensures imageUrl.Some? && imageUrl.value != "" && PresignTarget(imageUrl.value).Some? ==>
      r == (match presign(PresignTarget(imageUrl.value).value)
            case Threw => imageUrl
            case Answered(url) => url)
  {
    if imageUrl.None? || imageUrl.value == "" then None
    else match PresignTarget(imageUrl.value)
      case None => imageUrl
      case Some(key) =>
        match presign(key)
        case Threw => imageUrl
        case Answered(url) => url
  }

  /** Presigned URLs, and anything that is not an `http(s)` URL, are returned unchanged. */
  lemma GetImageUrlKeeps(u: string, presign: string -> Presigned)
    requires u != ""
    requires Contains(u, AmzMarker) || !(StartsWith(u, "http://") || StartsWith(u, "https://"))
    ensures GetImageUrl(Some(u), presign) == Some(u)
  {
  }

  /** For the URL an upload is stored under, the presigned URL is requested for exactly the
      stored key, and the server's presigned route resolves that key to itself. */
  lemma PresignsStoredKey(endpoint: string, key: string)
    requires StartsWith(endpoint, "http://") || StartsWith(endpoint, "https://")
    requires !Contains(endpoint + "/ecobin", FileRoutes.BucketMarker)
    requires key != "" && !Contains(key, FileRoutes.BucketMarker)
    requires !Contains(endpoint + FileRoutes.BucketMarker + key, AmzMarker)
    requires !Contains(key, "/") && !Contains(key, "?")
    ensures PresignTarget(endpoint + FileRoutes.BucketMarker + key) == Some(key)
    ensures FileRoutes.ObjectName(key) == key
  {
    var u := endpoint + FileRoutes.BucketMarker + key;
    assert u[..|endpoint|] == endpoint;
    assert StartsWith(u, "http://") || StartsWith(u, "https://") by {
      if StartsWith(endpoint, "http://") {
        assert u[..7] == endpoint[..7];
      } else {
        assert u[..8] == endpoint[..8];
      }
    }
    assert FileRoutes.BucketMarker[..|FileRoutes.BucketMarker| - 1] == "/ecobin";
    SplitAfterFirst(endpoint, FileRoutes.BucketMarker, key);
    assert Split(u, FileRoutes.BucketMarker) == [endpoint, key];
  }
}

=== FILE: auth.dfy ===
/** `controllers/authController.js`: registration of one user or a batch, and the two
    login flows. Hashing and comparing with bcrypt are parameters (`hash`, `matches`);
    issuing the JWT is left out. */
module AuthController {
  import opened Common
  import opened Seqs
  import opened Strings
  import opened Models
  import opened Errors

  /** The `lowercase` and `trim` setters of `User.email`, which also apply to the email of
      a query. */
  function NormalizeEmail(s: string): (r: string)
    ensures |r| <= |s|
  {
    Trim(ToLower(s))
  }

  /** One entry of a registration request, with each field as a string, when present. */
  datatype RegisterEntry = RegisterEntry(
    name: Option<string>,
    email: Option<string>,
    password: Option<string>,
    address: Option<string>,
    phone: Option<string>,
    secretKey: Option<string>,
    role: Option<string>)

  /** `User.findOne({ email })`: the index of the first user stored under the normalised
      email, if any. An absent email matches no stored user. */
  function ExistingByEmail(st: Store, email: Option<string>): (r: Option<nat>)
    ensures r.Some? ==> email.Some? && r.value < |st.users| && st.users[r.value].email == NormalizeEmail(email.value)
    ensures r.Some? ==> forall j :: 0 <= j < r.value ==> st.users[j].email != NormalizeEmail(email.value)
    ensures r.None? && email.Some? ==> forall j :: 0 <= j < |st.users| ==> st.users[j].email != NormalizeEmail(email.value)
  {
    if email.None? then None else FirstIndex(st.users, (u: User) => u.email == NormalizeEmail(email.value))
  }

  /** `User.findOne({ email, role: 'admin' })`: the index of the first admin stored under
      the normalised email, if any. */
  function AdminByEmail(st: Store, email: string): (r: Option<nat>)
    ensures r.Some? ==> r.value < |st.users| && st.users[r.value].email == NormalizeEmail(email) && st.users[r.value].role == Admin
    ensures r.Some? ==> forall j :: 0 <= j < r.value ==> !(st.users[j].email == NormalizeEmail(email) && st.users[j].role == Admin)
    ensures r.None? ==> forall j :: 0 <= j < |st.users| ==> !(st.users[j].email == NormalizeEmail(email) && st.users[j].role == Admin)
  {
    FirstIndex(st.users, (u: User) => u.email == NormalizeEmail(email) && u.role == Admin)
  }

  /** `role === 'admin'`. */
  predicate WantsAdmin(e: RegisterEntry) {
    e.role == Some("admin")
  }

  /** The role-specific check: an admin needs a phone and a secret key, anyone else an
      address that is not blank. */
  function RoleFieldsError(e: RegisterEntry): (r: Option<Reason>)
    ensures WantsAdmin(e) ==> (r.None? <==> Present(e.phone) && Present(e.secretKey))
    ensures !WantsAdmin(e) ==> (r.None? <==> Present(e.address) && Trim(e.address.value) != "")
    ensures r.Some? ==> r.value == (if WantsAdmin(e) then AdminFieldsRequired else AddressRequired)
  {
    if WantsAdmin(e) then
      if !Present(e.phone) || !Present(e.secretKey) then Some(AdminFieldsRequired) else None
    else
      if !Present(e.address) || Trim(e.address.value) == "" then Some(AddressRequired) else None
  }

  /** The document `User.create` is given, before hashing: `role || 'resident'`, and the
      phone and secret key for an admin, the address otherwise. `None` when the role is
      not one of the enum values. */
  function NewUser(id: Id, e: RegisterEntry): (r: Option<User>)
    ensures r.Some? ==> r.value.id == id && r.value.isActive && r.value.credits == 0.0
    ensures r.Some? ==> (r.value.role == Admin <==> WantsAdmin(e))
    ensures (e.role.None? || e.role == Some("")) ==> r.Some? && r.value.role == Resident
  {
    var roleName := if Present(e.role) then e.role.value else "resident";
    match ParseRole(roleName)
    case None => None
    case Some(role) =>
      Some(User(id, Trim(e.name.GetOr("")), NormalizeEmail(e.email.GetOr("")), e.password.GetOr(""),
                if role == Admin then None else e.address,
                if role == Admin then e.phone else None,
                if role == Admin then e.secretKey else None,
                role, true, 0.0))
  }

  /** The first check an entry fails, in the handler's order: the email is not taken,
      the role-specific fields are there, then the schema accepts the document. */
  function RegisterError(st: Store, e: RegisterEntry): Option<Reason> {
    if ExistingByEmail(st, e.email).Some? then Some(UserExists)
    else if RoleFieldsError(e).Some? then RoleFieldsError(e)
    else if NewUser(st.nextId, e).None? || !UserSchemaValid(NewUser(st.nextId, e).value) then Some(ValidationFailed)
    else None
  }

  /** The stored document: the `pre('save')` hook hashes the password and, for an admin,
      the secret key. An empty secret key is falsy and kept as it is. */
  function Hashed(u: User, hash: string -> string): (r: User)
    ensures r.password == hash(u.password)
    ensures r.secretKey.Some? <==> u.secretKey.Some?
    ensures Present(u.secretKey) ==> r.secretKey.value == hash(u.secretKey.value)
    ensures !Present(u.secretKey) ==> r.secretKey == u.secretKey
    ensures r.(password := u.password, secretKey := u.secretKey) == u
  {
    u.(password := hash(u.password), secretKey := if Present(u.secretKey) then Some(hash(u.secretKey.value)) else u.secretKey)
  }

  /** Registering one entry: refused with the first failing check and nothing stored, or
      stored with the next id. */
  function RegisterOne(st: Store, e: RegisterEntry, hash: string -> string): (r: (Store, Result<User>))
    ensures r.1.Err? <==> RegisterError(st, e).Some?
    ensures r.1.Err? ==> r.0 == st && r.1.reason == RegisterError(st, e).value
    ensures r.1.Ok? ==> r.0.users == st.users + [r.1.value] && r.0.(users := st.users, nextId := st.nextId) == st
  {
    match RegisterError(st, e)
    case Some(reason) => (st, Err(reason))
    case None =>
      var stored := Hashed(NewUser(st.nextId, e).value, hash);
      (st.(users := st.users + [stored], nextId := st.nextId + 1), Ok(stored))
  }

  /** The outcome of one entry: an email already stored refuses it as an existing user
      before anything else is looked at; then missing role-specific fields; any other
      refusal is the schema's. It is accepted exactly when every check passes. */
  lemma RegisterOneRefusals(st: Store, e: RegisterEntry, hash: string -> string)
    ensures ExistingByEmail(st, e.email).Some? ==> RegisterOne(st, e, hash).1 == Err(UserExists)
    ensures ExistingByEmail(st, e.email).None? && RoleFieldsError(e).Some? ==>
      RegisterOne(st, e, hash).1 == Err(RoleFieldsError(e).value)
    ensures ExistingByEmail(st, e.email).None? && RoleFieldsError(e).None? && RegisterOne(st, e, hash).1.Err? ==>
      RegisterOne(st, e, hash).1 == Err(ValidationFailed)
    ensures RegisterOne(st, e, hash).1.Ok? <==>
      && ExistingByEmail(st, e.email).None? && RoleFieldsError(e).None?
      && NewUser(st.nextId, e).Some? && UserSchemaValid(NewUser(st.nextId, e).value)
  {
  }

  /** What a successful registration stores: a fresh id, the normalised email, the hashed
      password (at least six UTF-16 code units long), an active account with no credits, and the
      role-specific fields of the requested role. */
  lemma RegisterOneStores(st: Store, e: RegisterEntry, hash: string -> string)
    requires RegisterOne(st, e, hash).1.Ok?
    ensures
      var (st', u) := (RegisterOne(st, e, hash).0, RegisterOne(st, e, hash).1.value);
      && u.id == st.nextId && st'.nextId == st.nextId + 1
      && e.email.Some? && u.email == NormalizeEmail(e.email.value) && u.email != ""
      && (forall j :: 0 <= j < |st.users| ==> st.users[j].email != u.email)
      && e.password.Some? && JsLength(e.password.value) >= 6 && u.password == hash(e.password.value)
      && u.isActive && u.credits == 0.0
      && (u.role == Admin <==> WantsAdmin(e))
      && (!WantsAdmin(e) ==> u.address == e.address && Trim(e.address.value) != "" && u.secretKey.None?)
      && (WantsAdmin(e) ==> Present(e.phone) && Present(e.secretKey) && u.phone == e.phone
                            && u.secretKey == Some(hash(e.secretKey.value)))
  {
  }

  /** One registration as a value: the request handler applies it to each entry in turn. */
  type Registrar = (Store, RegisterEntry) -> (Store, Result<User>)

  function Registration(hash: string -> string): Registrar {
    (s: Store, e: RegisterEntry) => RegisterOne(s, e, hash)
  }

  /** The entries processed one after the other, each seeing the store the ones before
      it left. */
  function RegisterAll(st: Store, entries: seq<RegisterEntry>, step: Registrar): (r: (Store, seq<Result<User>>))
    ensures |r.1| == |entries|
    decreases |entries|
  {
    if |entries| == 0 then (st, [])
    else
      var (st1, first) := step(st, entries[0]);
      var (st2, rest) := RegisterAll(st1, entries[1..], step);
      (st2, [first] + rest)
  }

  /** Unfolding `RegisterAll` once, stated on its parts. */
  lemma RegisterAllUnfold(st: Store, entries: seq<RegisterEntry>, step: Registrar)
    requires |entries| > 0
    ensures RegisterAll(st, entries, step).0 == RegisterAll(step(st, entries[0]).0, entries[1..], step).0
    ensures RegisterAll(st, entries, step).1 == [step(st, entries[0]).1] + RegisterAll(step(st, entries[0]).0, entries[1..], step).1
  {
  }

  /** A step that stores exactly the user it reports as created, and nothing when it
      refuses. */
  ghost predicate StoresCreated(step: Registrar) {
    forall s, e :: step(s, e).0.users == s.users + (if step(s, e).1.Ok? then [step(s, e).1.value] else [])
  }

  lemma RegistrationStoresCreated(hash: string -> string)
    ensures StoresCreated(Registration(hash))
  {
    forall s, e
      ensures Registration(hash)(s, e).0.users
           == s.users + (if Registration(hash)(s, e).1.Ok? then [Registration(hash)(s, e).1.value] else [])
    {
      var r := RegisterOne(s, e, hash);
      if r.1.Err? {
        assert r.0 == s;
      }
    }
  }

  /** The users an outcome list created, in order (`results` of the handler). */
  function CreatedOf(outcomes: seq<Result<User>>): (r: seq<User>)
    ensures |r| <= |outcomes|
  {
    if |outcomes| == 0 then []
    else (if outcomes[0].Ok? then [outcomes[0].value] else []) + CreatedOf(outcomes[1..])
  }

  /** The refused entries of an outcome list with their indices, counted from `from`
      (`errors` of the handler). */
  function ErrorsOf(outcomes: seq<Result<User>>, from: nat): (r: seq<(nat, Reason)>)
    ensures |r| <= |outcomes|
  {
    if |outcomes| == 0 then []
    else (if outcomes[0].Err? then [(from, outcomes[0].reason)] else []) + ErrorsOf(outcomes[1..], from + 1)
  }

  lemma {:induction false} CreatedOfAppend(outcomes: seq<Result<User>>, o: Result<User>)
    ensures CreatedOf(outcomes + [o]) == CreatedOf(outcomes) + (if o.Ok? then [o.value] else [])
  {
    if |outcomes| > 0 {
      assert (outcomes + [o])[1..] == outcomes[1..] + [o];
      CreatedOfAppend(outcomes[1..], o);
    } else {
      assert [o][1..] == [];
    }
  }

  lemma {:induction false} ErrorsOfAppend(outcomes: seq<Result<User>>, o: Result<User>, from: nat)
    ensures ErrorsOf(outcomes + [o], from) == ErrorsOf(outcomes, from) + (if o.Err? then [(from + |outcomes|, o.reason)] else [])
  {
    if |outcomes| > 0 {
      assert (outcomes + [o])[1..] == outcomes[1..] + [o];
      ErrorsOfAppend(outcomes[1..], o, from + 1);
    } else {
      assert [o][1..] == [];
    }
  }

  /** Every entry lands in exactly one of the two lists: the errors name the refused
      entries, in increasing order, with the reason each was refused. */
  lemma BatchPartition(outcomes: seq<Result<User>>, from: nat)
    ensures |CreatedOf(outcomes)| + |ErrorsOf(outcomes, from)| == |outcomes|
    ensures NamesRefused(outcomes, from, ErrorsOf(outcomes, from))
    ensures IndexesIncrease(ErrorsOf(outcomes, from))
  {
    BatchCount(outcomes, from);
    ErrorsNameRefused(outcomes, from);
    ErrorsIncreasing(outcomes, from);
  }

  lemma {:induction false} BatchCount(outcomes: seq<Result<User>>, from: nat)
    ensures |CreatedOf(outcomes)| + |ErrorsOf(outcomes, from)| == |outcomes|
  {
    if |outcomes| > 0 {
      BatchCount(outcomes[1..], from + 1);
    }
  }

  /** Each error names, by its index counted from `from`, a refused entry of `outcomes`
      and that entry's reason. */
  predicate NamesRefused(outcomes: seq<Result<User>>, from: nat, errs: seq<(nat, Reason)>) {
    forall k :: 0 <= k < |errs| ==>
      && from <= errs[k].0 < from + |outcomes|
      && outcomes[errs[k].0 - from] == Err(errs[k].1)
  }

  lemma {:induction false} ErrorsNameRefused(outcomes: seq<Result<User>>, from: nat)
    ensures NamesRefused(outcomes, from, ErrorsOf(outcomes, from))
  {
    if |outcomes| > 0 {
      var tail := ErrorsOf(outcomes[1..], from + 1);
      ErrorsNameRefused(outcomes[1..], from + 1);
      if outcomes[0].Err? {
        ErrorsNameRefusedCons(outcomes, from, tail);
      } else {
        assert ErrorsOf(outcomes, from) == tail;
        ErrorsNameRefusedSkip(outcomes, from, tail);
      }
    }
  }

  lemma ErrorsNameRefusedCons(outcomes: seq<Result<User>>, from: nat, tail: seq<(nat, Reason)>)
    requires |outcomes| > 0 && outcomes[0].Err?
    requires NamesRefused(outcomes[1..], from + 1, tail)
    ensures NamesRefused(outcomes, from, [(from, outcomes[0].reason)] + tail)
  {
    var errs := [(from, outcomes[0].reason)] + tail;
    forall k | 1 <= k < |errs|
      ensures from <= errs[k].0 < from + |outcomes| && outcomes[errs[k].0 - from] == Err(errs[k].1)
    {
      assert errs[k] == tail[k - 1];
      assert outcomes[1..][tail[k - 1].0 - (from + 1)] == outcomes[errs[k].0 - from];
    }
  }

  lemma ErrorsNameRefusedSkip(outcomes: seq<Result<User>>, from: nat, tail: seq<(nat, Reason)>)
    requires |outcomes| > 0
    requires NamesRefused(outcomes[1..], from + 1, tail)
    ensures NamesRefused(outcomes, from, tail)
  {
    forall k | 0 <= k < |tail|
      ensures from <= tail[k].0 < from + |outcomes| && outcomes[tail[k].0 - from] == Err(tail[k].1)
    {
      assert outcomes[1..][tail[k].0 - (from + 1)] == outcomes[tail[k].0 - from];
    }
  }

  /** The reported indices are strictly increasing. */
  predicate IndexesIncrease(errs: seq<(nat, Reason)>) {
    forall k, l :: 0 <= k < l < |errs| ==> errs[k].0 < errs[l].0
  }

  lemma {:induction false} ErrorsIncreasing(outcomes: seq<Result<User>>, from: nat)
    ensures IndexesIncrease(ErrorsOf(outcomes, from))
  {
    if |outcomes| > 0 {
      ErrorsNameRefused(outcomes[1..], from + 1);
      ErrorsIncreasing(outcomes[1..], from + 1);
      var tail := ErrorsOf(outcomes[1..], from + 1);
      var errs := ErrorsOf(outcomes, from);
      if outcomes[0].Err? {
        assert errs == [(from, outcomes[0].reason)] + tail;
        forall k, l | 0 <= k < l < |errs| ensures errs[k].0 < errs[l].0 {
          assert errs[l] == tail[l - 1];
          if k > 0 {
            assert errs[k] == tail[k - 1];
            assert tail[k - 1].0 < tail[l - 1].0;
          } else {
            assert from + 1 <= tail[l - 1].0;
          }
        }
      } else {
        assert errs == tail;
      }
    }
  }

  /** The users a batch adds are exactly the ones it reports as created. */
  lemma {:induction false} RegisterAllUsers(st: Store, entries: seq<RegisterEntry>, step: Registrar)
    requires StoresCreated(step)
    ensures RegisterAll(st, entries, step).0.users == st.users + CreatedOf(RegisterAll(st, entries, step).1)
    decreases |entries|
  {
    if |entries| > 0 {
      var (st1, first) := step(st, entries[0]);
      RegisterAllUsers(st1, entries[1..], step);
      var rest := RegisterAll(st1, entries[1..], step).1;
      assert RegisterAll(st, entries, step).1 == [first] + rest;
      assert ([first] + rest)[1..] == rest;
    }
  }

  /** The `for` loop of `register`: the entries are processed in order, and each adds
      exactly one item, to the created users or to the errors. */
  method RegisterBatch(st: Store, entries: seq<RegisterEntry>, step: Registrar)
    returns (st': Store, created: seq<User>, errors: seq<(nat, Reason)>)
    requires StoresCreated(step)
    ensures st' == RegisterAll(st, entries, step).0
    ensures created == CreatedOf(RegisterAll(st, entries, step).1)
    ensures errors == ErrorsOf(RegisterAll(st, entries, step).1, 0)
    ensures |created| + |errors| == |entries|
    ensures st'.users == st.users + created
  {
    ghost var full := RegisterAll(st, entries, step);
    ghost var outcomes: seq<Result<User>> := [];
    st' := st;
    created := [];
    errors := [];
    var i := 0;
    assert entries[i..] == entries;
    assert full.1 == outcomes + full.1;
    while i < |entries|
      invariant 0 <= i <= |entries| && |outcomes| == i
      invariant created == CreatedOf(outcomes) && errors == ErrorsOf(outcomes, 0)
      invariant full.0 == RegisterAll(st', entries[i..], step).0
      invariant full.1 == outcomes + RegisterAll(st', entries[i..], step).1
      decreases |entries| - i
    {
      var (next, outcome) := step(st', entries[i]);
      RegisterAllUnfold(st', entries[i..], step);
      assert entries[i..][0] == entries[i];
      assert entries[i..][1..] == entries[i + 1..];
      assert full.1 == (outcomes + [outcome]) + RegisterAll(next, entries[i + 1..], step).1;
      CreatedOfAppend(outcomes, outcome);
      ErrorsOfAppend(outcomes, outcome, 0);
      if outcome.Ok? {
        created := created + [outcome.value];
      } else {
        errors := errors + [(i, outcome.reason)];
      }
      outcomes := outcomes + [outcome];
      st' := next;
      i := i + 1;
    }
    assert entries[i..] == [];
    assert outcomes == full.1;
    BatchPartition(full.1, 0);
    RegisterAllUsers(st, entries, step);
  }

  /** The response status of a batch: 201 when at least one entry was created, else 400. */
  function BatchStatus(outcomes: seq<Result<User>>): (code: nat)
    ensures code == 201 <==> exists k :: 0 <= k < |outcomes| && outcomes[k].Ok?
    ensures code == 201 || code == 400
  {
    if Count(outcomes, (o: Result<User>) => o.Ok?) > 0 then 201 else 400
  }

  /** A request with a single object: 201 with the created user, or 400 with its error. */
  function RegisterSingle(st: Store, e: RegisterEntry, hash: string -> string): (r: (Store, nat, Result<User>))
    ensures r.1 == 201 <==> r.2.Ok?
    ensures r.1 == 400 <==> r.2.Err?
    ensures r.0 == RegisterAll(st, [e], Registration(hash)).0 && [r.2] == RegisterAll(st, [e], Registration(hash)).1
  {
    var (st', outcome) := RegisterOne(st, e, hash);
    (st', if outcome.Ok? then 201 else 400, outcome)
  }

  /** Once an entry is stored, another entry with the same email is refused. */
  lemma EmailTakenAfterRegister(st: Store, e1: RegisterEntry, e2: RegisterEntry, hash: string -> string)
    requires e2.email.Some? && RegisterOne(st, e1, hash).1.Ok?
    requires NormalizeEmail(e2.email.value) == RegisterOne(st, e1, hash).1.value.email
    ensures RegisterOne(RegisterOne(st, e1, hash).0, e2, hash).1 == Err(UserExists)
  {
    var (st1, first) := RegisterOne(st, e1, hash);
    RegisterOneRefusals(st, e1, hash);
    assert st1.users[|st.users|].email == NormalizeEmail(e2.email.value);
    assert ExistingByEmail(st1, e2.email).Some?;
    RegisterOneRefusals(st1, e2, hash);
  }

  /** Within one batch, a second entry with the email of an entry created just before it
      is refused as an existing user. */
  lemma DuplicateInBatchRejected(st: Store, e1: RegisterEntry, e2: RegisterEntry, hash: string -> string)
    requires e1.email.Some? && e2.email.Some? && NormalizeEmail(e1.email.value) == NormalizeEmail(e2.email.value)
    requires RegisterOne(st, e1, hash).1.Ok?
    ensures RegisterAll(st, [e1, e2], Registration(hash)).1 == [RegisterOne(st, e1, hash).1, Err(UserExists)]
  {
    RegisterOneStores(st, e1, hash);
    EmailTakenAfterRegister(st, e1, e2, hash);
    var step := Registration(hash);
    RegisterAllPair(st, e1, e2, step);
    assert step(st, e1) == RegisterOne(st, e1, hash);
    assert step(step(st, e1).0, e2) == RegisterOne(RegisterOne(st, e1, hash).0, e2, hash);
  }

  /** Two entries in one batch: the second sees the store the first left. */
  lemma RegisterAllPair(st: Store, e1: RegisterEntry, e2: RegisterEntry, step: Registrar)
    ensures RegisterAll(st, [e1, e2], step).1 == [step(st, e1).1, step(step(st, e1).0, e2).1]
  {
    assert [e1, e2][1..] == [e2];
    assert [e2][1..] == [];
  }

  // ---------------------------------------------------------------- login

  /** `login`: missing fields give 400, an unknown email or a wrong password 401, and a
      deactivated account 403, checked only once the password has matched. Every
      outcome after the field check is decided by the user `findOne` finds. */
  function Login(st: Store, email: Option<string>, password: Option<string>, matches: (string, string) -> bool)
    : (r: Result<User>)
    ensures !Present(email) || !Present(password) ==> r == Err(MissingField)
    ensures Present(email) && Present(password) && ExistingByEmail(st, email).None? ==> r == Err(InvalidCredentials)
    ensures Present(email) && Present(password) && ExistingByEmail(st, email).Some? ==>
      var u := st.users[ExistingByEmail(st, email).value];
      && (r == Err(InvalidCredentials) <==> !matches(password.value, u.password))
      && (r == Err(Deactivated) <==> matches(password.value, u.password) && !u.isActive)
      && (r == Ok(u) <==> matches(password.value, u.password) && u.isActive)
    ensures r.Ok? ==> r.value in st.users && r.value.email == NormalizeEmail(email.value) && r.value.isActive
    ensures r.Err? ==> r.reason in {MissingField, InvalidCredentials, Deactivated}
  {
    if !Present(email) || !Present(password) then Err(MissingField)
    else match ExistingByEmail(st, email)
      case None => Err(InvalidCredentials)
      case Some(i) =>
        var u := st.users[i];
        if !matches(password.value, u.password) then Err(InvalidCredentials)
        else if !u.isActive then Err(Deactivated)
        else Ok(u)
  }

  /** A deactivated account is only revealed to a caller who knows its password: with a
      wrong password the answer is the same 401 as for an unknown email. */
  lemma WrongPasswordHidesDeactivation(st: Store, email: string, password: string, matches: (string, string) -> bool)
    requires email != "" && password != ""
    requires forall u :: u in st.users && u.email == NormalizeEmail(email) ==> !matches(password, u.password)
    ensures Login(st, Some(email), Some(password), matches) == Err(InvalidCredentials)
    ensures Login(st, Some(email), Some(password), matches)
         == Login(st.(users := []), Some(email), Some(password), matches)
  {
  }

  /** A user who has just registered can log in with the same email
      and password, whenever `matches` accepts a password against its own hash. */
  lemma RegisterThenLogin(st: Store, e: RegisterEntry, hash: string -> string, matches: (string, string) -> bool)
    requires forall p :: matches(p, hash(p))
    requires RegisterOne(st, e, hash).1.Ok?
    ensures Login(RegisterOne(st, e, hash).0, e.email, e.password, matches) == RegisterOne(st, e, hash).1
  {
    RegisterOneStores(st, e, hash);
    LoginOfNewestUser(st.users, RegisterOne(st, e, hash).0, RegisterOne(st, e, hash).1.value, e.email, e.password, matches);
  }

  /** A user appended with an email no earlier user has is the one `login` finds by that
      email, and an active account with a matching password logs in. */
  lemma LoginOfNewestUser(users: seq<User>, st': Store, u: User, email: Option<string>, password: Option<string>,
                          matches: (string, string) -> bool)
    requires st'.users == users + [u]
    requires forall j :: 0 <= j < |users| ==> users[j].email != u.email
    requires Present(email) && Present(password) && u.email == NormalizeEmail(email.value)
    requires matches(password.value, u.password) && u.isActive
    ensures Login(st', email, password, matches) == Ok(u)
  {
    assert st'.users[|users|] == u;
    assert forall j :: 0 <= j < |users| ==> st'.users[j].email != u.email;
    assert ExistingByEmail(st', email) == Some(|users|);
  }

  /** `adminLogin`: all three fields are required; only an admin account with that email is
      considered; then the password, the secret key and the active flag are checked in
      that order. An admin stored without a secret key makes `bcrypt.compare` throw. */
  function AdminLogin(st: Store, email: Option<string>, password: Option<string>, secretKey: Option<string>,
                      matches: (string, string) -> bool): (r: Result<User>)
    ensures !Present(email) || !Present(password) || !Present(secretKey) ==> r == Err(MissingField)
    ensures (Present(email) && Present(password) && Present(secretKey)
      && AdminByEmail(st, email.value).None?) ==> r == Err(InvalidCredentials)
    ensures (Present(email) && Present(password) && Present(secretKey)
      && AdminByEmail(st, email.value).Some?) ==>
      var u := st.users[AdminByEmail(st, email.value).value];
      var keyMatches := u.secretKey.Some? && matches(secretKey.value, u.secretKey.value);
      && (r == Err(InvalidCredentials) <==> !matches(password.value, u.password))
      && (r == Err(InternalError) <==> matches(password.value, u.password) && u.secretKey.None?)
      && (r == Err(InvalidSecretKey) <==> matches(password.value, u.password) && u.secretKey.Some? && !keyMatches)
      && (r == Err(Deactivated) <==> matches(password.value, u.password) && keyMatches && !u.isActive)
      && (r == Ok(u) <==> matches(password.value, u.password) && keyMatches && u.isActive)
    ensures r.Ok? ==>
      && r.value in st.users && r.value.role == Admin && r.value.isActive
      && r.value.email == NormalizeEmail(email.value)
      && matches(password.value, r.value.password)
      && r.value.secretKey.Some? && matches(secretKey.value, r.value.secretKey.value)
  {
    if !Present(email) || !Present(password) || !Present(secretKey) then Err(MissingField)
    else
      match AdminByEmail(st, email.value)
      case None => Err(InvalidCredentials)
      case Some(i) =>
        var u := st.users[i];
        if !matches(password.value, u.password) then Err(InvalidCredentials)
        else if u.secretKey.None? then Err(InternalError)
        else if !matches(secretKey.value, u.secretKey.value) then Err(InvalidSecretKey)
        else if !u.isActive then Err(Deactivated)
        else Ok(u)
  }

  /** Under the unique index on email, an active admin whose password and secret key both
      match is logged in. */
  lemma AdminLoginAccepts(st: Store, email: string, password: string, secretKey: string,
                          matches: (string, string) -> bool, i: nat)
    requires email != "" && password != "" && secretKey != ""
    requires i < |st.users| && st.users[i].role == Admin && st.users[i].email == NormalizeEmail(email)
    requires forall j :: 0 <= j < |st.users| && j != i ==> st.users[j].email != st.users[i].email
    requires matches(password, st.users[i].password) && st.users[i].isActive
    requires st.users[i].secretKey.Some? && matches(secretKey, st.users[i].secretKey.value)
    ensures AdminLogin(st, Some(email), Some(password), Some(secretKey), matches) == Ok(st.users[i])
  {
    var found := AdminByEmail(st, email);
    assert found == Some(i);
  }
}

=== FILE: calculator.dfy ===
/** The credit calculator of `utils/calculateCredits.js`, with the settings' reward rate
    passed in instead of being fetched. */
module CreditCalculator {
  import opened Common
  import opened Models

  /** `categoryCredits[category] || 15`. */
  function BaseCredits(category: string): (r: int)
    ensures ParseCategory(category).None? ==> r == 15
    ensures r == 15 <==> category == "other" || ParseCategory(category).None?
  {
    match ParseCategory(category)
    case Some(Mobile) => 10
    case Some(Laptop) => 50
    case Some(Tv) => 30
    case Some(Computer) => 40
    case Some(Mixed) => 20
    case Some(Other) => 15
    case None => 15
  }

  /** `settings.rewardRatePerKg || 1`: a stored null or 0 counts as 1. */
  function EffectiveRate(stored: Option<real>): (rate: real)
    ensures rate != 0.0
    ensures stored.Some? && stored.value != 0.0 ==> rate == stored.value
  {
    if stored.Some? && stored.value != 0.0 then stored.value else 1.0
  }

  /** A truthy weight: present and not zero. */
  predicate HasWeight(weight: Option<real>) {
    weight.Some? && weight.value != 0.0
  }

  predicate HasQuantity(quantity: Option<int>) {
    quantity.Some? && quantity.value != 0
  }

  /** The category base, plus `floor(weight * rate)` when a weight is given, otherwise
      plus `quantity * 5` when a quantity is given. The weight part is the largest whole
      number of credits not above weight times rate. */
  function CalculateCredits(category: string, weight: Option<real>, quantity: Option<int>, storedRate: Option<real>): (r: int)
    ensures !HasWeight(weight) && !HasQuantity(quantity) ==> r == BaseCredits(category)
    ensures HasWeight(weight) ==>
      var earned := weight.value * EffectiveRate(storedRate);
      (r - BaseCredits(category)) as real <= earned < (r - BaseCredits(category)) as real + 1.0
    ensures HasWeight(weight) && weight.value > 0.0 && EffectiveRate(storedRate) > 0.0 ==> r >= BaseCredits(category)
  {
    var base := BaseCredits(category);
    if HasWeight(weight) then base + (weight.value * EffectiveRate(storedRate)).Floor
    else if HasQuantity(quantity) then base + quantity.value * 5
    else base
  }

  /** With neither weight nor quantity the result is the category base. */
  lemma BaseOnly(category: string, storedRate: Option<real>)
    ensures CalculateCredits(category, None, None, storedRate) == BaseCredits(category)
    ensures CalculateCredits(category, Some(0.0), Some(0), storedRate) == BaseCredits(category)
  {
  }

  /** The weight takes precedence: when a weight is given the quantity is ignored. */
  lemma WeightTakesPrecedence(category: string, w: real, q1: Option<int>, q2: Option<int>, storedRate: Option<real>)
    requires w != 0.0
    ensures CalculateCredits(category, Some(w), q1, storedRate) == CalculateCredits(category, Some(w), q2, storedRate)
  {
  }

  /** Without a weight, each item of quantity is worth 5 credits over the base. */
  lemma QuantityAddsFivePerItem(category: string, q: int, storedRate: Option<real>)
    ensures CalculateCredits(category, None, Some(q), storedRate) == BaseCredits(category) + 5 * q
  {
  }

  /** A stored rate of 0 and a missing rate both behave as a rate of 1. */
  lemma ZeroOrMissingRateIsOne(category: string, weight: Option<real>, quantity: Option<int>)
    ensures CalculateCredits(category, weight, quantity, Some(0.0)) == CalculateCredits(category, weight, quantity, Some(1.0))
    ensures CalculateCredits(category, weight, quantity, None) == CalculateCredits(category, weight, quantity, Some(1.0))
  {
  }

  /** Scaling by a non-negative rate keeps the order of the floors. */
  lemma ScaledFloorMonotone(a: real, b: real, r: real)
    requires a <= b && r >= 0.0
    ensures (a * r).Floor <= (b * r).Floor
  {
    assert b * r - a * r == (b - a) * r;
  }

  /** For a non-negative rate, a heavier pickup never earns fewer credits. */
  lemma MonotoneInWeight(category: string, w1: real, w2: real, quantity: Option<int>, storedRate: Option<real>)
    requires 0.0 < w1 <= w2
    requires storedRate.Some? ==> storedRate.value >= 0.0
    ensures CalculateCredits(category, Some(w1), quantity, storedRate) <= CalculateCredits(category, Some(w2), quantity, storedRate)
  {
    var rate := EffectiveRate(storedRate);
    assert rate >= 0.0;
    ScaledFloorMonotone(w1, w2, rate);
    var a := (w1 * rate).Floor;
    var b := (w2 * rate).Floor;
    assert CalculateCredits(category, Some(w1), quantity, storedRate) == BaseCredits(category) + a;
    assert CalculateCredits(category, Some(w2), quantity, storedRate) == BaseCredits(category) + b;
  }

  /** A 4.2 kg mobile at rate 2 earns 10 + floor(8.4) = 18. */
  lemma MobileByWeightExample()
    ensures CalculateCredits("mobile", Some(4.2), None, Some(2.0)) == 18
  {
    assert 4.2 * 2.0 == 8.4;
  }

  /** Two laptops without a weight earn 50 + 2 * 5 = 60. */
  lemma LaptopByQuantityExample()
    ensures CalculateCredits("laptop", None, Some(2), Some(1.0)) == 60
  {
  }
}

=== FILE: common.dfy ===
/** Small value types shared by every module of the model. */
module Common {

  /** A value that may be absent: JavaScript's `null`/`undefined` for an optional field. */
  datatype Option<+T> = None | Some(value: T) {
    function GetOr(default: T): T {
      match this
      case Some(v) => v
      case None => default
    }
  }

  function Min(a: int, b: int): int {
    if a <= b then a else b
  }
}

=== FILE: credits.dfy ===
/** `controllers/creditController.js`: a resident's or collector's balance and history,
    and redeeming credits at a partner. */
module CreditController {
  import opened Common
  import opened Seqs
  import opened Models
  import opened Errors
  import opened Json

  /** The partner with the given id, if any. */
  function FindPartner(st: Store, id: Id): (r: Option<Partner>)
    ensures r.Some? ==> r.value in st.partners && r.value.id == id
    ensures r.None? ==> forall p :: p in st.partners ==> p.id != id
  {
    match PartnerIndex(st.partners, id)
    case Some(i) => Some(st.partners[i])
    case None => None
  }

  predicate IsTxOf(t: CreditTransaction, user: Id) {
    t.user == user
  }

  /** `getMyCredits`: the caller's balance and their 50 most recent ledger entries,
      newest first. */
  function GetMyCredits(st: Store, caller: Id): (r: (real, seq<CreditTransaction>))
    requires FindUser(st, caller).Some?
    ensures r.0 == FindUser(st, caller).value.credits
    ensures |r.1| == Min(50, Count(st.transactions, (t: CreditTransaction) => IsTxOf(t, caller)))
    ensures forall i :: 0 <= i < |r.1| ==> r.1[i].user == caller && r.1[i] in st.transactions
    ensures forall i :: 0 <= i < |r.1| ==>
      var mine := Filter(st.transactions, (t: CreditTransaction) => IsTxOf(t, caller));
      i < |mine| && r.1[i] == mine[|mine| - 1 - i]
  {
    var recent := Latest(st.transactions, (t: CreditTransaction) => IsTxOf(t, caller), 50);
    // `user.credits || 0`: a zero balance reads as 0 either way.
    (FindUser(st, caller).value.credits, recent)
  }

  /** `redeemCredits` for the caller, a resident or collector. The checks run in this
      order: both fields given, the partner exists and is active, the submitted amount
      (read with `parseInt`, which first converts it to text; `numberText` is the text of
      a number that is not an integer below 10^21) is exactly the partner's price, and
      the balance covers it.
      On success the price is taken off the balance, one redeem entry naming the partner
      is recorded, and the new balance is returned as `remainingCredits`. */
  function RedeemCredits(st: Store, caller: Id, partnerId: Option<Id>, credits: Value, numberText: real -> string): (r: Result<(Store, real)>)
    requires HasRole(st, caller, Resident) || HasRole(st, caller, Collector)
    ensures r.Ok? <==>
      && partnerId.Some? && Truthy(credits)
      && FindPartner(st, partnerId.value).Some? && FindPartner(st, partnerId.value).value.isActive
      && ParseIntValue(credits, numberText) == Some(FindPartner(st, partnerId.value).value.creditsRequired)
      && FindUser(st, caller).value.credits >= FindPartner(st, partnerId.value).value.creditsRequired as real
  {
    if partnerId.None? || !Truthy(credits) then Err(MissingField)
    else match PartnerIndex(st.partners, partnerId.value)
      case None => Err(PartnerNotFound)
      case Some(k) =>
        var partner := st.partners[k];
        if !partner.isActive then Err(PartnerNotFound)
        else if ParseIntValue(credits, numberText) != Some(partner.creditsRequired) then Err(PriceMismatch)
        else
          var i := UserIndex(st.users, caller).value;
          var u := st.users[i];
          var price := partner.creditsRequired as real;
          if u.credits < price then Err(InsufficientCredits)
          else
            var tx := CreditTransaction(caller, Redeem, price, "Redeemed at " + partner.name, None, partnerId);
            Ok((Debit(st, i, price, tx), u.credits - price))
  }

  /** The store after the user at index `i` pays `price` and `tx` is recorded. */
  function Debit(st: Store, i: nat, price: real, tx: CreditTransaction): (r: Store)
    requires i < |st.users|
    ensures OnlyChangedAt(st.users, r.users, i)
    ensures r.users[i] == st.users[i].(credits := st.users[i].credits - price)
    ensures r.transactions == st.transactions + [tx]
    ensures r.(users := st.users, transactions := st.transactions) == st
  {
    st.(users := st.users[i := st.users[i].(credits := st.users[i].credits - price)], transactions := st.transactions + [tx])
  }

  /** What a successful redemption does: the price is taken off the caller's balance and
      no other user changes, one redeem entry naming the partner is recorded, the
      reported remainder is the new balance, and nothing else in the store changes. */
  lemma RedeemEffect(st: Store, caller: Id, partnerId: Option<Id>, credits: Value, numberText: real -> string)
    requires HasRole(st, caller, Resident) || HasRole(st, caller, Collector)
    requires RedeemCredits(st, caller, partnerId, credits, numberText).Ok?
    ensures
      var (st', remaining) := RedeemCredits(st, caller, partnerId, credits, numberText).value;
      var partner := FindPartner(st, partnerId.value).value;
      var i := UserIndex(st.users, caller).value;
      && OnlyChangedAt(st.users, st'.users, i)
      && st'.users[i] == st.users[i].(credits := st.users[i].credits - partner.creditsRequired as real)
      && remaining == st'.users[i].credits
      && st'.transactions == st.transactions + [CreditTransaction(caller, Redeem, partner.creditsRequired as real,
           "Redeemed at " + partner.name, None, partnerId)]
      && st'.(users := st.users, transactions := st.transactions) == st
  {
    RedeemIsDebit(st, caller, partnerId, credits, numberText);
  }

  /** A successful redemption is the debit of the caller by the partner's price. */
  lemma RedeemIsDebit(st: Store, caller: Id, partnerId: Option<Id>, credits: Value, numberText: real -> string)
    requires HasRole(st, caller, Resident) || HasRole(st, caller, Collector)
    requires RedeemCredits(st, caller, partnerId, credits, numberText).Ok?
    ensures
      var partner := st.partners[PartnerIndex(st.partners, partnerId.value).value];
      var i := UserIndex(st.users, caller).value;
      var price := partner.creditsRequired as real;
      RedeemCredits(st, caller, partnerId, credits, numberText)
        == Ok((Debit(st, i, price, CreditTransaction(caller, Redeem, price, "Redeemed at " + partner.name, None, partnerId)),
               st.users[i].credits - price))
  {
    assert partnerId.Some? && Truthy(credits);
    var k := PartnerIndex(st.partners, partnerId.value).value;
    var partner := st.partners[k];
    assert FindPartner(st, partnerId.value) == Some(partner);
    assert partner.isActive;
    assert ParseIntValue(credits, numberText) == Some(partner.creditsRequired);
    var i := UserIndex(st.users, caller).value;
    assert !(st.users[i].credits < partner.creditsRequired as real);
  }

  /** The refusals of `redeemCredits`, in the order its checks run: 400 for a missing
      field, 404 for a missing or inactive partner, 400 for an amount other than the price,
      and 400 for a balance that does not cover it. */
  lemma RedeemRefusals(st: Store, caller: Id, partnerId: Option<Id>, credits: Value, numberText: real -> string)
    requires HasRole(st, caller, Resident) || HasRole(st, caller, Collector)
    ensures var r := RedeemCredits(st, caller, partnerId, credits, numberText);
      && (partnerId.None? || !Truthy(credits) ==> r == Err(MissingField))
      && ((partnerId.Some? && Truthy(credits)
           && (FindPartner(st, partnerId.value).None? || !FindPartner(st, partnerId.value).value.isActive))
          ==> r == Err(PartnerNotFound))
      && ((partnerId.Some? && Truthy(credits) && FindPartner(st, partnerId.value).Some? && FindPartner(st, partnerId.value).value.isActive
           && ParseIntValue(credits, numberText) != Some(FindPartner(st, partnerId.value).value.creditsRequired))
          ==> r == Err(PriceMismatch))
      && ((r.Err? && partnerId.Some? && Truthy(credits) && FindPartner(st, partnerId.value).Some?
           && FindPartner(st, partnerId.value).value.isActive
           && ParseIntValue(credits, numberText) == Some(FindPartner(st, partnerId.value).value.creditsRequired))
          ==> r == Err(InsufficientCredits))
  {
  }

  /** `parseInt` converts its argument to text first, and an array of one item has that
      item's text: a non-zero amount wrapped in a one-element array is treated exactly as
      the bare amount. */
  lemma RedeemAcceptsSingletonArray(st: Store, caller: Id, partnerId: Option<Id>, credits: Value, numberText: real -> string)
    requires HasRole(st, caller, Resident) || HasRole(st, caller, Collector)
    requires Truthy(credits)
    ensures RedeemCredits(st, caller, partnerId, Arr([credits]), numberText) == RedeemCredits(st, caller, partnerId, credits, numberText)
  {
    ParseIntOfText(Arr([credits]), numberText);
    ParseIntOfText(credits, numberText);
    SingletonArrayParsesAsItem(credits, numberText);
  }

  /** A redemption never takes a non-negative balance below zero, since the price must be
      covered by the balance. */
  lemma RedeemKeepsBalanceNonNegative(st: Store, caller: Id, partnerId: Option<Id>, credits: Value, numberText: real -> string)
    requires HasRole(st, caller, Resident) || HasRole(st, caller, Collector)
    requires RedeemCredits(st, caller, partnerId, credits, numberText).Ok?
    ensures RedeemCredits(st, caller, partnerId, credits, numberText).value.1 >= 0.0
  {
    RedeemEffect(st, caller, partnerId, credits, numberText);
  }

  /** After a successful redemption the caller's history opens with the redeem entry, and
      the balance it reports is the `remainingCredits` of the response. */
  lemma RedeemShowsInHistory(st: Store, caller: Id, partnerId: Option<Id>, credits: Value, numberText: real -> string)
    requires HasRole(st, caller, Resident) || HasRole(st, caller, Collector)
    requires RedeemCredits(st, caller, partnerId, credits, numberText).Ok?
    ensures
      var (st', remaining) := RedeemCredits(st, caller, partnerId, credits, numberText).value;
      && FindUser(st', caller).Some?
      && GetMyCredits(st', caller).0 == remaining
      && |GetMyCredits(st', caller).1| > 0
      && GetMyCredits(st', caller).1[0] == st'.transactions[|st'.transactions| - 1]
  {
    RedeemIsDebit(st, caller, partnerId, credits, numberText);
    var partner := st.partners[PartnerIndex(st.partners, partnerId.value).value];
    var price := partner.creditsRequired as real;
    DebitShowsInHistory(st, caller, UserIndex(st.users, caller).value, price,
      CreditTransaction(caller, Redeem, price, "Redeemed at " + partner.name, None, partnerId));
  }

  /** After a debit of the caller recorded by an entry of theirs, the caller's history
      opens with that entry and reports the debited balance. */
  lemma DebitShowsInHistory(st: Store, caller: Id, i: nat, price: real, tx: CreditTransaction)
    requires UserIndex(st.users, caller) == Some(i)
    requires tx.user == caller
    ensures
      var st' := Debit(st, i, price, tx);
      && FindUser(st', caller).Some?
      && GetMyCredits(st', caller).0 == st.users[i].credits - price
      && |GetMyCredits(st', caller).1| > 0
      && GetMyCredits(st', caller).1[0] == tx
  {
    var st' := Debit(st, i, price, tx);
    FirstIndexSamePredicate(st.users, st'.users, (u: User) => u.id == caller);
    var pred := (t: CreditTransaction) => IsTxOf(t, caller);
    FilterAppend(st.transactions, tx, pred);
    FilterCount(st'.transactions, pred);
  }
}

=== FILE: errors.dfy ===
/** The error responses of the handlers: one reason per distinct `res.status(..)` branch,
    and the HTTP status each one is sent with. */
module Errors {

  datatype Reason =
    // 400
    | MissingField          // "Please provide ..."
    | InvalidStatus         // status not in the handler's list
    | InvalidCredits        // assignCredits: not a positive number
    | NotMultipleOfFive     // assignCredits: credits % 5 !== 0
    | InvalidAction         // assignCredits: action neither add nor deduct
    | NotCreditRole         // assignCredits: target is not resident or collector
    | NotEnoughToDeduct     // assignCredits: balance below the deduction
    | PriceMismatch         // redeemCredits: credits differ from the partner's price
    | InsufficientCredits   // redeemCredits: balance below the price
    | NegativeRate          // updateSettings: rewardRatePerKg < 0
    | NotAnArray            // updateSettings: categories or regions not an array
    | UserExists            // register: email already taken
    | AdminFieldsRequired   // register: admin without phone or secret key
    | AddressRequired       // register: non-admin without address
    | ValidationFailed      // a Mongoose schema validation or cast error
    // 401
    | InvalidCredentials    // login: unknown email or wrong password
    | InvalidSecretKey      // adminLogin: secret key does not match
    | NotAuthorized         // no token, bad token, or token of an unknown user
    // 403
    | Deactivated           // login of an inactive account
    | AdminProtected        // deactivating or deleting an admin
    | CollectorEngaged      // (un)assigning after the collector engaged
    | NotAssignedCollector  // collector acting on a pickup not assigned to them
    // 404
    | PickupNotFound
    | UserNotFound
    | CollectorNotFound
    | ResidentNotFound
    | PartnerNotFound
    | NotificationNotFound
    // 500
    // An exception. A handler's own catch answers 500; the one exception that reaches the
    // shared error middleware instead (adminLogin's `bcrypt.compare` on an admin stored
    // without a secret key) is answered with `res.statusCode`, still 200 there, so
    // `HttpStatus` overstates that one case.
    | InternalError

  function HttpStatus(r: Reason): nat {
    match r
    case InvalidCredentials | InvalidSecretKey | NotAuthorized => 401
    case Deactivated | AdminProtected | CollectorEngaged | NotAssignedCollector => 403
    case PickupNotFound | UserNotFound | CollectorNotFound | ResidentNotFound
      | PartnerNotFound | NotificationNotFound => 404
    case InternalError => 500
    case _ => 400
  }

  datatype Result<+T> = Ok(value: T) | Err(reason: Reason)
}

=== FILE: files.dfy ===
/** `routes/fileRoutes.js`: which stored object a `:filename` parameter names, the content
    type the proxy route announces for it, and how `protectOptional` finds the caller from
    an `Authorization: Bearer` header or a `?token=` query parameter. */
module FileRoutes {
  import opened Common
  import opened Strings
  import opened Models
  import opened Errors

  /** The path segment of the bucket in a stored object's URL
      (`<endpoint>/ecobin/<object name>`). */
  const BucketMarker := "/ecobin/"

  /** A character absent from a string is absent from the first piece of its split. */
  lemma FirstPieceLacks(s: string, sep: string, c: char)
    requires |sep| > 0 && c !in s
    ensures c !in Split(s, sep)[0]
  {
    var r := Split(s, sep)[0];
    assert r == s[..|r|];
    assert forall k :: 0 <= k < |r| ==> r[k] == s[k];
  }

  /** Cutting at the first `?` introduces no `/`. */
  lemma FirstPieceLacksSlash(path: string)
    ensures !Contains(path, "/") ==> !Contains(Split(path, "?")[0], "/")
  {
    assert "/" == ['/'];
    var r := Split(path, "?")[0];
    ContainsChar(path, '/');
    ContainsChar(r, '/');
    if '/' !in path {
      FirstPieceLacks(path, "?", '/');
    }
  }

  /** A name holding `/ecobin/` holds a `/`. */
  lemma MarkerHasSlash(s: string)
    ensures Contains(s, BucketMarker) ==> Contains(s, "/")
  {
    if Contains(s, BucketMarker) {
      var i := Find(s, BucketMarker).value;
      assert s[i] == s[i..i + |BucketMarker|][0] == '/';
      assert "/" == ['/'];
      ContainsChar(s, '/');
    }
  }

  /** The part of the name that holds the key: the text between the first `/ecobin/` and
      the next one, if any; else the text after the last `/`; else the whole name. */
  function KeyPath(filename: string): (p: string)
    ensures !Contains(filename, BucketMarker) ==> !Contains(p, "/")
    ensures !Contains(filename, "/") ==> p == filename
  {
    MarkerHasSlash(filename);
    LastPieceLacks(filename, "/");
    if Contains(filename, BucketMarker) then Split(filename, BucketMarker)[1]
    else if Contains(filename, "/") then LastPiece(filename, "/")
    else filename
  }

  /** The object name of a decoded `:filename` parameter, as both routes compute it: the
      text between the first `/ecobin/` of a full object URL and the next one, if any,
      otherwise the last `/`-segment of a path, otherwise the name itself; in every case
      cut at the first `?`. */
  function ObjectName(filename: string): (r: string)
    ensures !Contains(r, "?")
    ensures !Contains(filename, "/") && !Contains(filename, "?") ==> r == filename
    ensures !Contains(filename, BucketMarker) ==> !Contains(r, "/")
  {
    var path := KeyPath(filename);
    FirstPieceLacksSlash(path);
    SplitPiecesLack(path, "?", 0);
    Split(path, "?")[0]
  }

  /** The object name the proxy route reads from the path segment of a request. Express
      percent-decodes the segment into `req.params.filename`, and the handler decodes that
      once more with `decodeURIComponent`. `decode` is `decodeURIComponent`, with `None`
      for the `URIError` it throws on a malformed escape; either failure ends the request
      with an error instead of a file. */
  function SegmentObjectName(segment: string, decode: string -> Option<string>): Option<string> {
    match decode(segment)
    case None => None
    case Some(param) =>
      match decode(param)
      case None => None
      case Some(name) => Some(ObjectName(name))
  }

  /** A name that is already an object name (no `/`, no `?`) names itself, so extracting
      twice is extracting once whenever the result has no `/`. */
  lemma ObjectNameIdempotent(filename: string)
    requires !Contains(ObjectName(filename), "/")
    ensures ObjectName(ObjectName(filename)) == ObjectName(filename)
  {
  }

  /** The URL under which an upload is stored, `<endpoint>/ecobin/<key>`, possibly followed
      by a presigned query string, names exactly the key again. The endpoint must not itself
      end in a `/ecobin/` segment, and the key holds neither `/ecobin/` nor `?`. */
  lemma ObjectNameOfStoredUrl(endpoint: string, key: string, query: string)
    requires !Contains(endpoint + "/ecobin", BucketMarker)
    requires !Contains(key + query, BucketMarker) && !Contains(key, "?")
    requires query == "" || query[0] == '?'
    ensures ObjectName(endpoint + BucketMarker + key + query) == key
  {
    assert endpoint + BucketMarker + key + query == endpoint + BucketMarker + (key + query);
    KeyPathOfStoredUrl(endpoint, key + query);
    KeyBeforeQuery(key, query);
  }

  /** After the bucket segment comes the rest of the URL, when it holds no other one. */
  lemma KeyPathOfStoredUrl(endpoint: string, rest: string)
    requires !Contains(endpoint + "/ecobin", BucketMarker)
    requires !Contains(rest, BucketMarker)
    ensures KeyPath(endpoint + BucketMarker + rest) == rest
  {
    assert BucketMarker[..|BucketMarker| - 1] == "/ecobin";
    SplitAfterFirst(endpoint, BucketMarker, rest);
  }

  /** A key without `?` is what precedes a query string starting with `?`. */
  lemma KeyBeforeQuery(key: string, query: string)
    requires !Contains(key, "?")
    requires query == "" || query[0] == '?'
    ensures Split(key + query, "?")[0] == key
  {
    if query == "" {
      assert key + query == key;
    } else {
      assert key + query == key + "?" + query[1..];
      assert key + "?"[..0] == key;
      SplitAfterFirst(key, "?", query[1..]);
    }
  }

  /** `contentTypeMap[ext] || 'image/jpeg'`. */
  function ExtensionType(ext: string): (t: string)
    ensures t == "image/png" <==> ext == "png"
    ensures t == "image/gif" <==> ext == "gif"
    ensures t == "image/webp" <==> ext == "webp"
    ensures t == "application/pdf" <==> ext == "pdf"
    ensures t == "image/jpeg" <==> ext !in {"png", "gif", "webp", "pdf"}
  {
    if ext == "jpg" || ext == "jpeg" then "image/jpeg"
    else if ext == "png" then "image/png"
    else if ext == "gif" then "image/gif"
    else if ext == "webp" then "image/webp"
    else if ext == "pdf" then "application/pdf"
    else "image/jpeg"
  }

  /** The content type of an object: by its lower-cased last `.`-segment. */
  function ContentType(objectName: string): (t: string)
    ensures t in {"image/jpeg", "image/png", "image/gif", "image/webp", "application/pdf"}
  {
    ExtensionType(ToLower(LastPiece(objectName, ".")))
  }

  /** The type of `<base>.<ext>` is decided by `ext` alone, whatever its letter case. */
  lemma ContentTypeOfExtension(base: string, ext: string)
    requires '.' !in ext
    ensures ContentType(base + "." + ext) == ExtensionType(ToLower(ext))
  {
    LastPieceAfter(base, '.', ext);
  }

  /** An `Authorization` header that starts with `Bearer`. */
  predicate IsBearer(authorization: Option<string>) {
    authorization.Some? && authorization.value != "" && StartsWith(authorization.value, "Bearer")
  }

  /** The token `protectOptional` uses: the second space-separated word of a `Bearer`
      header (absent when there is none), otherwise a non-empty `?token=`. */
  function RequestToken(authorization: Option<string>, queryToken: Option<string>): (t: Option<string>)
    ensures IsBearer(authorization) ==> (t.Some? <==> Contains(authorization.value, " "))
    ensures t.Some? && IsBearer(authorization) ==> !Contains(t.value, " ")
    ensures !IsBearer(authorization) && t.Some? ==> t == queryToken && t.value != ""
    ensures !IsBearer(authorization) && queryToken.Some? && queryToken.value != "" ==> t == queryToken
  {
    if IsBearer(authorization) then
      var parts := Split(authorization.value, " ");
      if |parts| >= 2 then SplitPiecesLack(authorization.value, " ", 1); Some(parts[1]) else None
    else if queryToken.Some? && queryToken.value != "" then queryToken
    else None
  }

  /** `Bearer <token>` yields the token, whatever the query says. */
  lemma BearerHeaderToken(token: string, queryToken: Option<string>)
    requires ' ' !in token
    ensures RequestToken(Some("Bearer " + token), queryToken) == Some(token)
  {
    var h := "Bearer " + token;
    assert StartsWith(h, "Bearer");
    ContainsChar("Bearer", ' ');
    ContainsChar(token, ' ');
    assert "Bearer" + " "[..0] == "Bearer";
    assert h == "Bearer" + " " + token;
    SplitAfterFirst("Bearer", " ", token);
  }

  /** A `Bearer` header takes priority: the query token is then never consulted. */
  lemma HeaderTakesPriority(authorization: Option<string>, q1: Option<string>, q2: Option<string>)
    requires IsBearer(authorization)
    ensures RequestToken(authorization, q1) == RequestToken(authorization, q2)
  {
  }

  /** `protectOptional`: 401 when there is no token, when it does not verify, or when its
      user no longer exists; otherwise the user the token names. `verify` is `jwt.verify`
      with the server's secret, giving the id in the payload. */
  function ProtectOptional(st: Store, authorization: Option<string>, queryToken: Option<string>,
                           verify: string -> Option<Id>): (r: Result<User>)
    ensures r.Err? ==> r.reason == NotAuthorized
    ensures r.Ok? <==>
      var t := RequestToken(authorization, queryToken);
      && t.Some? && t.value != ""
      && verify(t.value).Some?
      && exists u :: u in st.users && u.id == verify(t.value).value
    ensures r.Ok? ==> r.value in st.users && Some(r.value.id) == verify(RequestToken(authorization, queryToken).value)
  {
    match RequestToken(authorization, queryToken)
    case None => Err(NotAuthorized)
    case Some(t) =>
      if t == "" then Err(NotAuthorized)
      else match verify(t)
        case None => Err(NotAuthorized)
        case Some(id) =>
          match FindUser(st, id)
          case None => Err(NotAuthorized)
          case Some(u) => Ok(u)
  }

  /** Without a `Bearer` header and without a non-empty `?token=`, the request is refused. */
  lemma NoTokenRefused(st: Store, authorization: Option<string>, queryToken: Option<string>,
                       verify: string -> Option<Id>)
    requires !IsBearer(authorization)
    requires queryToken.None? || queryToken.value == ""
    ensures ProtectOptional(st, authorization, queryToken, verify) == Err(NotAuthorized)
  {
  }

  /** A valid token of an existing user in a `Bearer` header admits that user. */
  lemma BearerAdmits(st: Store, token: string, queryToken: Option<string>, verify: string -> Option<Id>, u: User)
    requires ' ' !in token && token != ""
    requires u in st.users && verify(token) == Some(u.id)
    ensures ProtectOptional(st, Some("Bearer " + token), queryToken, verify).Ok?
  {
    BearerHeaderToken(token, queryToken);
  }
}

=== FILE: json.dfy ===
/** JSON request values and the JavaScript coercions the handlers apply to them:
    truthiness, `typeof`, `String(v)`, `parseInt`, and the `% 5` test. */
module Json {
  import opened Common
  import opened Strings

  /** A value of a parsed JSON request body. `Undefined` is a property that is absent. */
  datatype Value =
    | Undefined
    | Null
    | Bool(b: bool)
    | Num(n: real)
    | Str(s: string)
    | Arr(items: seq<Value>)
    | Obj(fields: map<string, Value>)

  /** JavaScript truthiness (`if (v)`); NaN is not representable. */
  predicate Truthy(v: Value) {
    match v
    case Undefined => false
    case Null => false
    case Bool(b) => b
    case Num(n) => n != 0.0
    case Str(s) => s != ""
    case Arr(_) => true
    case Obj(_) => true
  }

  /** Property read `v.key` on a value that is not null or undefined. */
  function Get(v: Value, key: string): Value {
    if v.Obj? && key in v.fields then v.fields[key] else Undefined
  }

  /** A string-typed optional field: its text when it is a string, nothing otherwise. */
  function StrOf(v: Value): Option<string> {
    if v.Str? then Some(v.s) else None
  }

  /** `x % 5 === 0` for a JavaScript number: x is an integer multiple of 5. */
  predicate IsMultipleOfFive(x: real) {
    x == x.Floor as real && x.Floor % 5 == 0
  }

  predicate IsDigit(c: char, base: nat) {
    if base == 16 then ('0' <= c <= '9') || ('a' <= c <= 'f') || ('A' <= c <= 'F')
    else '0' <= c <= '9'
  }

  function DigitValue(c: char): nat {
    if '0' <= c <= '9' then c as int - '0' as int
    else if 'a' <= c <= 'f' then c as int - 'a' as int + 10
    else if 'A' <= c <= 'F' then c as int - 'A' as int + 10
    else 0
  }

  /** The longest prefix of `s` made of digits of `base`. */
  function DigitPrefix(s: string, base: nat): (d: string)
    ensures |d| <= |s| && d == s[..|d|]
    ensures forall i :: 0 <= i < |d| ==> IsDigit(d[i], base)
    ensures |d| < |s| ==> !IsDigit(s[|d|], base)
  {
    if |s| > 0 && IsDigit(s[0], base) then [s[0]] + DigitPrefix(s[1..], base) else ""
  }

  /** The number that a digit string denotes in `base`. */
  function DigitsValue(d: string, base: nat): nat {
    if |d| == 0 then 0 else DigitsValue(d[..|d| - 1], base) * base + DigitValue(d[|d| - 1])
  }

  /** The magnitude part of `parseInt`: an optional `0x` prefix, then the longest digit
      prefix. `None` stands for NaN. */
  function ParseMagnitude(body: string): Option<nat> {
    var hex := StartsWith(body, "0x") || StartsWith(body, "0X");
    var digits := if hex then DigitPrefix(body[2..], 16) else DigitPrefix(body, 10);
    if |digits| == 0 then None else Some(DigitsValue(digits, if hex then 16 else 10))
  }

  /** The text after an optional leading sign. */
  function Unsigned(t: string): string {
    if |t| > 0 && (t[0] == '-' || t[0] == '+') then t[1..] else t
  }

  /** `parseInt(s)` without a radix: leading white space is skipped, then the text is
      read by `ParseSigned`. `None` stands for NaN. */
  function ParseIntString(s: string): Option<int>
    decreases |s|
  {
    if |s| > 0 && IsJsWhiteSpace(s[0]) then ParseIntString(s[1..]) else ParseSigned(s)
  }

  /** An optional sign, then the magnitude. */
  function ParseSigned(t: string): Option<int> {
    var negative := |t| > 0 && t[0] == '-';
    match ParseMagnitude(Unsigned(t))
    case None => None
    case Some(m) => Some(if negative then -(m as int) else m as int)
  }

  /** Skipping white space one character at a time is `TrimStart`. */
  lemma {:induction false} ParseIntSkipsWhiteSpace(s: string)
    ensures ParseIntString(s) == ParseSigned(TrimStart(s))
    decreases |s|
  {
    if |s| > 0 && IsJsWhiteSpace(s[0]) {
      ParseIntSkipsWhiteSpace(s[1..]);
    }
  }

  /** Decimal text of a natural number, without leading zeros. */
  function NatText(n: nat): (d: string)
    ensures |d| > 0
    ensures forall i :: 0 <= i < |d| ==> IsDigit(d[i], 10)
    ensures n > 0 ==> d[0] != '0'
  {
    if n < 10 then [('0' as int + n) as char]
    else NatText(n / 10) + [('0' as int + n % 10) as char]
  }

  /** `String(n)` for an integer `n`. */
  function IntText(n: int): string {
    if n < 0 then "-" + NatText(-n) else NatText(n)
  }

  lemma {:induction false} NatTextValue(n: nat)
    ensures DigitsValue(NatText(n), 10) == n
  {
    var d := NatText(n);
    if n >= 10 {
      NatTextValue(n / 10);
      assert d[..|d| - 1] == NatText(n / 10);
    }
  }

  lemma {:induction false} DigitPrefixOfDigits(d: string)
    requires forall i :: 0 <= i < |d| ==> IsDigit(d[i], 10)
    ensures DigitPrefix(d, 10) == d
  {
    if |d| > 0 {
      DigitPrefixOfDigits(d[1..]);
    }
  }

  lemma ParseMagnitudeOfDigits(d: string)
    requires |d| > 0 && forall i :: 0 <= i < |d| ==> IsDigit(d[i], 10)
    ensures ParseMagnitude(d) == Some(DigitsValue(d, 10))
  {
    DigitPrefixOfDigits(d);
    assert !StartsWith(d, "0x") && !StartsWith(d, "0X") by {
      if |d| >= 2 {
        assert IsDigit(d[1], 10);
      }
    }
  }

  /** `parseInt` reads back the decimal text of every integer. */
  lemma ParseIntRoundTrip(n: int)
    ensures ParseIntString(IntText(n)) == Some(n)
  {
    var m: nat := if n < 0 then -n else n;
    NatTextValue(m);
    ParseMagnitudeOfDigits(NatText(m));
    IntTextShape(n);
    assert ParseMagnitude(Unsigned(TrimStart(IntText(n)))) == Some(m);
  }

  /** The decimal text of an integer has no leading white space, a minus sign exactly
      when it is negative, and the digits of its magnitude after the sign. */
  lemma IntTextShape(n: int)
    ensures TrimStart(IntText(n)) == IntText(n)
    ensures (IntText(n)[0] == '-') == (n < 0)
    ensures Unsigned(IntText(n)) == NatText(if n < 0 then -n else n)
  {
    var m: nat := if n < 0 then -n else n;
    var t := IntText(n);
    assert IsDigit(NatText(m)[0], 10);
    assert !IsJsWhiteSpace(t[0]);
    if n < 0 {
      assert t[1..] == NatText(m);
    }
  }

  /** 10^21: from this magnitude on, JavaScript prints a number in exponent form. */
  const PlainLimit: int := 1_000_000_000_000_000_000_000

  /** `String(x)` for a number. An integer below 10^21 in magnitude prints as its decimal
      digits. Any other number prints in the shortest form that reads back as the same
      double (`5e-7`, `0.25`, `1e+21`); that form is not modelled and is `otherText(x)`. */
  function NumberText(x: real, otherText: real -> string): (t: string)
    ensures x == x.Floor as real && -PlainLimit < x.Floor < PlainLimit ==> t == IntText(x.Floor)
    ensures !(x == x.Floor as real && -PlainLimit < x.Floor < PlainLimit) ==> t == otherText(x)
  {
    if x == x.Floor as real && -PlainLimit < x.Floor < PlainLimit then IntText(x.Floor) else otherText(x)
  }

  /** `String(v)` for a request value. An array joins the texts of its items with commas,
      in which `null` and `undefined` items are empty. */
  function JsText(v: Value, otherText: real -> string): string
    decreases v
  {
    match v
    case Undefined => "undefined"
    case Null => "null"
    case Bool(b) => if b then "true" else "false"
    case Num(n) => NumberText(n, otherText)
    case Str(s) => s
    case Arr(items) => ItemsText(items, otherText)
    case Obj(_) => "[object Object]"
  }

  /** `Array.prototype.join(",")` over the items' texts. */
  function ItemsText(items: seq<Value>, otherText: real -> string): string
    decreases items
  {
    if |items| == 0 then ""
    else
      var head := if items[0].Undefined? || items[0].Null? then "" else JsText(items[0], otherText);
      if |items| == 1 then head else head + "," + ItemsText(items[1..], otherText)
  }

  /** `parseInt(v)` for a request value. JavaScript converts the value to its text first
      and parses the text; `ParseIntOfText` proves that this case-wise definition is that
      composition. An array reads as its first item, since the comma that follows the
      item's text stops the parse. `None` stands for NaN. */
  function ParseIntValue(v: Value, otherText: real -> string): (r: Option<int>)
    ensures v.Str? ==> r == ParseIntString(v.s)
    ensures v.Undefined? || v.Null? || v.Bool? || v.Obj? ==> r.None?
  {
    match v
    case Str(s) => ParseIntString(s)
    case Num(n) => ParseIntString(NumberText(n, otherText))
    case Arr(items) =>
      if |items| == 0 || items[0].Undefined? || items[0].Null? then None
      else ParseIntValue(items[0], otherText)
    case _ => None
  }

  /** `parseInt(v)` is `parseInt(String(v))` for every request value. */
  lemma {:induction false} ParseIntOfText(v: Value, otherText: real -> string)
    ensures ParseIntValue(v, otherText) == ParseIntString(JsText(v, otherText))
    decreases v
  {
    match v
    case Str(_) =>
    case Num(_) =>
    case Arr(items) =>
      if |items| == 0 {
        assert JsText(v, otherText) == "";
        EmptyParsesNaN();
      } else {
        var head := if items[0].Undefined? || items[0].Null? then "" else JsText(items[0], otherText);
        assert JsText(v, otherText) == ItemsText(items, otherText);
        if |items| > 1 {
          var rest := "," + ItemsText(items[1..], otherText);
          assert ItemsText(items, otherText) == head + rest;
          CommaStopsParse(head, rest);
        }
        if items[0].Undefined? || items[0].Null? {
          EmptyParsesNaN();
        } else {
          ParseIntOfText(items[0], otherText);
        }
      }
    case _ =>
      NonNumericParsesNaN(v, otherText);
  }

  /** `undefined`, `null`, a boolean and an object print as words, which `parseInt`
      reads as NaN. */
  lemma NonNumericParsesNaN(v: Value, otherText: real -> string)
    requires v.Undefined? || v.Null? || v.Bool? || v.Obj?
    ensures ParseIntString(JsText(v, otherText)).None?
  {
    var t := JsText(v, otherText);
    assert t[0] in "unt[f";
    LetterParsesNaN(t);
  }

  /** A text starting with a character that is neither white space, a sign nor a digit
      parses as NaN. */
  lemma LetterParsesNaN(t: string)
    requires |t| > 0 && !IsJsWhiteSpace(t[0]) && t[0] != '-' && t[0] != '+' && !IsDigit(t[0], 10)
    ensures ParseIntString(t) == None
  {
    assert TrimStart(t) == t;
    assert !StartsWith(t, "0x") && !StartsWith(t, "0X") by {
      if |t| >= 2 {
        assert t[..2][0] == t[0];
      }
    }
    assert DigitPrefix(t, 10) == "";
  }

  lemma EmptyParsesNaN()
    ensures ParseIntString("") == None
  {
    assert TrimStart("") == "";
    assert DigitPrefix("", 10) == "";
  }

  /** `parseInt` stops at a comma: whatever follows a comma does not change the result. */
  lemma CommaStopsParse(a: string, s: string)
    requires |s| > 0 && s[0] == ','
    ensures ParseIntString(a + s) == ParseIntString(a)
  {
    ParseIntSkipsWhiteSpace(a + s);
    ParseIntSkipsWhiteSpace(a);
    TrimStartAppend(a, s);
    SignedStopsAtComma(TrimStart(a), s);
  }

  lemma SignedStopsAtComma(t: string, s: string)
    requires |s| > 0 && s[0] == ','
    ensures ParseSigned(t + s) == ParseSigned(t)
  {
    UnsignedAppend(t, s);
    MagnitudeStopsAtComma(Unsigned(t), s);
  }

  lemma UnsignedAppend(t: string, s: string)
    requires |s| > 0 && s[0] == ','
    ensures Unsigned(t + s) == Unsigned(t) + s
    ensures (|t + s| > 0 && (t + s)[0] == '-') == (|t| > 0 && t[0] == '-')
  {
    if |t| > 0 {
      assert (t + s)[0] == t[0];
      if t[0] == '-' || t[0] == '+' {
        assert (t + s)[1..] == t[1..] + s;
      }
    } else {
      assert t + s == s;
    }
  }

  lemma MagnitudeStopsAtComma(body: string, s: string)
    requires |s| > 0 && s[0] == ','
    ensures ParseMagnitude(body + s) == ParseMagnitude(body)
  {
    var x := body + s;
    assert StartsWith(x, "0x") == StartsWith(body, "0x") && StartsWith(x, "0X") == StartsWith(body, "0X") by {
      if |body| >= 2 {
        assert x[..2] == body[..2];
      } else if |x| >= 2 {
        assert x[..2][1] == ',' || x[..2][0] == ',';
      }
    }
    if StartsWith(body, "0x") || StartsWith(body, "0X") {
      assert x[2..] == body[2..] + s;
      DigitPrefixStopsAtComma(body[2..], s, 16);
    } else {
      DigitPrefixStopsAtComma(body, s, 10);
    }
  }

  lemma {:induction false} DigitPrefixStopsAtComma(x: string, s: string, base: nat)
    requires |s| > 0 && s[0] == ','
    ensures DigitPrefix(x + s, base) == DigitPrefix(x, base)
    decreases |x|
  {
    if |x| == 0 {
      assert x + s == s;
    } else {
      assert (x + s)[0] == x[0];
      assert (x + s)[1..] == x[1..] + s;
      DigitPrefixStopsAtComma(x[1..], s, base);
    }
  }

  /** White space at the front of `a + s` all lies in `a` when `s` starts with no white
      space. */
  lemma {:induction false} TrimStartAppend(a: string, s: string)
    requires |s| > 0 && !IsJsWhiteSpace(s[0])
    ensures TrimStart(a + s) == TrimStart(a) + s
    decreases |a|
  {
    if |a| == 0 {
      assert a + s == s;
    } else {
      assert (a + s)[0] == a[0];
      assert (a + s)[1..] == a[1..] + s;
      TrimStartAppend(a[1..], s);
    }
  }

  /** Every integer below 10^21 in magnitude, sent as a JSON number, is read back by
      `parseInt` as itself. */
  lemma ParseIntOfInteger(k: int, otherText: real -> string)
    requires -PlainLimit < k < PlainLimit
    ensures ParseIntValue(Num(k as real), otherText) == Some(k)
  {
    assert (k as real).Floor == k;
    ParseIntRoundTrip(k);
  }

  /** An array of one item has the text of that item, or empty text for `null` and
      `undefined`, so `parseInt` reads it exactly as the item itself. */
  lemma SingletonArrayParsesAsItem(v: Value, otherText: real -> string)
    ensures ParseIntString(JsText(Arr([v]), otherText)) == ParseIntString(JsText(v, otherText))
  {
    assert JsText(Arr([v]), otherText) == ItemsText([v], otherText);
    if v.Undefined? || v.Null? {
      assert ItemsText([v], otherText) == "";
      EmptyParsesNaN();
      NonNumericParsesNaN(v, otherText);
    } else {
      assert ItemsText([v], otherText) == JsText(v, otherText);
    }
  }

  /** The exponent form of a number is read up to its first non-digit: a number printing
      as `5e-7` reads as 5. */
  lemma ParseIntOfExponentText(x: real, otherText: real -> string)
    requires otherText(x) == "5e-7" && x == 0.0000005
    ensures ParseIntValue(Num(x), otherText) == Some(5)
  {
    assert x.Floor == 0;
    assert JsText(Num(x), otherText) == "5e-7";
    ParseIntOfFiveExponent();
  }

  lemma ParseIntOfFiveExponent()
    ensures ParseIntString("5e-7") == Some(5)
  {
    var t := "5e-7";
    assert !IsJsWhiteSpace(t[0]);
    assert TrimStart(t) == t;
    assert !StartsWith(t, "0x") && !StartsWith(t, "0X") by {
      assert t[..2][1] == 'e';
    }
    assert DigitPrefix(t[1..], 10) == "";
    assert DigitPrefix(t, 10) == "5";
    assert DigitsValue("5", 10) == 5;
  }
}

=== FILE: ledger.dfy ===
/** The credit ledger as a whole: every balance equals the signed sum of its user's
    ledger entries, and no balance is negative. Redemptions and admin adjustments keep
    both invariants, in any number and order; a direct `updateUser` write of `credits`
    keeps neither. */
module Ledger {
  import opened Common
  import opened Seqs
  import opened Models
  import opened Errors
  import opened Json
  import AdminController
  import CreditController

  /** The signed sum of `user`'s entries in `txs`. */
  function Net(txs: seq<CreditTransaction>, user: Id): real {
    if |txs| == 0 then 0.0
    else Net(txs[..|txs| - 1], user) + (if txs[|txs| - 1].user == user then Signed(txs[|txs| - 1]) else 0.0)
  }

  lemma NetAppend(txs: seq<CreditTransaction>, t: CreditTransaction, user: Id)
    ensures Net(txs + [t], user) == Net(txs, user) + (if t.user == user then Signed(t) else 0.0)
  {
    assert (txs + [t])[..|txs|] == txs;
  }

  predicate UniqueUserIds(users: seq<User>) {
    forall i, j :: 0 <= i < j < |users| ==> users[i].id != users[j].id
  }

  /** Every balance is accounted for by the ledger. */
  predicate Reconciled(st: Store) {
    forall j :: 0 <= j < |st.users| ==> st.users[j].credits == Net(st.transactions, st.users[j].id)
  }

  predicate NonNegative(st: Store) {
    forall j :: 0 <= j < |st.users| ==> st.users[j].credits >= 0.0
  }

  /** The ledger invariant: unique user ids, reconciled and non-negative balances. */
  predicate LedgerInvariant(st: Store) {
    UniqueUserIds(st.users) && Reconciled(st) && NonNegative(st)
  }

  /** One user's balance changed by `delta` and one entry of that signed amount appended
      for them: the shape of every successful credit operation. */
  lemma {:induction false} SingleEntryPreserves(st: Store, st': Store, i: nat, delta: real)
    requires LedgerInvariant(st)
    requires OnlyChangedAt(st.users, st'.users, i)
    requires st'.users[i] == st.users[i].(credits := st.users[i].credits + delta)
    requires st'.users[i].credits >= 0.0
    requires |st'.transactions| == |st.transactions| + 1
    requires st'.transactions[..|st.transactions|] == st.transactions
    requires st'.transactions[|st.transactions|].user == st.users[i].id
    requires Signed(st'.transactions[|st.transactions|]) == delta
    ensures LedgerInvariant(st')
  {
    var tx := st'.transactions[|st.transactions|];
    assert st'.transactions == st.transactions + [tx];
    forall j | 0 <= j < |st'.users|
      ensures st'.users[j].credits == Net(st'.transactions, st'.users[j].id)
    {
      NetAppend(st.transactions, tx, st'.users[j].id);
      if j != i {
        assert st.users[j].id != st.users[i].id;
      }
    }
    assert forall j :: 0 <= j < |st'.users| ==> st'.users[j].id == st.users[j].id;
  }

  /** `assignCredits` keeps the ledger invariant: the balance moves by exactly the signed
      amount of the entry it records, and a deduction is refused when it would overdraw. */
  lemma AssignCreditsPreservesLedger(st: Store, target: Id, credits: Value, description: Option<string>, action: Value)
    requires LedgerInvariant(st)
    requires AdminController.AssignCredits(st, target, credits, description, action).Ok?
    ensures LedgerInvariant(AdminController.AssignCredits(st, target, credits, description, action).value.0)
  {
    var (st', delta) := AdminController.AssignCredits(st, target, credits, description, action).value;
    var i := UserIndex(st.users, target).value;
    SingleEntryPreserves(st, st', i, delta);
  }

  /** A debit the balance covers, recorded by one entry of that user for the negated
      amount, keeps the ledger invariant. */
  lemma DebitPreservesLedger(st: Store, i: nat, price: real, tx: CreditTransaction)
    requires LedgerInvariant(st)
    requires i < |st.users| && st.users[i].credits >= price
    requires tx.user == st.users[i].id && Signed(tx) == -price
    ensures LedgerInvariant(CreditController.Debit(st, i, price, tx))
  {
    SingleEntryPreserves(st, CreditController.Debit(st, i, price, tx), i, -price);
  }

  /** `redeemCredits` keeps the ledger invariant. */
  lemma RedeemPreservesLedger(st: Store, caller: Id, partnerId: Option<Id>, credits: Value, numberText: real -> string)
    requires HasRole(st, caller, Resident) || HasRole(st, caller, Collector)
    requires LedgerInvariant(st)
    requires CreditController.RedeemCredits(st, caller, partnerId, credits, numberText).Ok?
    ensures LedgerInvariant(CreditController.RedeemCredits(st, caller, partnerId, credits, numberText).value.0)
  {
    CreditController.RedeemIsDebit(st, caller, partnerId, credits, numberText);
    var partner := st.partners[PartnerIndex(st.partners, partnerId.value).value];
    var i := UserIndex(st.users, caller).value;
    var price := partner.creditsRequired as real;
    DebitPreservesLedger(st, i, price, CreditTransaction(caller, Redeem, price, "Redeemed at " + partner.name, None, partnerId));
  }

  /** A request that changes balances: an admin adjustment or a redemption. */
  datatype CreditOp =
    | AdminAdjust(target: Id, credits: Value, description: Option<string>, action: Value)
    | PartnerRedeem(caller: Id, partnerId: Option<Id>, credits: Value)

  /** The store after one request; a refused request (including one the role check of
      the route refuses) leaves it as it was. */
  function Step(st: Store, op: CreditOp, numberText: real -> string): Store {
    match op
    case AdminAdjust(target, credits, description, action) =>
      (match AdminController.AssignCredits(st, target, credits, description, action)
       case Ok(v) => v.0
       case Err(_) => st)
    case PartnerRedeem(caller, partnerId, credits) =>
      if !(HasRole(st, caller, Resident) || HasRole(st, caller, Collector)) then st
      else match CreditController.RedeemCredits(st, caller, partnerId, credits, numberText)
        case Ok(v) => v.0
        case Err(_) => st
  }

  function Run(st: Store, ops: seq<CreditOp>, numberText: real -> string): Store
    decreases |ops|
  {
    if |ops| == 0 then st else Run(Step(st, ops[0], numberText), ops[1..], numberText)
  }

  /** Balances stay reconciled with the ledger and never go negative, whatever sequence of
      adjustments and redemptions is applied. */
  lemma {:induction false} RunPreservesLedger(st: Store, ops: seq<CreditOp>, numberText: real -> string)
    requires LedgerInvariant(st)
    ensures LedgerInvariant(Run(st, ops, numberText))
    decreases |ops|
  {
    if |ops| > 0 {
      match ops[0] {
        case AdminAdjust(target, credits, description, action) =>
          if AdminController.AssignCredits(st, target, credits, description, action).Ok? {
            AssignCreditsPreservesLedger(st, target, credits, description, action);
          }
        case PartnerRedeem(caller, partnerId, credits) =>
          if (HasRole(st, caller, Resident) || HasRole(st, caller, Collector))
            && CreditController.RedeemCredits(st, caller, partnerId, credits, numberText).Ok? {
            RedeemPreservesLedger(st, caller, partnerId, credits, numberText);
          }
      }
      RunPreservesLedger(Step(st, ops[0], numberText), ops[1..], numberText);
    }
  }

  /** `updateUser` writes `credits` as given and records nothing: from a store that keeps
      the invariant it produces a negative balance that the ledger does not account for. */
  lemma UpdateUserBreaksLedger()
    ensures
      var u := User(1, "Asha", "asha@example.com", "secret1", Some("Main St"), None, None, Resident, true, 0.0);
      var st := Store([u], [], [], [], [], None, 2);
      && LedgerInvariant(st)
      && AdminController.UpdateUser(st, 1, Undefined, Num(-5.0)).Ok?
      && AdminController.UpdateUser(st, 1, Undefined, Num(-5.0)).value.transactions == st.transactions
      && !Reconciled(AdminController.UpdateUser(st, 1, Undefined, Num(-5.0)).value)
      && !NonNegative(AdminController.UpdateUser(st, 1, Undefined, Num(-5.0)).value)
  {
    var u := User(1, "Asha", "asha@example.com", "secret1", Some("Main St"), None, None, Resident, true, 0.0);
    var st := Store([u], [], [], [], [], None, 2);
    var st' := AdminController.UpdateUser(st, 1, Undefined, Num(-5.0)).value;
    assert st'.users[0].credits == -5.0;
  }
}

=== FILE: models.dfy ===
/** The Mongoose schemas: entities, their enums and defaults, and the in-memory store
    that stands for the database. */
module Models {
  import opened Common
  import opened Seqs
  import opened Strings

  /** A document id (a Mongo ObjectId). */
  type Id = nat

  // ---------------------------------------------------------------- User

  datatype Role = Resident | Collector | Admin

  function RoleName(r: Role): string {
    match r
    case Resident => "resident"
    case Collector => "collector"
    case Admin => "admin"
  }

  /** The `enum` validator of `User.role`. */
  function ParseRole(s: string): (r: Option<Role>)
    ensures r.Some? ==> RoleName(r.value) == s
    ensures r.None? ==> forall x: Role :: RoleName(x) != s
  {
    if s == "resident" then Some(Resident)
    else if s == "collector" then Some(Collector)
    else if s == "admin" then Some(Admin)
    else None
  }

  /** A user document. `password` and `secretKey` are the stored (hashed) credentials. */
  datatype User = User(
    id: Id,
    name: string,
    email: string,
    password: string,
    address: Option<string>,
    phone: Option<string>,
    secretKey: Option<string>,
    role: Role,
    isActive: bool,
    credits: real)

  predicate Present(s: Option<string>) {
    s.Some? && s.value != ""
  }

  /** The `required` and `minlength` validators of the user schema: the address is
      required exactly for non-admins, phone and secret key exactly for admins.
      `minlength` measures the password in UTF-16 code units. */
  predicate UserSchemaValid(u: User) {
    && u.name != ""
    && u.email != ""
    && JsLength(u.password) >= 6
    && (u.role != Admin ==> Present(u.address))
    && (u.role == Admin ==> Present(u.phone) && Present(u.secretKey))
  }

  /** `minlength` counts code units: a password of three emoji is six units long and
      the schema accepts it, though it has only three characters. */
  lemma EmojiPasswordMeetsMinLength(u: User)
    requires UserSchemaValid(u)
    ensures |"\U{1F600}\U{1F600}\U{1F600}"| == 3
    ensures UserSchemaValid(u.(password := "\U{1F600}\U{1F600}\U{1F600}"))
  {
    var pw := "\U{1F600}\U{1F600}\U{1F600}";
    assert pw[1..][1..][1..] == "";
  }

  // ---------------------------------------------------------------- Pickup

  datatype Status = Pending | Assigned | Accepted | Reached | InProgress | Completed | Rejected

  function StatusName(s: Status): string {
    match s
    case Pending => "pending"
    case Assigned => "assigned"
    case Accepted => "accepted"
    case Reached => "reached"
    case InProgress => "in_progress"
    case Completed => "completed"
    case Rejected => "rejected"
  }

  /** The `enum` validator of `Pickup.status`. */
  function ParseStatus(s: string): (r: Option<Status>)
    ensures r.Some? ==> StatusName(r.value) == s
    ensures r.None? ==> forall x: Status :: StatusName(x) != s
  {
    if s == "pending" then Some(Pending)
    else if s == "assigned" then Some(Assigned)
    else if s == "accepted" then Some(Accepted)
    else if s == "reached" then Some(Reached)
    else if s == "in_progress" then Some(InProgress)
    else if s == "completed" then Some(Completed)
    else if s == "rejected" then Some(Rejected)
    else None
  }

  /** The statuses in which a collector has engaged with the pickup; reassignment and
      unassignment are refused in them. */
  predicate Engaged(s: Status) {
    s == Accepted || s == Reached || s == InProgress || s == Completed
  }

  datatype Category = Mobile | Laptop | Tv | Computer | Mixed | Other

  function CategoryName(c: Category): string {
    match c
    case Mobile => "mobile"
    case Laptop => "laptop"
    case Tv => "tv"
    case Computer => "computer"
    case Mixed => "mixed"
    case Other => "other"
  }

  /** The `enum` validator of `Pickup.category`. */
  function ParseCategory(s: string): (r: Option<Category>)
    ensures r.Some? ==> CategoryName(r.value) == s
    ensures r.None? ==> forall x: Category :: CategoryName(x) != s
  {
    if s == "mobile" then Some(Mobile)
    else if s == "laptop" then Some(Laptop)
    else if s == "tv" then Some(Tv)
    else if s == "computer" then Some(Computer)
    else if s == "mixed" then Some(Mixed)
    else if s == "other" then Some(Other)
    else None
  }

  /** A pickup document. `preferredDate` is kept as the text that was accepted as a date. */
  datatype Pickup = Pickup(
    id: Id,
    resident: Id,
    collector: Option<Id>,
    category: Category,
    weight: Option<real>,
    quantity: Option<int>,
    photo: Option<string>,
    preferredDate: string,
    preferredTime: string,
    description: string,
    status: Status,
    proofPhoto: Option<string>,
    notes: string,
    creditsEarned: real)

  /** A pickup with the schema defaults for every optional field. */
  function NewPickup(id: Id, resident: Id, category: Category, date: string, time: string): Pickup {
    Pickup(id, resident, None, category, None, None, None, date, time, "", Pending, None, "", 0.0)
  }

  // ---------------------------------------------------------------- Partner

  datatype Partner = Partner(id: Id, name: string, description: string, creditsRequired: int, isActive: bool)

  /** The partner schema: a trimmed non-empty name and a price of at least one credit. */
  predicate PartnerSchemaValid(p: Partner) {
    p.name != "" && Trim(p.name) == p.name && p.creditsRequired >= 1
  }

  // ---------------------------------------------------------------- Credit transaction

  datatype TxKind = Earn | Redeem

  /** A ledger entry. The schema puts no sign constraint on `amount`. */
  datatype CreditTransaction = CreditTransaction(
    user: Id,
    kind: TxKind,
    amount: real,
    description: string,
    pickup: Option<Id>,
    partner: Option<Id>)

  /** The signed effect of an entry on its user's balance. */
  function Signed(t: CreditTransaction): real {
    if t.kind == Earn then t.amount else -t.amount
  }

  // ---------------------------------------------------------------- Notification

  datatype NotificationKind = PickupAssigned | PickupStatusUpdate | CreditsEarned | PickupCompleted | System

  datatype Notification = Notification(
    id: Id,
    user: Id,
    kind: NotificationKind,
    title: string,
    message: string,
    relatedPickup: Option<Id>,
    isRead: bool)

  // ---------------------------------------------------------------- Settings

  datatype PickupLimits = PickupLimits(maxPickupsPerDay: real, maxPickupsPerCollector: real)

  /** The settings document. A `None` rate is a stored `null`. */
  datatype Settings = Settings(
    rewardRatePerKg: Option<real>,
    eWasteCategories: seq<string>,
    pickupLimits: PickupLimits,
    regionCoverage: seq<string>)

  const DefaultCategories: seq<string> := ["mobile", "laptop", "tv", "computer", "mixed", "other"]

  /** The document `Settings.create({})` produces. */
  const DefaultSettings: Settings :=
    Settings(Some(1.0), DefaultCategories, PickupLimits(10.0, 5.0), [])

  // ---------------------------------------------------------------- Store

  /** The database: each collection in insertion order, the active settings document if
      one exists, and the source of fresh ids. */
  datatype Store = Store(
    users: seq<User>,
    pickups: seq<Pickup>,
    partners: seq<Partner>,
    transactions: seq<CreditTransaction>,
    notifications: seq<Notification>,
    settings: Option<Settings>,
    nextId: nat)

  /** `User.findById`. */
  function UserIndex(users: seq<User>, id: Id): (r: Option<nat>)
    ensures r.Some? ==> r.value < |users| && users[r.value].id == id
    ensures r.None? ==> forall j :: 0 <= j < |users| ==> users[j].id != id
  {
    FirstIndex(users, (u: User) => u.id == id)
  }

  /** `Pickup.findById`. */
  function PickupIndex(pickups: seq<Pickup>, id: Id): (r: Option<nat>)
    ensures r.Some? ==> r.value < |pickups| && pickups[r.value].id == id
    ensures r.None? ==> forall j :: 0 <= j < |pickups| ==> pickups[j].id != id
  {
    FirstIndex(pickups, (p: Pickup) => p.id == id)
  }

  /** `Partner.findById`. */
  function PartnerIndex(partners: seq<Partner>, id: Id): (r: Option<nat>)
    ensures r.Some? ==> r.value < |partners| && partners[r.value].id == id
    ensures r.None? ==> forall j :: 0 <= j < |partners| ==> partners[j].id != id
  {
    FirstIndex(partners, (p: Partner) => p.id == id)
  }

  /** The pickup with the given id, if any. */
  function FindPickup(st: Store, id: Id): (r: Option<Pickup>)
    ensures r.Some? ==> r.value in st.pickups && r.value.id == id
    ensures r.None? ==> forall p :: p in st.pickups ==> p.id != id
  {
    match PickupIndex(st.pickups, id)
    case Some(i) => Some(st.pickups[i])
    case None => None
  }

  /** The user with the given id, if any. */
  function FindUser(st: Store, id: Id): (r: Option<User>)
    ensures r.Some? ==> r.value in st.users && r.value.id == id
    ensures r.None? ==> forall u :: u in st.users ==> u.id != id
  {
    match UserIndex(st.users, id)
    case Some(i) => Some(st.users[i])
    case None => None
  }

  /** The user `id` exists and has role `role` (what the `authorize` middleware checks). */
  predicate HasRole(st: Store, id: Id, role: Role) {
    var i := UserIndex(st.users, id);
    i.Some? && st.users[i.value].role == role
  }

  /** The balance of user `id`, when the user exists. */
  function Balance(st: Store, id: Id): Option<real> {
    match UserIndex(st.users, id)
    case Some(i) => Some(st.users[i].credits)
    case None => None
  }
}

=== FILE: notifications.dfy ===
/** `controllers/notificationController.js`: creating notifications as a side effect, and
    the read-state operations on a user's own notifications. */
module NotificationController {
  import opened Common
  import opened Seqs
  import opened Models
  import opened Errors

  /** The caller's notifications, oldest first. */
  function Owned(ns: seq<Notification>, user: Id): (r: seq<Notification>)
    ensures forall n :: n in r <==> n in ns && n.user == user
  {
    Filter(ns, (n: Notification) => n.user == user)
  }

  predicate IsUnreadOf(n: Notification, user: Id) {
    n.user == user && !n.isRead
  }

  /** `createNotification`: stores a new unread notification, or, when the document is
      refused (the schema requires a non-empty title and message), returns `None` and
      leaves the store as it was. It never reports an error to its caller. */
  function CreateNotification(st: Store, user: Id, kind: NotificationKind, title: string, message: string, related: Option<Id>)
    : (res: (Store, Option<Notification>))
    ensures res.1.None? <==> title == "" || message == ""
    ensures res.1.None? ==> res.0 == st
    ensures res.1.Some? ==>
      && res.0.notifications == st.notifications + [res.1.value]
      && res.1.value == Notification(st.nextId, user, kind, title, message, related, false)
    ensures res.0.users == st.users && res.0.pickups == st.pickups && res.0.partners == st.partners
    ensures res.0.transactions == st.transactions && res.0.settings == st.settings
    ensures res.0.nextId >= st.nextId
    ensures res.0.(notifications := st.notifications, nextId := st.nextId) == st
  {
    if title == "" || message == "" then (st, None)
    else
      var n := Notification(st.nextId, user, kind, title, message, related, false);
      (st.(notifications := st.notifications + [n], nextId := st.nextId + 1), Some(n))
  }

  /** A stored notification heads its user's list and raises that user's unread count by
      one; every other user's unread count stays as it was. */
  lemma CreatedNotificationListedFirst(st: Store, user: Id, kind: NotificationKind, title: string, message: string,
                                       related: Option<Id>, other: Id)
    requires title != "" && message != ""
    ensures
      var (st', n) := CreateNotification(st, user, kind, title, message, related);
      && n.Some?
      && |GetNotifications(st', user)| > 0 && GetNotifications(st', user)[0] == n.value
      && UnreadCount(st', user) == UnreadCount(st, user) + 1
      && (other != user ==> UnreadCount(st', other) == UnreadCount(st, other))
  {
    var (st', n) := CreateNotification(st, user, kind, title, message, related);
    var mine := (m: Notification) => m.user == user;
    FilterAppend(st.notifications, n.value, mine);
    assert Owned(st'.notifications, user) == Owned(st.notifications, user) + [n.value];
    var unread := (m: Notification) => IsUnreadOf(m, user);
    FilterAppend(st.notifications, n.value, unread);
    FilterCount(st.notifications, unread);
    FilterCount(st'.notifications, unread);
    var unreadOther := (m: Notification) => IsUnreadOf(m, other);
    FilterAppend(st.notifications, n.value, unreadOther);
    FilterCount(st.notifications, unreadOther);
    FilterCount(st'.notifications, unreadOther);
  }

  /** `getNotifications`: the caller's notifications, newest first, at most 50. */
  function GetNotifications(st: Store, caller: Id): (r: seq<Notification>)
    ensures |r| == Min(50, |Owned(st.notifications, caller)|)
    ensures forall i :: 0 <= i < |r| ==> r[i].user == caller && r[i] in st.notifications
    ensures forall i :: 0 <= i < |r| ==>
      r[i] == Owned(st.notifications, caller)[|Owned(st.notifications, caller)| - 1 - i]
  {
    var mine := (n: Notification) => n.user == caller;
    FilterCount(st.notifications, mine);
    var r := Latest(st.notifications, mine, 50);
    assert Owned(st.notifications, caller) == Filter(st.notifications, mine);
    forall i | 0 <= i < |r| ensures r[i].user == caller && r[i] in st.notifications {
      assert mine(r[i]);
    }
    r
  }

  /** `markAsRead`: the notification must have both the given id and the caller as its
      owner; it becomes read and nothing else changes. */
  function MarkAsRead(st: Store, caller: Id, id: Id): (r: Result<Store>)
    ensures r.Err? <==> forall j :: 0 <= j < |st.notifications| ==> !(st.notifications[j].id == id && st.notifications[j].user == caller)
    ensures r.Err? ==> r.reason == NotificationNotFound
    ensures r.Ok? ==> exists j :: (
      && 0 <= j < |st.notifications|
      && st.notifications[j].id == id && st.notifications[j].user == caller
      && r.value == st.(notifications := st.notifications[j := st.notifications[j].(isRead := true)]))
  {
    match FirstIndex(st.notifications, (n: Notification) => n.id == id && n.user == caller)
    case None => Err(NotificationNotFound)
    case Some(j) => Ok(st.(notifications := st.notifications[j := st.notifications[j].(isRead := true)]))
  }

  /** Marking the same notification read twice is the same as marking it once. */
  lemma MarkAsReadIdempotent(st: Store, caller: Id, id: Id)
    requires MarkAsRead(st, caller, id).Ok?
    ensures MarkAsRead(MarkAsRead(st, caller, id).value, caller, id) == MarkAsRead(st, caller, id)
  {
    var p := (n: Notification) => n.id == id && n.user == caller;
    var j := FirstIndex(st.notifications, p).value;
    var ns' := st.notifications[j := st.notifications[j].(isRead := true)];
    assert forall k :: 0 <= k < |ns'| ==> (p(ns'[k]) <==> p(st.notifications[k]));
    FirstIndexSamePredicate(st.notifications, ns', p);
    assert ns'[j := ns'[j].(isRead := true)] == ns';
  }

  /** Every notification of `user` marked read; the others as they were. */
  function MarkAllRead(ns: seq<Notification>, user: Id): (r: seq<Notification>)
    ensures |r| == |ns|
    ensures forall i :: 0 <= i < |ns| ==>
      r[i] == (if ns[i].user == user then ns[i].(isRead := true) else ns[i])
  {
    if |ns| == 0 then []
    else [if ns[0].user == user then ns[0].(isRead := true) else ns[0]] + MarkAllRead(ns[1..], user)
  }

  /** `markAllAsRead`: the caller's notifications become read, in place; nothing else in
      the store changes. */
  function MarkAllAsRead(st: Store, caller: Id): (r: Store)
    ensures |r.notifications| == |st.notifications|
    ensures forall i :: 0 <= i < |st.notifications| && st.notifications[i].user == caller ==>
      r.notifications[i] == st.notifications[i].(isRead := true)
    ensures forall i :: 0 <= i < |st.notifications| && st.notifications[i].user != caller ==>
      r.notifications[i] == st.notifications[i]
    ensures r.(notifications := st.notifications) == st
  {
    st.(notifications := MarkAllRead(st.notifications, caller))
  }

  /** `getUnreadCount`: the number of the caller's notifications that are not read. It is
      zero exactly when none of them is unread. */
  function UnreadCount(st: Store, caller: Id): (r: nat)
    ensures r <= |st.notifications|
    ensures r == 0 <==> forall n :: n in st.notifications && n.user == caller ==> n.isRead
  {
    var r := Count(st.notifications, (n: Notification) => IsUnreadOf(n, caller));
    assert r == 0 <==> forall j :: 0 <= j < |st.notifications| ==> !IsUnreadOf(st.notifications[j], caller);
    r
  }

  /** Right after `markAllAsRead` the caller has no unread notification, and every other
      user's unread count is what it was. */
  lemma MarkAllAsReadCounts(st: Store, caller: Id, other: Id)
    requires other != caller
    ensures UnreadCount(MarkAllAsRead(st, caller), caller) == 0
    ensures UnreadCount(MarkAllAsRead(st, caller), other) == UnreadCount(st, other)
  {
    var ns := st.notifications;
    var ns' := MarkAllRead(ns, caller);
    assert forall j :: 0 <= j < |ns'| ==> !IsUnreadOf(ns'[j], caller);
    CountPointwise(ns, ns', (n: Notification) => IsUnreadOf(n, other));
  }

  /** Counting agrees on two sequences that agree pointwise on the predicate. */
  lemma {:induction false} CountPointwise<T>(xs: seq<T>, ys: seq<T>, p: T -> bool)
    requires |xs| == |ys|
    requires forall k :: 0 <= k < |xs| ==> (p(xs[k]) <==> p(ys[k]))
    ensures Count(xs, p) == Count(ys, p)
  {
    if |xs| > 0 {
      CountPointwise(xs[1..], ys[1..], p);
    }
  }
}

=== FILE: pickups.dfy ===
/** `controllers/pickupController.js`: a resident creating a pickup request, the two
    listing queries, and the collector's status update. */
module PickupController {
  import opened Common
  import opened Seqs
  import opened Strings
  import opened Models
  import opened Errors
  import opened Json
  import NotificationController

  // ---------------------------------------------------------------- createPickup

  /** The text fields of the multipart form (the first value of each field). */
  datatype PickupForm = PickupForm(
    category: Option<string>,
    weight: Option<string>,
    quantity: Option<string>,
    preferredDate: Option<string>,
    preferredTime: Option<string>,
    description: Option<string>)

  /** A numeric form field: a falsy field stores `null`, a truthy one is parsed, and a
      parse that yields NaN is refused by the schema's number cast, reported as `onNaN`. */
  function NumericField<T>(field: Option<string>, parse: string -> Option<T>, onNaN: Reason): (r: Result<Option<T>>)
    ensures !Present(field) ==> r == Ok(None)
    ensures Present(field) ==> (r.Ok? <==> parse(field.value).Some?)
    ensures Present(field) && r.Ok? ==> r.value == parse(field.value)
    ensures r.Err? ==> r.reason == onNaN
  {
    if !Present(field) then Ok(None)
    else match parse(field.value)
      case None => Err(onNaN)
      case Some(x) => Ok(Some(x))
  }

  /** Whether the schema accepts the form: a category from the enum, a preferred date that
      `new Date` reads as a valid date, a non-empty preferred time, and numeric fields that
      are not NaN. */
  predicate CreateAccepted(form: PickupForm, parseFloat: string -> Option<real>, isValidDate: string -> bool) {
    && form.category.Some? && ParseCategory(form.category.value).Some?
    && form.preferredDate.Some? && isValidDate(form.preferredDate.value)
    && Present(form.preferredTime)
    && (Present(form.weight) ==> parseFloat(form.weight.value).Some?)
    && (Present(form.quantity) ==> ParseIntString(form.quantity.value).Some?)
  }

  /** `createPickup` for the resident `caller`. `uploads` are the stored object URLs of the
      uploaded files; `parseFloat` and `isValidDate` stand for the JavaScript built-ins.
      Every failure is caught by the handler's own catch and sent as 500. */
  function CreatePickup(st: Store, caller: Id, form: PickupForm, uploads: seq<string>,
                        parseFloat: string -> Option<real>, isValidDate: string -> bool)
    : (r: Result<(Store, Pickup)>)
    requires HasRole(st, caller, Resident)
    ensures r.Ok? <==> CreateAccepted(form, parseFloat, isValidDate)
    ensures r.Err? ==> r.reason == InternalError && HttpStatus(r.reason) == 500
    ensures r.Ok? ==>
      var (st', p) := r.value;
      && p.resident == caller && p.status == Pending && p.collector.None?
      && p.proofPhoto.None? && p.notes == "" && p.creditsEarned == 0.0
      && CategoryName(p.category) == form.category.value
      && p.preferredTime == form.preferredTime.value
      && p.description == form.description.GetOr("")
      && (p.weight.Some? <==> Present(form.weight))
      && (p.weight.Some? ==> p.weight == parseFloat(form.weight.value))
      && (p.quantity.Some? <==> Present(form.quantity))
      && (p.quantity.Some? ==> p.quantity == ParseIntString(form.quantity.value))
      && (p.photo.Some? <==> |uploads| > 0)
      && (p.photo.Some? ==> p.photo.value == uploads[0])
      && st'.pickups == st.pickups + [p]
      && st'.users == st.users && st'.transactions == st.transactions
      && st'.notifications == st.notifications && st'.partners == st.partners
    ensures r.Ok? ==>
      var (st', p) := r.value;
      && p.id == st.nextId && st'.nextId > p.id
      && p.preferredDate == form.preferredDate.value
      && st'.(pickups := st.pickups, nextId := st.nextId) == st
  {
    var weight := NumericField(form.weight, parseFloat, InternalError);
    var quantity := NumericField(form.quantity, ParseIntString, InternalError);
    if weight.Err? || quantity.Err? then Err(InternalError)
    else if form.category.None? || ParseCategory(form.category.value).None? then Err(InternalError)
    else if form.preferredDate.None? || !isValidDate(form.preferredDate.value) then Err(InternalError)
    else if !Present(form.preferredTime) then Err(InternalError)
    else
      var p := NewPickup(st.nextId, caller, ParseCategory(form.category.value).value,
                         form.preferredDate.value, form.preferredTime.value)
        .(weight := weight.value, quantity := quantity.value,
          photo := if |uploads| > 0 then Some(uploads[0]) else None,
          description := form.description.GetOr(""));
      Ok((st.(pickups := st.pickups + [p], nextId := st.nextId + 1), p))
  }

  // ---------------------------------------------------------------- queries

  predicate IsResidentOf(p: Pickup, user: Id) {
    p.resident == user
  }

  predicate IsCollectorOf(p: Pickup, user: Id) {
    p.collector == Some(user)
  }

  /** `getMyPickups`: the caller's own requests, newest first. Documents are stored in
      creation order, so the newest is the last match in the store and heads the list. */
  function GetMyPickups(st: Store, caller: Id): (r: seq<Pickup>)
    ensures forall p :: p in r <==> p in st.pickups && p.resident == caller
    ensures |r| == Count(st.pickups, (p: Pickup) => IsResidentOf(p, caller))
    ensures |r| == |Filter(st.pickups, (p: Pickup) => IsResidentOf(p, caller))|
    ensures forall i :: 0 <= i < |r| ==> r[i] == Filter(st.pickups, (p: Pickup) => IsResidentOf(p, caller))[|r| - 1 - i]
  {
    var mine := Filter(st.pickups, (p: Pickup) => IsResidentOf(p, caller));
    FilterCount(st.pickups, (p: Pickup) => IsResidentOf(p, caller));
    ReverseMembers(mine);
    Reverse(mine)
  }

  /** `getAssignedPickups`: the pickups whose collector is the caller, newest first, in
      the same sense as `GetMyPickups`. */
  function GetAssignedPickups(st: Store, caller: Id): (r: seq<Pickup>)
    ensures forall p :: p in r <==> p in st.pickups && p.collector == Some(caller)
    ensures |r| == Count(st.pickups, (p: Pickup) => IsCollectorOf(p, caller))
    ensures |r| == |Filter(st.pickups, (p: Pickup) => IsCollectorOf(p, caller))|
    ensures forall i :: 0 <= i < |r| ==> r[i] == Filter(st.pickups, (p: Pickup) => IsCollectorOf(p, caller))[|r| - 1 - i]
  {
    var mine := Filter(st.pickups, (p: Pickup) => IsCollectorOf(p, caller));
    FilterCount(st.pickups, (p: Pickup) => IsCollectorOf(p, caller));
    ReverseMembers(mine);
    Reverse(mine)
  }

  /** One more pickup stored: it heads the list of its resident and of its collector, and
      every other list is unchanged. */
  lemma AppendedPickupListed(st: Store, st': Store, p: Pickup, user: Id)
    requires st'.pickups == st.pickups + [p]
    ensures GetMyPickups(st', user) == (if p.resident == user then [p] else []) + GetMyPickups(st, user)
    ensures GetAssignedPickups(st', user) == (if p.collector == Some(user) then [p] else []) + GetAssignedPickups(st, user)
  {
    var mine := (q: Pickup) => IsResidentOf(q, user);
    FilterAppend(st.pickups, p, mine);
    ReverseAppend(Filter(st.pickups, mine), p);
    var ofCollector := (q: Pickup) => IsCollectorOf(q, user);
    FilterAppend(st.pickups, p, ofCollector);
    ReverseAppend(Filter(st.pickups, ofCollector), p);
  }

  lemma ReverseAppend<T>(xs: seq<T>, x: T)
    ensures Reverse(xs + [x]) == [x] + Reverse(xs)
  {
    var a := Reverse(xs + [x]);
    var b := [x] + Reverse(xs);
    assert |a| == |b|;
    forall i | 0 <= i < |a| ensures a[i] == b[i] {
      if i > 0 {
        assert a[i] == (xs + [x])[|xs| - i];
      }
    }
  }

  /** A newly created request heads its resident's list, above the older ones. */
  lemma CreatedPickupListedFirst(st: Store, caller: Id, form: PickupForm, uploads: seq<string>,
                                 parseFloat: string -> Option<real>, isValidDate: string -> bool)
    requires HasRole(st, caller, Resident)
    requires CreatePickup(st, caller, form, uploads, parseFloat, isValidDate).Ok?
    ensures
      var (st', p) := CreatePickup(st, caller, form, uploads, parseFloat, isValidDate).value;
      GetMyPickups(st', caller) == [p] + GetMyPickups(st, caller)
  {
    var (st', p) := CreatePickup(st, caller, form, uploads, parseFloat, isValidDate).value;
    var pred := (q: Pickup) => IsResidentOf(q, caller);
    FilterAppend(st.pickups, p, pred);
    ReverseAppend(Filter(st.pickups, pred), p);
  }

  // ---------------------------------------------------------------- collector status update

  /** The statuses a collector may write: every status except `in_progress`. */
  function CollectorStatus(s: string): (r: Option<Status>)
    ensures r.Some? ==> StatusName(r.value) == s && r.value != InProgress
    ensures r.None? <==> ParseStatus(s).None? || s == "in_progress"
  {
    match ParseStatus(s)
    case Some(InProgress) => None
    case other => other
  }

  /** The title and message of the resident's notification after a collector update. */
  function StatusNotice(category: Category, status: string): (string, string) {
    if status == "completed" then
      ("Pickup Completed!", "Your " + CategoryName(category) + " pickup has been completed! Credits have been awarded.")
    else if status == "in_progress" then
      ("Pickup In Progress", "Your " + CategoryName(category) + " pickup is now in progress.")
    else
      ("Pickup Status Updated", "Your " + CategoryName(category) + " pickup status has been updated to " + status)
  }

  /** The collector's `updatePickupStatus`. `status` and `notes` are the submitted fields
      and `upload` the stored URL of an uploaded proof photo. The order of checks is:
      the pickup exists, then the caller is its collector, then the status (when given)
      is allowed. The current status is not consulted. When a status is given, the
      resident is notified, unless that user has been deleted. */
  function CollectorUpdateStatus(st: Store, caller: Id, id: Id, status: Option<string>, notes: Option<string>, upload: Option<string>)
    : (r: Result<Store>)
    requires HasRole(st, caller, Collector)
    ensures FindPickup(st, id).None? ==> r == Err(PickupNotFound)
    ensures FindPickup(st, id).Some? && FindPickup(st, id).value.collector != Some(caller) ==> r == Err(NotAssignedCollector)
    ensures r.Ok? <==>
      && FindPickup(st, id).Some? && FindPickup(st, id).value.collector == Some(caller)
      && (Present(status) ==> CollectorStatus(status.value).Some?)
    ensures r.Err? && FindPickup(st, id).Some? && FindPickup(st, id).value.collector == Some(caller) ==> r.reason == InvalidStatus
    ensures r.Ok? ==> |r.value.pickups| == |st.pickups|
    ensures r.Ok? ==>
      var i := PickupIndex(st.pickups, id).value;
      var p := st.pickups[i];
      var p' := r.value.pickups[i];
      && (forall j :: 0 <= j < |st.pickups| && j != i ==> r.value.pickups[j] == st.pickups[j])
      && p'.status == (if Present(status) then CollectorStatus(status.value).value else p.status)
      && p'.notes == notes.GetOr("")
      && p'.proofPhoto == (if Present(upload) then upload else p.proofPhoto)
      && p'.(status := p.status, notes := p.notes, proofPhoto := p.proofPhoto) == p
    ensures r.Ok? ==> r.value.users == st.users && r.value.transactions == st.transactions
    ensures r.Ok? ==> r.value.(pickups := st.pickups, notifications := st.notifications, nextId := st.nextId) == st
    ensures r.Ok? ==>
      var notified := Present(status) && FindUser(st, FindPickup(st, id).value.resident).Some?;
      && |r.value.notifications| == |st.notifications| + (if notified then 1 else 0)
      && r.value.notifications[..|st.notifications|] == st.notifications
    ensures r.Ok? && Present(status) && FindUser(st, FindPickup(st, id).value.resident).Some? ==>
      var n := r.value.notifications[|st.notifications|];
      n.user == FindPickup(st, id).value.resident && n.kind == PickupStatusUpdate && n.relatedPickup == Some(id)
  {
    match PickupIndex(st.pickups, id)
    case None => Err(PickupNotFound)
    case Some(i) =>
      var p := st.pickups[i];
      if p.collector != Some(caller) then Err(NotAssignedCollector)
      else if Present(status) && CollectorStatus(status.value).None? then Err(InvalidStatus)
      else
        var p' := p.(status := if Present(status) then CollectorStatus(status.value).value else p.status,
                     notes := notes.GetOr(""),
                     proofPhoto := if Present(upload) then upload else p.proofPhoto);
        var st1 := st.(pickups := st.pickups[i := p']);
        if Present(status) && FindUser(st, p.resident).Some? then
          var (title, message) := StatusNotice(p.category, status.value);
          Ok(NotificationController.CreateNotification(st1, p.resident, PickupStatusUpdate, title, message, Some(id)).0)
        else Ok(st1)
  }

  /** The collector path checks no transition order: the assigned collector can write any
      allowed status from any current status, `completed` included. */
  lemma CollectorAnyTransition(st: Store, caller: Id, id: Id, s: Status)
    requires HasRole(st, caller, Collector)
    requires FindPickup(st, id).Some? && FindPickup(st, id).value.collector == Some(caller)
    requires s != InProgress
    ensures CollectorUpdateStatus(st, caller, id, Some(StatusName(s)), None, None).Ok?
    ensures FindPickup(CollectorUpdateStatus(st, caller, id, Some(StatusName(s)), None, None).value, id) ==
      Some(FindPickup(st, id).value.(status := s, notes := ""))
  {
    var r := CollectorUpdateStatus(st, caller, id, Some(StatusName(s)), None, None);
    var i := PickupIndex(st.pickups, id).value;
    assert CollectorStatus(StatusName(s)) == Some(s);
    FirstIndexSamePredicate(st.pickups, r.value.pickups, (p: Pickup) => p.id == id);
  }

  /** Completing a pickup through the collector path awards nothing: no balance changes,
      no ledger entry is written and `creditsEarned` stays as it was. */
  lemma CollectorCompletionAwardsNothing(st: Store, caller: Id, id: Id, notes: Option<string>, upload: Option<string>)
    requires HasRole(st, caller, Collector)
    requires CollectorUpdateStatus(st, caller, id, Some("completed"), notes, upload).Ok?
    ensures
      var st' := CollectorUpdateStatus(st, caller, id, Some("completed"), notes, upload).value;
      && st'.users == st.users && st'.transactions == st.transactions
      && FindPickup(st', id).Some? && FindPickup(st', id).value.status == Completed
      && FindPickup(st', id).value.creditsEarned == FindPickup(st, id).value.creditsEarned
  {
    var st' := CollectorUpdateStatus(st, caller, id, Some("completed"), notes, upload).value;
    FirstIndexSamePredicate(st.pickups, st'.pickups, (p: Pickup) => p.id == id);
  }
}

=== FILE: resident_ui.dfy ===
/** The resident dashboard (`pages/ResidentDashboard.jsx`): the eco level shown for a
    balance, and the redeem button of a partner offer. */
module ResidentDashboard {
  import opened Common
  import opened Json
  import opened Models
  import opened Errors
  import CreditController

  /** The five levels, from the lowest. */
  datatype EcoLevel = EcoBeginner | EcoStarter | EcoSaver | EcoChampion | GreenWarrior

  function LevelName(l: EcoLevel): string {
    match l
    case EcoBeginner => "Eco Beginner"
    case EcoStarter => "Eco Starter"
    case EcoSaver => "Eco Saver"
    case EcoChampion => "Eco Champion"
    case GreenWarrior => "Green Warrior"
  }

  /** The position of a level, from 0 for the lowest. */
  function Rank(l: EcoLevel): nat {
    match l
    case EcoBeginner => 0
    case EcoStarter => 1
    case EcoSaver => 2
    case EcoChampion => 3
    case GreenWarrior => 4
  }

  /** The least balance that reaches a level. */
  function Threshold(l: EcoLevel): real {
    match l
    case EcoBeginner => 0.0
    case EcoStarter => 50.0
    case EcoSaver => 100.0
    case EcoChampion => 200.0
    case GreenWarrior => 500.0
  }

  /** `getEcoLevel`: the highest level whose threshold the balance reaches; below 50
      (negative balances included) it is the lowest. */
  function GetEcoLevel(credits: real): (l: EcoLevel)
    ensures l != EcoBeginner ==> credits >= Threshold(l)
    ensures forall m :: Rank(m) > Rank(l) ==> credits < Threshold(m)
  {
    if credits >= 500.0 then GreenWarrior
    else if credits >= 200.0 then EcoChampion
    else if credits >= 100.0 then EcoSaver
    else if credits >= 50.0 then EcoStarter
    else EcoBeginner
  }

  /** A higher balance never shows a lower level. */
  lemma EcoLevelMonotone(c1: real, c2: real)
    requires c1 <= c2
    ensures Rank(GetEcoLevel(c1)) <= Rank(GetEcoLevel(c2))
  {
  }

  /** Every level is reached at its threshold, and its names are distinct. */
  lemma ThresholdReachesLevel(l: EcoLevel)
    ensures GetEcoLevel(Threshold(l)) == l
    ensures forall m :: LevelName(m) == LevelName(l) ==> m == l
  {
  }

  /** The redeem button of an offer: disabled with the missing amount, or enabled with the
      price. */
  datatype RedeemButton = Need(shortfall: real) | Offer(price: int)

  /** The button at balance `balance` for an offer of price `creditsRequired`. */
  function RedeemButtonFor(balance: real, creditsRequired: int): (b: RedeemButton)
    ensures b.Need? <==> balance < creditsRequired as real
    ensures b.Need? ==> b.shortfall > 0.0 && balance + b.shortfall == creditsRequired as real
    ensures b.Offer? ==> b.price == creditsRequired && balance >= b.price as real
  {
    if balance < creditsRequired as real then Need(creditsRequired as real - balance)
    else Offer(creditsRequired)
  }

  /** The body `handleRedeem` sends: the offer's own price as the `credits` number. */
  function RedeemRequestCredits(p: Partner): Value {
    Num(p.creditsRequired as real)
  }

  /** An enabled button, pressed for an active offer while the displayed balance is the
      stored one, is always accepted: the amount sent is read back as the price, and the
      balance covers it. This needs a price below 10^21, which JavaScript prints in
      decimal digits; a larger one prints in exponent form and reads back differently. */
  lemma EnabledButtonRedeems(st: Store, caller: Id, p: Partner, numberText: real -> string)
    requires HasRole(st, caller, Resident) || HasRole(st, caller, Collector)
    requires CreditController.FindPartner(st, p.id) == Some(p) && p.isActive && 1 <= p.creditsRequired < PlainLimit
    requires RedeemButtonFor(FindUser(st, caller).value.credits, p.creditsRequired).Offer?
    ensures CreditController.RedeemCredits(st, caller, Some(p.id), RedeemRequestCredits(p), numberText).Ok?
  {
    ParseIntOfInteger(p.creditsRequired, numberText);
  }

  /** A disabled button corresponds to a request the server would refuse for lack of
      credits. */
  lemma DisabledButtonWouldBeRefused(st: Store, caller: Id, p: Partner, numberText: real -> string)
    requires HasRole(st, caller, Resident) || HasRole(st, caller, Collector)
    requires CreditController.FindPartner(st, p.id) == Some(p) && p.isActive && 1 <= p.creditsRequired < PlainLimit
    requires RedeemButtonFor(FindUser(st, caller).value.credits, p.creditsRequired).Need?
    ensures CreditController.RedeemCredits(st, caller, Some(p.id), RedeemRequestCredits(p), numberText) == Err(InsufficientCredits)
  {
    CreditController.RedeemRefusals(st, caller, Some(p.id), RedeemRequestCredits(p), numberText);
    ParseIntOfInteger(p.creditsRequired, numberText);
  }
}

=== FILE: route.dfy ===
/** `components/ProtectedRoute.jsx`: what a protected page renders, given the session
    state of the auth context and the roles the route admits. */
module ProtectedRoute {
  import opened Common

  /** The signed-in user of the auth context, of which only the role is read. */
  datatype SessionUser = SessionUser(role: Option<string>)

  /** What the route renders. */
  datatype Rendered = Spinner | RedirectTo(path: string) | Children

  /** The user's role is one of the admitted ones. */
  predicate RoleAdmitted(user: SessionUser, allowedRoles: seq<string>) {
    user.role.Some? && user.role.value in allowedRoles
  }

  /** The access decision: a spinner while the session loads, `/login` without a user,
      `/` for a user whose role a non-empty `allowedRoles` leaves out, and the page itself
      otherwise. */
  function Decide(loading: bool, user: Option<SessionUser>, allowedRoles: seq<string>): (r: Rendered)
    ensures loading <==> r == Spinner
    ensures r == RedirectTo("/login") <==> !loading && user.None?
    ensures r == Children <==>
      !loading && user.Some? && (|allowedRoles| == 0 || RoleAdmitted(user.value, allowedRoles))
    ensures r == RedirectTo("/") <==>
      !loading && user.Some? && |allowedRoles| > 0 && !RoleAdmitted(user.value, allowedRoles)
    ensures r.RedirectTo? ==> r.path in {"/login", "/"}
  {
    if loading then Spinner
    else if user.None? then RedirectTo("/login")
    else if |allowedRoles| > 0 && !RoleAdmitted(user.value, allowedRoles) then RedirectTo("/")
    else Children
  }

  /** Admitting more roles never turns away a user who was admitted. */
  lemma WideningAdmits(loading: bool, user: Option<SessionUser>, allowed: seq<string>, wider: seq<string>)
    requires forall x :: x in allowed ==> x in wider
    requires |allowed| > 0
    requires Decide(loading, user, allowed) == Children
    ensures Decide(loading, user, wider) == Children
  {
  }

  /** Whatever the roles, a page is shown only to a signed-in user once loading is over. */
  lemma ChildrenNeedUser(loading: bool, user: Option<SessionUser>, allowedRoles: seq<string>)
    requires Decide(loading, user, allowedRoles) == Children
    ensures !loading && user.Some?
  {
  }

  /** A resident sent to an admin-only page is redirected home; the admin is admitted. */
  lemma AdminPageExample()
    ensures Decide(false, Some(SessionUser(Some("resident"))), ["admin"]) == RedirectTo("/")
    ensures Decide(false, Some(SessionUser(Some("admin"))), ["admin"]) == Children
    ensures Decide(false, Some(SessionUser(None)), []) == Children
  {
  }
}

=== FILE: seed.dfy ===
/** `utils/seedPartners.js`: at start-up, the seven default partner offers are inserted,
    each only when no partner with its name exists yet. */
module PartnerSeed {
  import opened Seqs
  import opened Models

  /** The default offers, in the order they are inserted. Their ids are assigned on
      insertion. */
  const DefaultPartners: seq<Partner> := [
    Partner(0, "EcoStore - Reusable Water Bottle",
      "Redeem for a premium stainless steel reusable water bottle. Help reduce plastic waste!", 50, true),
    Partner(0, "GreenLife - Bamboo Cutlery Set",
      "Get an eco-friendly bamboo cutlery set with carrying case. Perfect for sustainable living!", 75, true),
    Partner(0, "EcoBag - Organic Cotton Tote Bag",
      "Stylish and sustainable organic cotton tote bag. Perfect for shopping and daily use!", 60, true),
    Partner(0, "EcoStore - Stainless Steel Straw Set",
      "Premium reusable stainless steel straws with cleaning brush. Say goodbye to plastic straws!", 40, true),
    Partner(0, "EcoStore - Glass Food Storage Containers",
      "Set of 4 eco-friendly glass food storage containers with bamboo lids. Perfect for meal prep!", 80, true),
    Partner(0, "GreenLife - Bamboo Toothbrush Set",
      "Pack of 4 biodegradable bamboo toothbrushes with soft bristles. Sustainable oral care!", 45, true),
    Partner(0, "GreenLife - Organic Cotton Reusable Bags",
      "Set of 5 organic cotton reusable shopping bags. Durable and washable for everyday use!", 55, true)
  ]

  /** `existingNames.includes(name)`. */
  predicate NameTaken(partners: seq<Partner>, name: string) {
    exists j :: 0 <= j < |partners| && partners[j].name == name
  }

  /** `partnersToAdd`: the defaults whose name no stored partner has, in order. */
  function ToAdd(partners: seq<Partner>, defaults: seq<Partner>): (r: seq<Partner>)
    ensures forall p :: p in r <==> p in defaults && !NameTaken(partners, p.name)
  {
    Filter(defaults, (p: Partner) => !NameTaken(partners, p.name))
  }

  /** `insertMany`: the offers stored in order, with consecutive fresh ids. */
  function WithIds(ps: seq<Partner>, from: nat): (r: seq<Partner>)
    ensures |r| == |ps|
    ensures forall k :: 0 <= k < |ps| ==> r[k] == ps[k].(id := from + k)
  {
    if |ps| == 0 then [] else [ps[0].(id := from)] + WithIds(ps[1..], from + 1)
  }

  /** The added offers: the missing ones with fresh ids. */
  function Added(st: Store, defaults: seq<Partner>): seq<Partner> {
    WithIds(ToAdd(st.partners, defaults), st.nextId)
  }

  /** Every offer's name is stored once the missing ones are added. */
  lemma AddedCovers(st: Store, defaults: seq<Partner>)
    ensures forall k :: 0 <= k < |defaults| ==> NameTaken(st.partners + Added(st, defaults), defaults[k].name)
  {
    var a := ToAdd(st.partners, defaults);
    var all := st.partners + Added(st, defaults);
    forall k | 0 <= k < |defaults|
      ensures NameTaken(all, defaults[k].name)
    {
      var p := defaults[k];
      if !NameTaken(st.partners, p.name) {
        assert p in a;
        var i :| 0 <= i < |a| && a[i] == p;
        assert all[|st.partners| + i].name == p.name;
      } else {
        var j :| 0 <= j < |st.partners| && st.partners[j].name == p.name;
        assert all[j].name == p.name;
      }
    }
  }

  /** Each added partner is an offer whose name was missing, with the next fresh id. */
  lemma AddedAreMissingOffers(st: Store, defaults: seq<Partner>)
    ensures forall i :: 0 <= i < |Added(st, defaults)| ==>
      && !NameTaken(st.partners, Added(st, defaults)[i].name)
      && exists d :: d in defaults && Added(st, defaults)[i] == d.(id := st.nextId + i)
  {
    var a := ToAdd(st.partners, defaults);
    forall i | 0 <= i < |Added(st, defaults)|
      ensures !NameTaken(st.partners, Added(st, defaults)[i].name)
      ensures exists d :: d in defaults && Added(st, defaults)[i] == d.(id := st.nextId + i)
    {
      assert a[i] in a;
    }
  }

  /** Seeding with a given list of offers. Stored partners are kept as they are; every
      offer's name is present afterwards; each added partner is one of the offers whose
      name was missing, with a fresh id. */
  function SeedWith(st: Store, defaults: seq<Partner>): (r: Store)
    ensures |r.partners| >= |st.partners| && r.partners[..|st.partners|] == st.partners
    ensures forall k :: 0 <= k < |defaults| ==> NameTaken(r.partners, defaults[k].name)
    ensures forall i :: 0 <= i < |r.partners| - |st.partners| ==>
      && !NameTaken(st.partners, r.partners[|st.partners|..][i].name)
      && exists d :: d in defaults && r.partners[|st.partners|..][i] == d.(id := st.nextId + i)
    ensures r.nextId == st.nextId + (|r.partners| - |st.partners|)
    ensures r.(partners := st.partners, nextId := st.nextId) == st
  {
    var added := Added(st, defaults);
    AddedCovers(st, defaults);
    AddedAreMissingOffers(st, defaults);
    assert (st.partners + added)[|st.partners|..] == added;
    st.(partners := st.partners + added, nextId := st.nextId + |added|)
  }

  /** `seedPartners` on the store. */
  function SeedPartners(st: Store): Store {
    SeedWith(st, DefaultPartners)
  }

  /** Seeding twice adds nothing the second time. */
  lemma SeedIdempotent(st: Store, defaults: seq<Partner>)
    ensures SeedWith(SeedWith(st, defaults), defaults) == SeedWith(st, defaults)
  {
    var s1 := SeedWith(st, defaults);
    var a := ToAdd(s1.partners, defaults);
    FilterNone(defaults, (p: Partner) => !NameTaken(s1.partners, p.name));
    assert s1.partners + WithIds(a, s1.nextId) == s1.partners;
  }

  /** On an empty collection every offer is inserted. */
  lemma SeedEmpty(st: Store, defaults: seq<Partner>)
    requires st.partners == []
    ensures |SeedWith(st, defaults).partners| == |defaults|
  {
    FilterCount(defaults, (p: Partner) => !NameTaken([], p.name));
    CountAll(defaults, (p: Partner) => !NameTaken([], p.name));
  }

  /** The seven default offers are active and valid for the schema (positive price). */
  lemma DefaultPartnersValid()
    ensures |DefaultPartners| == 7
    ensures forall p :: p in DefaultPartners ==> p.isActive && p.creditsRequired >= 1 && p.name != ""
  {
  }

  /** When every element satisfies `p`, `Count` is the length. */
  lemma {:induction false} CountAll<T>(xs: seq<T>, p: T -> bool)
    requires forall k :: 0 <= k < |xs| ==> p(xs[k])
    ensures Count(xs, p) == |xs|
  {
    if |xs| > 0 {
      CountAll(xs[1..], p);
    }
  }
}

=== FILE: seqs.dfy ===
/** Sequence helpers used to model document collections and their queries. */
module Seqs {
  import opened Common

  /** Index of the first element satisfying `p` (what `findOne` returns on a collection). */
  function FirstIndex<T>(xs: seq<T>, p: T -> bool): (r: Option<nat>)
    ensures r.Some? ==> r.value < |xs| && p(xs[r.value])
    ensures r.Some? ==> forall j :: 0 <= j < r.value ==> !p(xs[j])
    ensures r.None? ==> forall j :: 0 <= j < |xs| ==> !p(xs[j])
  {
    if |xs| == 0 then None
    else if p(xs[0]) then Some(0)
    else match FirstIndex(xs[1..], p)
      case None => None
      case Some(i) => Some(i + 1)
  }

  /** Two sequences that agree pointwise on `p` have the same first `p`-index. */
  lemma {:induction false} FirstIndexSamePredicate<T>(xs: seq<T>, ys: seq<T>, p: T -> bool)
    requires |xs| == |ys|
    requires forall k :: 0 <= k < |xs| ==> (p(xs[k]) <==> p(ys[k]))
    ensures FirstIndex(xs, p) == FirstIndex(ys, p)
  {
    if |xs| > 0 && !p(xs[0]) {
      FirstIndexSamePredicate(xs[1..], ys[1..], p);
    }
  }

  /** The elements satisfying `p`, in their original order (what `find` returns). */
  function Filter<T>(xs: seq<T>, p: T -> bool): (r: seq<T>)
    ensures |r| <= |xs|
    ensures forall x :: x in r ==> x in xs && p(x)
    ensures forall x :: x in xs && p(x) ==> x in r
  {
    if |xs| == 0 then []
    else if p(xs[0]) then [xs[0]] + Filter(xs[1..], p)
    else Filter(xs[1..], p)
  }

  /** Nothing passes a filter no element satisfies. */
  lemma {:induction false} FilterNone<T>(xs: seq<T>, p: T -> bool)
    requires forall k :: 0 <= k < |xs| ==> !p(xs[k])
    ensures Filter(xs, p) == []
  {
    if |xs| > 0 {
      FilterNone(xs[1..], p);
    }
  }

  /** Number of elements satisfying `p` (what `countDocuments` returns). */
  function Count<T>(xs: seq<T>, p: T -> bool): (n: nat)
    ensures n <= |xs|
    ensures n == 0 <==> forall j :: 0 <= j < |xs| ==> !p(xs[j])
  {
    if |xs| == 0 then 0
    else (if p(xs[0]) then 1 else 0) + Count(xs[1..], p)
  }

  lemma {:induction false} FilterCount<T>(xs: seq<T>, p: T -> bool)
    ensures |Filter(xs, p)| == Count(xs, p)
  {
    if |xs| > 0 {
      FilterCount(xs[1..], p);
    }
  }

  /** Filtering a collection after one more document was appended. */
  lemma {:induction false} FilterAppend<T>(xs: seq<T>, x: T, p: T -> bool)
    ensures Filter(xs + [x], p) == Filter(xs, p) + (if p(x) then [x] else [])
  {
    if |xs| > 0 {
      assert (xs + [x])[1..] == xs[1..] + [x];
      FilterAppend(xs[1..], x, p);
    } else {
      assert xs + [x] == [x];
    }
  }

  /** The sequence in reverse order: newest first for a collection kept in insertion order. */
  function Reverse<T>(xs: seq<T>): (r: seq<T>)
    ensures |r| == |xs|
    ensures forall i :: 0 <= i < |xs| ==> r[i] == xs[|xs| - 1 - i]
  {
    if |xs| == 0 then [] else Reverse(xs[1..]) + [xs[0]]
  }

  /** The last `n` elements satisfying `p`, latest first: what a query sorted newest
      first and limited to `n` returns from a collection kept in creation order. */
  function Latest<T>(xs: seq<T>, p: T -> bool, n: nat): (r: seq<T>)
    ensures |r| == Min(n, Count(xs, p)) && |r| <= |Filter(xs, p)|
    ensures forall i :: 0 <= i < |r| ==> r[i] == Filter(xs, p)[|Filter(xs, p)| - 1 - i]
    ensures forall i :: 0 <= i < |r| ==> r[i] in xs && p(r[i])
  {
    var mine := Filter(xs, p);
    FilterCount(xs, p);
    var rev := Reverse(mine);
    var r := Take(rev, n);
    forall i | 0 <= i < |r| ensures r[i] == mine[|mine| - 1 - i] && r[i] in mine {
      assert r[i] == rev[i];
    }
    r
  }

  /** Reversing keeps exactly the same elements. */
  lemma ReverseMembers<T>(xs: seq<T>)
    ensures forall x :: x in Reverse(xs) <==> x in xs
  {
    var r := Reverse(xs);
    forall x | x in xs ensures x in r {
      var i :| 0 <= i < |xs| && xs[i] == x;
      assert r[|xs| - 1 - i] == x;
    }
  }

  /** At most `n` leading elements (what `.limit(n)` keeps). */
  function Take<T>(xs: seq<T>, n: nat): (r: seq<T>)
    ensures |r| == Min(n, |xs|)
    ensures forall i :: 0 <= i < |r| ==> r[i] == xs[i]
  {
    if |xs| <= n then xs else xs[..n]
  }

  /** `xs` with the element at `idx` left out; unchanged when `idx` is out of range. */
  function RemoveAt<T>(xs: seq<T>, idx: int): (r: seq<T>)
    ensures 0 <= idx < |xs| ==> |r| == |xs| - 1 && multiset(r) + multiset{xs[idx]} == multiset(xs)
    ensures !(0 <= idx < |xs|) ==> r == xs
  {
    if 0 <= idx < |xs| then
      assert xs == xs[..idx] + [xs[idx]] + xs[idx + 1..];
      xs[..idx] + xs[idx + 1..]
    else xs
  }

  /** Removing at an index other than the first keeps the head. */
  lemma RemoveAtCons<T>(xs: seq<T>, idx: int)
    requires |xs| > 0 && idx != 0
    ensures RemoveAt(xs, idx) == [xs[0]] + RemoveAt(xs[1..], idx - 1)
  {
    if 0 < idx < |xs| {
      assert xs[..idx] == [xs[0]] + xs[1..][..idx - 1];
      assert xs[idx + 1..] == xs[1..][idx..];
    } else {
      assert xs == [xs[0]] + xs[1..];
    }
  }

  /** `ys` is `xs` with at most the element at index `i` replaced. */
  predicate OnlyChangedAt<T(==)>(xs: seq<T>, ys: seq<T>, i: nat) {
    |ys| == |xs| && i < |xs| && forall j :: 0 <= j < |xs| && j != i ==> ys[j] == xs[j]
  }

  predicate NoDuplicates<T(==)>(xs: seq<T>) {
    forall i, j :: 0 <= i < j < |xs| ==> xs[i] != xs[j]
  }
}

=== FILE: settings.dfy ===
/** `controllers/settingsController.js` and the `getSettings` static of `models/Settings.js`:
    the singleton settings document and its validated, partial update. */
module SettingsController {
  import opened Common
  import opened Models
  import opened Errors

  /** `Settings.getSettings()`: the active document, created with the defaults when there
      is none. */
  function GetSettings(st: Store): (r: (Store, Settings))
    ensures r.0.settings == Some(r.1)
    ensures st.settings.Some? ==> r == (st, st.settings.value)
    ensures st.settings.None? ==> r.1 == DefaultSettings
    ensures r.0.(settings := st.settings) == st
  {
    match st.settings
    case Some(s) => (st, s)
    case None => (st.(settings := Some(DefaultSettings)), DefaultSettings)
  }

  /** Fetching the settings twice yields the same document and store as fetching once. */
  lemma GetSettingsIdempotent(st: Store)
    ensures GetSettings(GetSettings(st).0) == GetSettings(st)
  {
  }

  /** The `rewardRatePerKg` of the request: absent, `null`, or a number. */
  datatype RateField = RateAbsent | RateNull | RateNum(rate: real)

  /** An array-typed field of the request: absent, present but not an array (`null`
      included), or an array of strings. */
  datatype ListField = ListAbsent | NotList | List(items: seq<string>)

  /** The body of `updateSettings`. `pickupLimits` is the request's object, `None` when
      absent; a present value replaces only the keys it has. */
  datatype SettingsUpdate = SettingsUpdate(
    rewardRatePerKg: RateField,
    eWasteCategories: ListField,
    pickupLimits: Option<map<string, real>>,
    regionCoverage: ListField)

  /** `{ ...current, ...patch }` on the two known limits; other keys are dropped by the
      schema. */
  function MergeLimits(current: PickupLimits, patch: map<string, real>): (r: PickupLimits)
    ensures r.maxPickupsPerDay == (if "maxPickupsPerDay" in patch then patch["maxPickupsPerDay"] else current.maxPickupsPerDay)
    ensures r.maxPickupsPerCollector == (if "maxPickupsPerCollector" in patch then patch["maxPickupsPerCollector"] else current.maxPickupsPerCollector)
  {
    PickupLimits(
      if "maxPickupsPerDay" in patch then patch["maxPickupsPerDay"] else current.maxPickupsPerDay,
      if "maxPickupsPerCollector" in patch then patch["maxPickupsPerCollector"] else current.maxPickupsPerCollector)
  }

  /** Merging an empty object changes nothing. */
  lemma MergeEmptyLimits(current: PickupLimits)
    ensures MergeLimits(current, map[]) == current
  {
  }

  /** The first check the request fails, in the handler's order: the rate, then the
      categories, then the regions. */
  function UpdateError(req: SettingsUpdate): (e: Option<Reason>)
    ensures e.None? <==>
      && !(req.rewardRatePerKg.RateNum? && req.rewardRatePerKg.rate < 0.0)
      && !req.eWasteCategories.NotList? && !req.regionCoverage.NotList?
    ensures req.rewardRatePerKg.RateNum? && req.rewardRatePerKg.rate < 0.0 ==> e == Some(NegativeRate)
    ensures e.Some? && !(req.rewardRatePerKg.RateNum? && req.rewardRatePerKg.rate < 0.0) ==> e == Some(NotAnArray)
  {
    if req.rewardRatePerKg.RateNum? && req.rewardRatePerKg.rate < 0.0 then Some(NegativeRate)
    else if req.eWasteCategories.NotList? then Some(NotAnArray)
    else if req.regionCoverage.NotList? then Some(NotAnArray)
    else None
  }

  /** `updateSettings`. The document is fetched (and created if missing) first, so that
      creation persists even when the request is then refused; the changes themselves are
      saved only once every check has passed. Absent fields keep their value. */
  function UpdateSettings(st: Store, req: SettingsUpdate): (res: (Store, Result<Settings>))
    ensures res.1.Err? <==> UpdateError(req).Some?
    ensures res.1.Err? ==> res.1.reason == UpdateError(req).value && res.0 == GetSettings(st).0
    ensures res.1.Ok? ==>
      var cur := GetSettings(st).1;
      var s := res.1.value;
      && res.0 == st.(settings := Some(s))
      && s.rewardRatePerKg == (match req.rewardRatePerKg
           case RateAbsent => cur.rewardRatePerKg
           case RateNull => None
           case RateNum(x) => Some(x))
      && s.eWasteCategories == (if req.eWasteCategories.List? then req.eWasteCategories.items else cur.eWasteCategories)
      && s.regionCoverage == (if req.regionCoverage.List? then req.regionCoverage.items else cur.regionCoverage)
      && (req.pickupLimits.None? ==> s.pickupLimits == cur.pickupLimits)
      && (req.pickupLimits.Some? ==> s.pickupLimits == MergeLimits(cur.pickupLimits, req.pickupLimits.value))
  {
    var (st1, cur) := GetSettings(st);
    match UpdateError(req)
    case Some(e) => (st1, Err(e))
    case None =>
      var rate := match req.rewardRatePerKg
        case RateAbsent => cur.rewardRatePerKg
        case RateNull => None
        case RateNum(x) => Some(x);
      var s := Settings(
        rate,
        if req.eWasteCategories.List? then req.eWasteCategories.items else cur.eWasteCategories,
        if req.pickupLimits.Some? then MergeLimits(cur.pickupLimits, req.pickupLimits.value) else cur.pickupLimits,
        if req.regionCoverage.List? then req.regionCoverage.items else cur.regionCoverage);
      (st1.(settings := Some(s)), Ok(s))
  }

  /** Reading the settings after an accepted update returns exactly what the update
      reported. */
  lemma UpdateThenGet(st: Store, req: SettingsUpdate)
    requires UpdateSettings(st, req).1.Ok?
    ensures GetSettings(UpdateSettings(st, req).0) == (UpdateSettings(st, req).0, UpdateSettings(st, req).1.value)
  {
  }

  /** An update with every field absent only fetches the document. */
  lemma EmptyUpdateIsGet(st: Store)
    ensures UpdateSettings(st, SettingsUpdate(RateAbsent, ListAbsent, None, ListAbsent))
         == (GetSettings(st).0, Ok(GetSettings(st).1))
  {
  }

  /** Applying the same accepted update twice gives the same document as applying it once. */
  lemma UpdateIdempotent(st: Store, req: SettingsUpdate)
    requires UpdateSettings(st, req).1.Ok?
    ensures UpdateSettings(UpdateSettings(st, req).0, req) == UpdateSettings(st, req)
  {
  }

  /** A stored rate never becomes negative through an update, starting from a non-negative
      one. */
  lemma UpdateKeepsRateNonNegative(st: Store, req: SettingsUpdate)
    requires st.settings.Some? && st.settings.value.rewardRatePerKg.Some? ==> st.settings.value.rewardRatePerKg.value >= 0.0
    requires UpdateSettings(st, req).1.Ok?
    ensures UpdateSettings(st, req).1.value.rewardRatePerKg.Some? ==> UpdateSettings(st, req).1.value.rewardRatePerKg.value >= 0.0
  {
  }
}

=== FILE: strings.dfy ===
/** The JavaScript string operations the source relies on: `length`, `includes`,
    `startsWith`, `split`, `trim` and (ASCII) `toLowerCase`. */
module Strings {
  import opened Common

  /** `sep` occurs in `s` starting at index `i`. */
  predicate OccursAt(s: string, sep: string, i: int) {
    0 <= i && i + |sep| <= |s| && s[i..i + |sep|] == sep
  }

  predicate StartsWith(s: string, prefix: string) {
    |prefix| <= |s| && s[..|prefix|] == prefix
  }

  /** A character outside the Basic Multilingual Plane, which JavaScript stores as a
      surrogate pair. */
  predicate Astral(c: char) {
    c as int > 0xFFFF
  }

  /** `s.length` in JavaScript: the number of UTF-16 code units, in which an astral
      character counts twice. */
  function JsLength(s: string): (n: nat)
    ensures |s| <= n <= 2 * |s|
  {
    if |s| == 0 then 0 else (if Astral(s[0]) then 2 else 1) + JsLength(s[1..])
  }

  /** The JavaScript length is the character count exactly when no character is astral. */
  lemma {:induction false} JsLengthIsCount(s: string)
    ensures JsLength(s) == |s| <==> forall i :: 0 <= i < |s| ==> !Astral(s[i])
  {
    if |s| > 0 {
      JsLengthIsCount(s[1..]);
      assert forall i :: 1 <= i < |s| ==> s[i] == s[1..][i - 1];
    }
  }

  /** Index of the first occurrence of `sep` in `s` (`String.prototype.indexOf`). */
  function Find(s: string, sep: string): (r: Option<nat>)
    ensures r.Some? ==> OccursAt(s, sep, r.value)
    ensures r.Some? ==> forall j :: 0 <= j < r.value ==> !OccursAt(s, sep, j)
    ensures r.None? ==> forall j :: 0 <= j <= |s| ==> !OccursAt(s, sep, j)
    ensures r.Some? <==> Contains(s, sep)
  {
    if |s| < |sep| then None
    else if s[..|sep|] == sep then Some(0)
    else
      match Find(s[1..], sep)
      case None =>
        assert forall j :: 1 <= j <= |s| ==> (OccursAt(s, sep, j) ==> OccursAt(s[1..], sep, j - 1));
        None
      case Some(i) =>
        assert s[1..][i..i + |sep|] == s[i + 1..i + 1 + |sep|];
        assert forall j :: 1 <= j < i + 1 ==> (OccursAt(s, sep, j) ==> OccursAt(s[1..], sep, j - 1));
        assert OccursAt(s, sep, i + 1);
        Some(i + 1)
  }

  /** `String.prototype.includes`. */
  predicate Contains(s: string, sep: string) {
    exists j :: 0 <= j <= |s| && OccursAt(s, sep, j)
  }

  /** Joining with the separator: the inverse of `Split`. */
  function Join(parts: seq<string>, sep: string): string {
    if |parts| == 0 then ""
    else if |parts| == 1 then parts[0]
    else parts[0] + sep + Join(parts[1..], sep)
  }

  /** No occurrence of `sep` lies wholly before its first occurrence. */
  lemma BeforeFirstLacks(s: string, sep: string)
    requires |sep| > 0 && Contains(s, sep)
    ensures !Contains(s[..Find(s, sep).value], sep)
  {
    var i := Find(s, sep).value;
    var head := s[..i];
    forall j | 0 <= j <= |head| ensures !OccursAt(head, sep, j) {
      if OccursAt(head, sep, j) {
        assert head[j..j + |sep|] == s[j..j + |sep|];
        assert OccursAt(s, sep, j);
      }
    }
  }

  /** `String.prototype.split` with a non-empty separator string. */
  function Split(s: string, sep: string): (parts: seq<string>)
    requires |sep| > 0
    ensures |parts| >= 1
    decreases |s|
  {
    match Find(s, sep)
    case None => [s]
    case Some(i) => [s[..i]] + Split(s[i + |sep|..], sep)
  }

  /** The split has a second piece exactly when the separator occurs; otherwise it is the
      string alone. Its first piece is a prefix of the string. */
  lemma SplitShape(s: string, sep: string)
    requires |sep| > 0
    ensures Contains(s, sep) <==> |Split(s, sep)| >= 2
    ensures !Contains(s, sep) ==> Split(s, sep) == [s]
    ensures |Split(s, sep)[0]| <= |s| && Split(s, sep)[0] == s[..|Split(s, sep)[0]|]
  {
    match Find(s, sep)
    case None =>
    case Some(i) =>
      assert Split(s, sep)[0] == s[..i];
  }

  /** No piece of a split holds the separator. */
  lemma {:induction false} SplitPiecesLack(s: string, sep: string, k: nat)
    requires |sep| > 0 && k < |Split(s, sep)|
    ensures !Contains(Split(s, sep)[k], sep)
    decreases |s|
  {
    match Find(s, sep)
    case None =>
    case Some(i) =>
      var rest := Split(s[i + |sep|..], sep);
      assert Split(s, sep) == [s[..i]] + rest;
      if k == 0 {
        BeforeFirstLacks(s, sep);
      } else {
        assert Split(s, sep)[k] == rest[k - 1];
        SplitPiecesLack(s[i + |sep|..], sep, k - 1);
      }
  }

  /** Splitting at the first occurrence: the text before it, then the pieces of the rest. */
  lemma {:induction false} SplitUnfold(s: string, sep: string, i: nat)
    requires |sep| > 0 && Find(s, sep) == Some(i)
    ensures Split(s, sep) == [s[..i]] + Split(s[i + |sep|..], sep)
  {
  }

  lemma JoinCons(a: string, parts: seq<string>, sep: string)
    requires |parts| >= 1
    ensures Join([a] + parts, sep) == a + sep + Join(parts, sep)
  {
    assert ([a] + parts)[1..] == parts;
  }

  /** Joining the pieces with the separator gives back the string. */
  lemma {:induction false} SplitJoin(s: string, sep: string)
    requires |sep| > 0
    ensures Join(Split(s, sep), sep) == s
    decreases |s|
  {
    match Find(s, sep)
    case None =>
    case Some(i) =>
      var rest := s[i + |sep|..];
      SplitUnfold(s, sep, i);
      JoinCons(s[..i], Split(rest, sep), sep);
      SplitJoin(rest, sep);
      AroundOccurrence(s, sep, i);
  }

  /** A string is the text before an occurrence, the separator, and the text after it. */
  lemma AroundOccurrence(s: string, sep: string, i: nat)
    requires OccursAt(s, sep, i)
    ensures s == s[..i] + sep + s[i + |sep|..]
  {
    assert s == s[..i] + s[i..i + |sep|] + s[i + |sep|..];
  }

  /** The last piece of a split (`split(sep).pop()`): what follows the last occurrence of
      the separator. */
  function LastPiece(s: string, sep: string): string
    requires |sep| > 0
  {
    var parts := Split(s, sep);
    parts[|parts| - 1]
  }

  /** The last piece holds no separator, and is the whole string when there is none. */
  lemma LastPieceLacks(s: string, sep: string)
    requires |sep| > 0
    ensures !Contains(LastPiece(s, sep), sep)
    ensures !Contains(s, sep) ==> LastPiece(s, sep) == s
  {
    SplitPiecesLack(s, sep, |Split(s, sep)| - 1);
  }

  /** A one-character separator occurs exactly when the character does. */
  lemma ContainsChar(s: string, c: char)
    ensures Contains(s, [c]) <==> c in s
  {
    if Contains(s, [c]) {
      var i := Find(s, [c]).value;
      assert s[i..i + 1] == [c];
      assert s[i] == c;
    }
    if c in s {
      var i :| 0 <= i < |s| && s[i] == c;
      assert s[i..i + 1] == [c];
      assert OccursAt(s, [c], i);
    }
  }

  /** The first occurrence of `sep` in `a + sep + b` is the one right after `a` when no
      occurrence starts inside `a`. */
  lemma FindAfterFirst(a: string, sep: string, b: string)
    requires |sep| > 0
    requires !Contains(a + sep[..|sep| - 1], sep)
    ensures Find(a + sep + b, sep) == Some(|a|)
  {
    var s := a + sep + b;
    var a' := a + sep[..|sep| - 1];
    assert s[|a|..|a| + |sep|] == sep;
    assert OccursAt(s, sep, |a|);
    var i := Find(s, sep).value;
    if i < |a| {
      assert s[..|a'|] == a';
      assert s[i..i + |sep|] == s[..|a'|][i..i + |sep|];
      assert OccursAt(a', sep, i);
      assert false;
    }
  }

  /** Splitting `a + sep + b` yields `a` and then the pieces of `b`. */
  lemma SplitAfterFirst(a: string, sep: string, b: string)
    requires |sep| > 0
    requires !Contains(a + sep[..|sep| - 1], sep)
    ensures Split(a + sep + b, sep) == [a] + Split(b, sep)
  {
    var s := a + sep + b;
    FindAfterFirst(a, sep, b);
    assert s[..|a|] == a;
    assert s[|a| + |sep|..] == b;
  }

  /** Past the first occurrence of the separator, the last piece is that of the rest. */
  lemma {:induction false} LastPieceSkip(s: string, sep: string, i: nat)
    requires |sep| > 0 && Find(s, sep) == Some(i)
    ensures LastPiece(s, sep) == LastPiece(s[i + |sep|..], sep)
  {
    var tail := Split(s[i + |sep|..], sep);
    var parts := Split(s, sep);
    assert parts == [s[..i]] + tail;
    assert parts[|parts| - 1] == tail[|tail| - 1];
  }

  /** The last piece after a one-character separator is what follows its last occurrence. */
  lemma {:induction false} LastPieceAfter(a: string, c: char, b: string)
    requires c !in b
    ensures LastPiece(a + [c] + b, [c]) == b
    decreases |a|
  {
    var s := a + [c] + b;
    assert s[|a|..|a| + 1] == [c];
    assert OccursAt(s, [c], |a|);
    var i := Find(s, [c]).value;
    assert i <= |a|;
    LastPieceSkip(s, [c], i);
    if i == |a| {
      assert s[i + 1..] == b;
      ContainsChar(b, c);
    } else {
      assert s[i + 1..] == a[i + 1..] + [c] + b;
      LastPieceAfter(a[i + 1..], c, b);
    }
  }

  /** The white-space and line-terminator characters that `String.prototype.trim` removes. */
  predicate IsJsWhiteSpace(c: char) {
    || c == '\t' || c == '\n' || c == '\U{B}' || c == '\U{C}' || c == '\r' || c == ' '
    || c == '\U{A0}' || c == '\U{1680}' || ('\U{2000}' <= c <= '\U{200A}')
    || c == '\U{2028}' || c == '\U{2029}' || c == '\U{202F}' || c == '\U{205F}'
    || c == '\U{3000}' || c == '\U{FEFF}'
  }

  function TrimStart(s: string): (r: string)
    ensures |r| <= |s| && r == s[|s| - |r|..]
    ensures |r| > 0 ==> !IsJsWhiteSpace(r[0])
    ensures forall i :: 0 <= i < |s| - |r| ==> IsJsWhiteSpace(s[i])
  {
    if |s| > 0 && IsJsWhiteSpace(s[0]) then TrimStart(s[1..]) else s
  }

  function TrimEnd(s: string): (r: string)
    ensures |r| <= |s| && r == s[..|r|]
    ensures |r| > 0 ==> !IsJsWhiteSpace(r[|r| - 1])
    ensures forall i :: |r| <= i < |s| ==> IsJsWhiteSpace(s[i])
  {
    if |s| > 0 && IsJsWhiteSpace(s[|s| - 1]) then TrimEnd(s[..|s| - 1]) else s
  }

  /** `String.prototype.trim`. */
  function Trim(s: string): (r: string)
    ensures |r| > 0 ==> !IsJsWhiteSpace(r[0]) && !IsJsWhiteSpace(r[|r| - 1])
    ensures r == "" <==> forall i :: 0 <= i < |s| ==> IsJsWhiteSpace(s[i])
  {
    TrimEnd(TrimStart(s))
  }

  function ToLowerChar(c: char): char {
    if 'A' <= c <= 'Z' then (c as int + 32) as char else c
  }

  /** `String.prototype.toLowerCase`, restricted to the ASCII letters. */
  function ToLower(s: string): (r: string)
    ensures |r| == |s|
    ensures forall i :: 0 <= i < |s| ==> r[i] == ToLowerChar(s[i])
  {
    if |s| == 0 then "" else [ToLowerChar(s[0])] + ToLower(s[1..])
  }
}
